=== FILE: README.md ===
# observers-backend in Dafny

A model of the request logic of observers-backend. The backend is a FastAPI and
SQLAlchemy service. It serves:

- a question-and-answer forum with roles, users, tags, questions and comments;
- notifications;
- news articles that users like or dislike;
- a bearer-token login;
- a websocket chat.

The model keeps what the code decides and drops the plumbing around it.

**The database.** It is one immutable `Models.Store`:

- One `map<nat, Row>` per table. The question's tag list and the article's like and
  dislike lists are stored inside their rows.
- One counter `next`, shared by every table, for the next id. The database keeps one
  serial sequence per table. No stated property depends on ids of different tables
  being distinct, so the shared counter only makes fresh ids easier to state.
- A commit check, `Crud.Commit`, that refuses a store breaking a unique column or an
  association table's primary key.

Each CRUD function of `database/crud.py` is a pure function from a store to a
`Result`. A failure carries the `HTTPException` the source raises: status, detail and
bearer challenge.

**Partial updates.** Each field of an `*Update` body is a `Schemas.Patch`: left out,
sent as JSON `null`, or sent with a value. `dict(exclude_unset=True)` keeps a null,
and every patchable column of database/models.py is `nullable=False`. So a merge
that would write a null returns `None`, and the UPDATE then fails with the integrity
error `Crud.NullViolation`.

**Frame conditions.** Each write states its frame as a `WritesX` predicate. It names
the tables left alone, the constraints kept and the links into the old store. A
`WritesXValid` lemma then turns every write into preservation of the store invariant
`Models.Valid`. The cascading deletes are the exception. They are stated directly:
`DeleteUsers`, `DeleteQuestions`, `DeleteRoleCascade` and `DeleteTagCascade`, each
with its own validity lemma.

**The routers.** They are functions of the current user. The model represents that
user as an `Actor`: an id and a role title. Each endpoint's contract says when the
caller is refused, with which status and text, and otherwise which CRUD outcome it
returns.

- The two decorators are gates, combined with `Decorators.Guarded`.
- Path keys typed `Union[int, str]` arrive as `Http.PathKey`. Each router classifies
  them the way its code does.
- A chat client's frames are `Chat.Frame`s. A frame `receive_json` cannot decode ends
  the session without the disconnect, so the pair stays registered.

**Abstracted dependencies.** Password hashing, JWT signing and decoding, and the
clock are parameters:

- `hash: string -> string`;
- `verify: (string, string) -> bool`;
- `encode: Claims -> string`;
- `decode: string -> Option<Claims>`;
- `now: int`, in seconds.

`SecurityToken.SoundCodec` states the one property of the codec the proofs rely on:
a signed token decodes to its claims.

**The `isemail` recognizer.** The regular expression of `services.py` is written as a
grammar, `Email.EmailPattern`. It is also written as a decidable recognizer,
`Email.IsEmail`, and the two are proved equal. The regex's quirks are kept as
written:

- `[.-_]` is a character range that admits `@` and excludes `-`.
- `[A-Z|a-z]` admits `|`.

**The chat.** The registry of `SocketManager` is a sequence of (connection, user)
pairs. A chat session is a sequential trace of deliveries: join, relays, then leave.

## Model

| member | source | states |
|---|---|---|
| Http.Find | database/crud.py:15-38 | `get_object` succeeds exactly for an id naming a row and returns that row's id; any other id, negative ones included, is the 404 "with this id does not exist" |
| Ascii.Lower | database/crud.py:457 | `str.lower` keeps the length and lower-cases each ASCII letter in place |
| Ascii.LowerIdempotent | database/crud.py:457-458 | lower-casing twice is lower-casing once, leaves no upper-case letter, and does not change whether a title is alphanumeric |
| Ascii.Delete | database/crud.py:458 | `replace(c, '')` leaves no `c`, never lengthens the text, keeps every other character exactly as often as before (multiset), and changes nothing when `c` is absent |
| Ascii.DeleteConcat | database/crud.py:458 | deleting from `a + b` gives the deletion from `a` followed by the deletion from `b`, so the kept characters keep their order |
| Ascii.DeleteAll | dependencies.py:73 | `replace("Bearer ", "")` never lengthens the text; what it removes is stated by the two lemmas below |
| Ascii.DeleteAllAbsent | dependencies.py:73 | text without `"Bearer "` passes through the replace unchanged |
| Ascii.DeleteAllPrefix | dependencies.py:73 | a leading `"Bearer "` is deleted and the rest is processed as if alone |
| Lists.Window | database/crud.py:94-96 | `offset(skip).limit(limit)` returns the rows at positions [skip, skip + limit), as many as remain up to `limit` |
| Lists.WindowsTile | database/crud.py:94-96 | two adjacent pages concatenate to the page spanning both |
| Lists.WindowWhole | database/crud.py:96 | a page from offset 0 at least as wide as the table is the whole table |
| Lists.FirstIndex | database/crud.py:653 | `list.index` is the first position holding the element |
| Lists.RemoveFirst | routers/chat/socket_manager.py:14-15 | `list.remove` deletes the first occurrence and keeps the order of the rest; it fails exactly when the element is absent |
| Lists.RemoveFirstOfUnique | database/crud.py:652-654 | on a list without repeats, removing an element filters it out and keeps the list free of repeats |
| Lists.SortBy | database/crud.py:94-95 | `order_by` returns a permutation of the rows sorted on the key in the requested direction |
| Email.IsEmailMatchesPattern | services.py:9-10 | the recognizer accepts exactly the strings the `isemail` regular expression fully matches |
| Email.LocalAgrees | services.py:10 | the local-part group `([A-Za-z0-9]+[.-_])*[A-Za-z0-9]+` matches exactly the strings of alphanumeric runs joined by single separators |
| Email.SuffixesAgree | services.py:10 | `(\.[A-Z\|a-z]{2,})+` matches exactly the dot-led runs of at least two letters or bars |
| Email.DomainAgrees | services.py:10 | the domain group matches exactly a non-empty label up to the first dot followed by suffixes |
| Email.DomainHasNoAt | services.py:10 | a domain holds no '@', so the '@' separating the parts is the last one |
| Email.EmailOf | services.py:10 | any local part glued by '@' to any domain is accepted |
| Email.AtMayJoinLocalParts | services.py:10 | since `[.-_]` is a range containing '@', an address may hold two '@' |
| Email.LocalPartHasNoHyphen | services.py:10 | since the range excludes '-', no accepted address has a hyphen before its last '@' |
| Email.AcceptedAddressEnds | services.py:10 | the match is anchored: an accepted address has at least 6 characters, starts with a letter or digit and ends with two suffix characters |
| Email.HyphenatedAddressRejected | services.py:10 | "ann-bob@mail.com" is rejected |
| Email.BarAcceptedInSuffix | services.py:10 | "mail.c\|m" is a domain the pattern accepts |
| Models.EmptyStoreValid | database/models.py:27-52 | an empty database satisfies every unique, primary-key and foreign-key constraint |
| Models.Ids | database/crud.py:96 | an unordered query lists each row exactly once, by ascending id |
| Models.FirstWhere | database/crud.py:54 | `.filter(expr).first()` finds the lowest matching id, and finds nothing exactly when no row matches |
| Models.Without | database/models.py:14-24 | dropping ids from an association list keeps exactly the other ids and keeps the list free of repeats |
| Models.DeleteQuestions | database/models.py:92-93 | deleting questions removes exactly them, their comments and their notifications; every other row is unchanged |
| Models.DeleteUsers | database/models.py:50-52 | deleting users removes exactly them, their notifications, questions and comments, and everything hanging off those questions; they leave every like and dislike list; nothing else changes |
| Models.DeleteRoleCascade | database/models.py:33 | deleting a role removes exactly that role and the users holding it, and apart from the roles table leaves the store that deleting those users leaves, with all their cascades |
| Models.DeleteTagCascade | database/models.py:10-11 | deleting a tag removes it and takes it out of every question's tag list; nothing else changes |
| Models.DeleteQuestionsValid | database/models.py:92-93 | the question cascade leaves no dangling reference |
| Models.DeleteUsersValid | database/models.py:50-52 | the user cascade leaves no dangling reference |
| Models.DeleteRoleValid | database/models.py:33 | the role cascade leaves no user without a role |
| Models.DeleteTagValid | database/models.py:10-11 | the tag cascade leaves no question pointing at a missing tag |
| Models.WritesRolesValid | database/models.py:31 | a role write that keeps titles unique preserves the store invariant |
| Models.WritesUsersValid | database/models.py:43-48 | a user write that keeps usernames and emails unique and roles existing preserves the invariant |
| Models.WritesNotificationsValid | database/models.py:63-64 | a notification write whose rows name existing users and questions preserves the invariant |
| Models.WritesTagsValid | database/models.py:74 | a tag write that keeps titles unique and drops no tag preserves the invariant |
| Models.WritesQuestionsValid | database/models.py:90 | a question write with existing authors and repeat-free tag lists preserves the invariant |
| Models.WritesCommentsValid | database/models.py:106-107 | a comment write whose rows name existing users and questions preserves the invariant |
| Models.WritesArticlesValid | database/models.py:14-24 | an article write with repeat-free rating lists of existing users preserves the invariant |
| Crud.FindWhere | database/crud.py:41-62 | with `raise_404`, the lookup returns a matching row, or the "with this field" 404 exactly when no row matches |
| Crud.FindWhereUnique | database/models.py:31 | under the unique title column the lookup names the one role with the title |
| Crud.Commit | database/crud.py:495-497 | a commit keeps the pending store exactly when it breaks no unique or primary key, and raises the integrity error otherwise |
| Crud.Written | database/crud.py:137 | the UPDATE yields the merged row exactly when the merge put no NULL into a NOT NULL column, and raises the integrity error otherwise |
| Crud.Rows | database/crud.py:94-96 | a query returns every row of the table exactly once, sorted on the column when there is an `order_by` |
| Crud.GetObjects | database/crud.py:81-96 | `get_objects` returns the rows at positions [skip, skip + limit) of the query order, each a row of the table |
| Crud.GetObjectsAll | database/crud.py:96 | an unordered page from 0 at least as wide as the table lists every row once, by ascending id |
| Crud.WindowOrdered | database/crud.py:94-95 | every page of an ordered query is ordered on that column |
| Crud.OrderByColumn | database/crud.py:609-611 | `.order_by(column.asc())` permutes the rows into ascending column order |
| Crud.Where | database/crud.py:65-78 | `get_objects_by_expression` returns exactly the matching rows |
| RoleCrud.CreateRole | database/crud.py:144-168 | a title already held is refused with 403; otherwise exactly one role with that title is added under a fresh id and the other tables are untouched |
| RoleCrud.UpdateRole | database/crud.py:171-193 | a title held by another id is refused with 403 before the id is looked up; a missing id is a 404; a null title fails with the NOT NULL integrity error; otherwise only that role's sent fields change |
| RoleCrud.UpdateRoleByTitle | database/crud.py:196-210 | an unknown title is the "with this field" 404; a known one behaves as `update_role` on its id |
| RoleCrud.DeleteRole | database/crud.py:99-115 | deleting a role that exists is the role cascade; a missing id is a 404 |
| RoleCrud.DeleteRoleByTitle | database/crud.py:213-229 | an unknown title is a 404; a known one is the role cascade on its id |
| RoleCrud.RoleTitleRoundTrips | database/crud.py:158-193 | creating the same role twice is refused, and resubmitting a role's own title as an update succeeds without change |
| UserCrud.CreateUser | database/crud.py:232-266 | a username or email already taken is refused with 403, then a missing role with 404; otherwise one user is added with only the hash of the password stored |
| UserCrud.StoredPassword | database/crud.py:295-296 | a non-empty password is hashed, an empty or null one passes through as sent, and one left out stays left out |
| UserCrud.UpdateUser | database/crud.py:269-305 | a missing user is a 404; with no email clash the patch succeeds exactly when it sends no null, and a null (which skips both `if` checks) fails with the NOT NULL integrity error; a success changes only the sent columns of that user and never the username or role |
| UserCrud.UpdateUserRefusals | database/crud.py:287-302 | a non-empty email held by another user is refused with 403; the NOT NULL error comes only from a null field, and the unique-key error only from an empty email another user also has |
| UserCrud.DeleteUser | database/crud.py:99-115 | deleting an existing user is the user cascade; a missing id is a 404 |
| UserCrud.CreatedUserIsFound | database/crud.py:247-263 | a created user is found again by username and by email, and a second registration with either is refused |
| NotificationCrud.CreateNotification | database/crud.py:308-335 | the addressee is checked before the question, each with its own 404; otherwise exactly one notification is added |
| NotificationCrud.NotificationsOf | database/crud.py:360-361 | a user's notifications are exactly those addressed to them, newest id first |
| NotificationCrud.NotificationsByUser | database/crud.py:338-361 | an unknown user is a 404; otherwise the page [skip, skip + limit) of that user's notifications |
| NotificationCrud.NotificationPageIsTheUsers | database/crud.py:360-361 | every page holds only the user's notifications, in strictly descending id order |
| NotificationCrud.NotificationPagesTile | database/crud.py:360-361 | consecutive pages of a user's notifications concatenate to the page spanning both |
| NotificationCrud.DeleteNotificationsByUser | database/crud.py:364-387 | an unknown user is a 404; otherwise exactly that user's notifications are removed and the others are kept as they were |
| NotificationCrud.UpdateNotification | database/crud.py:118-141 | only the notification's title is patched; a missing id is a 404 and a null title the NOT NULL integrity error |
| NotificationCrud.DeleteNotification | database/crud.py:99-115 | exactly that notification is removed; a missing id is a 404 |
| TagCrud.CreateTag | database/crud.py:390-413 | a title already held is refused with 403 "already exist."; otherwise exactly one tag is added |
| TagCrud.UpdateTag | database/crud.py:416-438 | a title held by another id is refused with 403 "already exists." before the id is looked up; a missing id is a 404; a null title fails with the NOT NULL integrity error; otherwise only that tag changes |
| TagCrud.DeleteTag | database/crud.py:99-115 | deleting an existing tag is the tag cascade; a missing id is a 404 |
| TagCrud.TagCreateTwiceRefused | database/crud.py:404-408 | creating the same tag twice is refused with 403 |
| TagCrud.TagTitleRoundTrips | database/crud.py:431-438 | resubmitting a tag's own title as an update succeeds and changes nothing |
| TagCrud.ValidTagTitleIff | database/crud.py:458 | a title passes exactly when it is made of letters, digits, '.', '-' and '_' and holds at least one letter or digit |
| TagCrud.AddTags | database/crud.py:464-468 | the loop yields one tag id per title and only moves the id counter forward |
| TagCrud.AddTagsResolves | database/crud.py:464-468 | each title gets a tag carrying it, a committed one exactly when one has that title; committed tags are kept; every new row is some title's tag |
| TagCrud.AddTagsKeys | database/crud.py:464-468 | because lookups do not see tags added earlier in the loop, titles stay unique and the appended ids distinct exactly when no title repeats |
| TagCrud.FillTags | database/crud.py:441-468 | no titles means no change; a title that is not valid once lower-cased is refused with 400; otherwise only the tag table and that question's tag list change |
| TagCrud.FillTagsAppends | database/crud.py:456-468 | one tag per title is appended to the session's list in input order, each carrying the lower-cased title and reusing a committed tag exactly when one has that title |
| TagCrud.FillTagsCommits | database/crud.py:464-468 | for an untagged question, the commit succeeds exactly when no two titles are equal once lower-cased |
| TagCrud.FillTagsFromEmpty | database/crud.py:545-547 | an untagged question ends up with exactly the titles' tags, in the session's list in input order |
| QuestionCrud.FindAuthor | database/crud.py:485 | the author must be given and exist, or the result is the user 404 |
| QuestionCrud.AddQuestion | database/crud.py:487-493 | a new question starts with 0 views and no tags under a fresh id |
| QuestionCrud.CreateQuestion | database/crud.py:471-499 | a missing author is a 404, then a bad tag title a 400; a created question has the given title, content and author, 0 views, and a committable store |
| QuestionCrud.CreateQuestionUntagged | database/crud.py:453-454 | without titles the question has no tags and the tag table is unchanged |
| QuestionCrud.CreateQuestionTags | database/crud.py:495 | with titles the question's tags are the titles' tags, lower-cased, reusing committed tags, in the session's list in input order |
| QuestionCrud.CreateQuestionCommits | database/crud.py:495-497 | with an author and valid titles, creation fails at the commit exactly when two titles are equal once lower-cased |
| QuestionCrud.CreateQuestionFrame | database/crud.py:471-499 | creation adds one question under a fresh id and touches only the questions and tags tables |
| QuestionCrud.CreateQuestionWrites | database/crud.py:471-499 | creation is a tag-table write followed by a question-table write |
| QuestionCrud.CreateQuestionValid | database/crud.py:471-499 | creation keeps the store invariant |
| QuestionCrud.PatchQuestion | database/crud.py:537-546 | the row after a null-free UPDATE takes the sent title, content and views, and its tags are emptied exactly when the patch brings a non-empty tag list |
| QuestionCrud.UpdateQuestion | database/crud.py:525-552 | a missing question is a 404; a null title, content or views fails with the NOT NULL integrity error before the tags are looked at; then a bad tag is a 400; without tags only the merged columns change; the result is committable |
| QuestionCrud.UpdateQuestionUntagged | database/crud.py:537-549 | without a non-empty tag list an existing question is updated exactly when no column is sent as null |
| QuestionCrud.UpdateQuestionCommits | database/crud.py:537-549 | with valid titles, the update succeeds exactly when no column is null and no two titles are equal once lower-cased, and fails with the matching integrity error |
| QuestionCrud.UpdateQuestionRetags | database/crud.py:545-547 | a non-empty tag list replaces the tags by the titles' tags, in the session's list in input order |
| QuestionCrud.UpdateQuestionFrame | database/crud.py:525-552 | the update touches only that question and the tag table |
| QuestionCrud.UpdateQuestionWrites | database/crud.py:525-552 | the update is a tag-table write followed by a question-table write |
| QuestionCrud.UpdateQuestionValid | database/crud.py:525-552 | the update keeps the store invariant |
| QuestionCrud.DeleteQuestion | database/crud.py:99-115 | deleting an existing question is the question cascade; a missing id is a 404 |
| QuestionCrud.QuestionsByAuthor | routers/forum/questions.py:119-123 | exactly the user's questions, by ascending id; a user with questions exists |
| CommentCrud.AddComment | database/crud.py:576-583 | a new comment is not an answer and goes under a fresh id; only the comment table changes |
| CommentCrud.CreateComment | database/crud.py:555-595 | a missing author and then a missing question each give their own 404; otherwise the comment is added as given |
| CommentCrud.CreateCommentNotifies | database/crud.py:585-593 | a notification is added exactly when the commenter is not the question's author; it goes to that author, names the commenter and the question, and is the only one |
| CommentCrud.CreateCommentWrites | database/crud.py:555-595 | creation is a comment-table write followed by a notification-table write |
| CommentCrud.CreateCommentValid | database/crud.py:555-595 | creation keeps the store invariant |
| CommentCrud.UpdateComment | database/crud.py:118-141 | only that comment's sent columns change; a missing id is a 404 and a null column the NOT NULL integrity error |
| CommentCrud.DeleteComment | database/crud.py:99-115 | exactly that comment is removed; a missing id is a 404 |
| CommentCrud.CommentsOfQuestion | database/crud.py:598-612 | exactly the question's comments, without repeats, oldest first |
| ArticleCrud.CreateArticle | database/crud.py:615-631 | one article rated by nobody is added under a fresh id |
| ArticleCrud.UpdateArticle | database/crud.py:118-141 | only the sent title and content change, never the ratings; a missing id is a 404 and a null column the NOT NULL integrity error |
| ArticleCrud.DeleteArticle | database/crud.py:99-115 | exactly that article is removed; a missing id is a 404 |
| ArticleCrud.Toggle | database/crud.py:650-662 | the toggle never changes the article's title, content or date |
| ArticleCrud.ToggleWithdraws | database/crud.py:652-654 | a user already in the chosen list is taken out of it and the other list is untouched |
| ArticleCrud.ToggleChooses | database/crud.py:655-662 | otherwise the user is appended to the chosen list (at the end of the session's list) and removed from the opposite one, which keeps everyone else |
| ArticleCrud.ToggleExclusive | database/crud.py:650-662 | afterwards the user is in at most one list, both lists stay free of repeats, and every other user's memberships are unchanged |
| ArticleCrud.ToggleTwiceUndoes | database/crud.py:650-662 | for a user who had not rated, the same rating given twice restores the article |
| ArticleCrud.UpdateArticleRating | database/crud.py:634-662 | the article is looked up before the user, each with its own 404; only that article changes, by the toggle |
| ArticleCrud.ToggleWrites | database/models.py:14-24 | a toggle by an existing user keeps the association keys and links |
| ArticleCrud.ToggleKeepsRaters | database/models.py:14-24 | a toggle by a known user keeps both lists free of repeats and made of known users |
| Schemas.MergeRole | database/crud.py:131-137 | the merged row is refused exactly when the title is sent as null; a sent title overwrites; a title left out keeps the role |
| Schemas.MergeNotification | database/crud.py:131-137 | refused exactly for a null title; a sent title overwrites; addressee and question never change |
| Schemas.MergeTag | database/crud.py:131-137 | refused exactly for a null title; a sent title overwrites; a title left out keeps the tag |
| Schemas.MergeUser | database/crud.py:298-301 | refused exactly when some field is null; otherwise only sent columns can differ, each taking the patch value, and username, role and date never change |
| Schemas.MergeQuestion | database/crud.py:537-541 | refused exactly when title, content or views is null; otherwise only those sent columns can differ, each taking the patch value, and author, date and tags never change |
| Schemas.MergeComment | database/crud.py:131-137 | refused exactly when a field is null; otherwise only sent content and answer mark can differ, and author, question and date never change |
| Schemas.MergeArticle | database/crud.py:131-137 | refused exactly when a field is null; otherwise only sent title and content can differ, and date and ratings never change |
| Schemas.MergesIdempotent | database/crud.py:134-135 | applying an accepted patch twice equals applying it once, and a patch that sends no field changes nothing |
| Schemas.MergeReachesEveryPatchableColumn | database/schemas.py:46-49 | a patch can turn a user into any user with the same username, role and date |
| Schemas.MemberIndex | database/schemas.py:182-184 | `_member_names_.index` finds the member at its declared position |
| Schemas.PyIndex | database/crud.py:659 | a negative index counts from the end of the list |
| Schemas.Opposite | database/crud.py:658-659 | the list "index − 1" names, and clears, is never the chosen rating type |
| Schemas.OppositeSwaps | database/schemas.py:182-184 | with the two members likes, dislikes, the opposite maps each to the other and is its own inverse |
| Decorators.AdminGate | decorators.py:6-16 | refuses with 403 "You are not an admin." exactly when a current user is present whose role title is not "Admin" |
| Decorators.AccessGate | decorators.py:19-31 | lets through exactly when there is no current user, or an admin, or the user named by `user_id`; otherwise 403 "You are not that user." |
| Decorators.Guarded | decorators.py:14 | an allowed call returns the endpoint's own outcome unchanged; a refused one never reaches it |
| Decorators.AdminPassesBoth | decorators.py:9-24 | an admin, and a call without a current user, pass both gates |
| Decorators.AccessNeedsUserId | decorators.py:22-28 | a non-admin without a `user_id` is refused |
| Decorators.AdminGateStricter | decorators.py:6-31 | whatever the admin gate lets through the access gate does too, but a user acting on themselves passes only the access gate |
| Services.UserByLogin | services.py:13-22 | an email-shaped name is looked up only by email and any other only by username; the lookup fails exactly when that one column has no match |
| Services.EmailShapedUsernameHidden | services.py:20-22 | a username shaped like an email is never found by it unless it is someone's email |
| Services.UserByLoginUnique | services.py:20-22 | under unique columns the lookup names the one user matching |
| Dependencies.Subject | dependencies.py:48-50 | the subject is present exactly when the token has a textual `sub` claim |
| Dependencies.GetUser | dependencies.py:25-59 | succeeds exactly when the token decodes, has not expired at the request time, has a subject, and the subject names a user by email or username; every failure is the same 401 with a bearer challenge |
| Dependencies.TokenInQuery | dependencies.py:69-73 | stripping `"Bearer "` never lengthens the token |
| Dependencies.QueryTokenSchemeOptional | dependencies.py:69-80 | a query token with or without the leading `"Bearer "` resolves to the same user as the header path |
| Dependencies.GetUserByQuery | dependencies.py:76-80 | the websocket path refuses with the same 401 as the header path, resolves only to a stored user, and only for an unexpired token |
| OAuth2.AuthenticateUser | security/oauth2.py:10-22 | succeeds exactly when the name resolves to a user whose stored hash verifies the password, and returns that user |
| OAuth2.OnlyResolvedUserTried | security/oauth2.py:17-22 | a password matching a user's hash logs that user in exactly when the name is their email, if email-shaped, or their username otherwise |
| SecurityToken.ExpiryOf | security/security_token.py:30-33 | the expiry is now plus the delta when it is truthy, and now plus 15 minutes when it is absent or zero |
| SecurityToken.TokenClaims | security/security_token.py:29-34 | the claims are the caller's keys plus `exp`, with `exp` overriding and every other claim kept |
| SecurityToken.TokenDecodes | security/security_token.py:18-36 | under a sound codec the token decodes to the caller's claims with the subject kept and the computed expiry |
| SecurityToken.TokenLifetime | security/security_token.py:29-35 | a signed token passes the expiry check up to and including its `exp` second, and fails from the second after |
| SecurityRouter.LoginClaims | security/router.py:37-40 | a login signs exactly `sub` = the username and `exp` = now + 60 minutes |
| SecurityRouter.Login | security/router.py:15-41 | fails with 401 "Incorrect username or password" and a bearer challenge exactly when authentication fails; otherwise a bearer token for the stored username |
| SecurityRouter.LoginTokenSubject | security/router.py:38-40 | a login token decodes to a subject naming the user |
| SecurityRouter.LoginRoundTrip | security/router.py:30-41 | with unique usernames and a sound codec, a login token resolves back to the user who logged in, whichever name they used, at any time up to an hour after the login, when their username is not email-shaped |
| SecurityRouter.LoginTokenExpires | security/router.py:37-40 | a login token is refused from the second after its hour is up |
| SecurityRouter.EmailShapedUsernameLocksOut | security/router.py:38-40 | a user whose username is email-shaped and nobody's email can log in but is refused with the token issued |
| Chat.Connect | routers/chat/socket_manager.py:10-12 | `connect` appends the pair at the end and keeps the rest |
| Chat.Disconnect | routers/chat/socket_manager.py:14-15 | `disconnect` removes the first equal pair, keeping the order of the rest, and fails exactly for an unregistered pair |
| Chat.Send | routers/chat/socket_manager.py:17-19 | `send` makes one delivery per registered pair, in registry order |
| Chat.DisconnectUndoesConnect | routers/chat/socket_manager.py:10-15 | connecting and then disconnecting an unregistered pair restores the registry |
| Chat.SendReaches | routers/chat/socket_manager.py:17-19 | a send reaches exactly the registered connections |
| Chat.Relays | routers/chat/chat.py:27-29 | each received message goes unmodified to every registered connection, and nothing else is relayed |
| Chat.Decoded | routers/chat/chat.py:27-28 | the relayed messages are the frames before the first undecodable one, in order |
| Chat.DecodedAll | routers/chat/chat.py:27-28 | every frame is relayed exactly when every frame decodes |
| Chat.Session | routers/chat/chat.py:12-33 | a token naming nobody registers and sends nothing; when every frame decodes, the registry after the session is the one the pair's connect and disconnect leave; an undecodable frame leaves the pair registered |
| Chat.LeaveGoesToRemaining | routers/chat/chat.py:30-33 | the leave notice goes only to the connections left after the disconnect |
| Chat.SessionLeavesNoTrace | routers/chat/chat.py:26-33 | a session on a new connection whose frames all decode leaves the registry as it found it, and its leave notice goes only to connections registered before it, never to its own |
| Chat.UndecodableFrameStrands | routers/chat/chat.py:26-31 | after an undecodable frame the pair stays registered, no leave notice is sent, and later sends still address the dead connection |
| Chat.SessionOpens | routers/chat/chat.py:18-29 | every session that names a user sends its join notice and the relays of its decoded messages |
| Chat.SessionBroadcasts | routers/chat/chat.py:18-29 | every connection present at the start, and the newcomer, hear the join and receive every message sent before any undecodable frame |
| CommentsRouter.PostComment | routers/forum/comments.py:11-28 | the created comment's author is always the current user |
| CommentsRouter.ListComments | routers/forum/comments.py:31-50 | admin only; otherwise the page of the comment table |
| CommentsRouter.EditDecision | routers/forum/comments.py:86-105 | an admin gets the whole patch; else the comment's author with non-empty text gets only the text; else the question's author with an answer mark gets only the mark; else nothing |
| CommentsRouter.Forwarded | routers/forum/comments.py:91-105 | something is forwarded to the update exactly when the decision is not "nothing", and a cut-down patch never carries a null |
| CommentsRouter.EditComment | routers/forum/comments.py:68-105 | a missing comment is a 404, and an admin's null field the NOT NULL integrity error; otherwise the comment changes by the decision's patch, or nothing happens and no error is raised |
| CommentsRouter.EditCommentColumns | routers/forum/comments.py:86-105 | the text changes only for an admin or the comment's author, and the answer mark only for an admin or the question's author when the text branch did not fire |
| CommentsRouter.StrangerEditIsSilent | routers/forum/comments.py:89-105 | a non-admin who wrote neither the comment nor the question gets no change and no error |
| CommentsRouter.ContentBranchWins | routers/forum/comments.py:91-105 | a comment author sending text and an answer mark gets only the text applied |
| CommentsRouter.RemoveComment | routers/forum/comments.py:108-135 | an admin or the comment's author deletes it; anyone else gets 403 "You are not author of comment."; a missing comment is a 404 |
| QuestionsRouter.PostQuestion | routers/forum/questions.py:11-30 | the author is the current user only when none is given; a given one is kept |
| QuestionsRouter.ListingOf | routers/forum/questions.py:56-84 | a non-empty `by_title` wins; a non-empty `order_by_date` selects newest or oldest first for "desc" or "asc" in any case; only without it does `order_by_views` select most viewed |
| QuestionsRouter.DateOrderCaseInsensitive | routers/forum/questions.py:59-84 | "DESC" and "Asc" select the date orders, and an unknown date order ignores `order_by_views` |
| QuestionsRouter.OrderFor | routers/forum/questions.py:59-84 | only the plain mode passes no `order_by` |
| QuestionsRouter.ListQuestions | routers/forum/questions.py:59-84 | a paged listing returns questions, as many as the window allows |
| QuestionsRouter.ListQuestionsOrdered | routers/forum/questions.py:59-83 | each ordered page is sorted newest first, oldest first, or most viewed first |
| QuestionsRouter.EditQuestion | routers/forum/questions.py:126-151 | a missing question is a 404; anyone but an admin or the author gets 400 "You did not give the views parameter."; otherwise it is `update_question` |
| QuestionsRouter.SetViews | routers/forum/questions.py:154-169 | anyone sets the views of an existing question, and nothing else changes |
| QuestionsRouter.RemoveQuestion | routers/forum/questions.py:172-199 | a missing question is a 404; an admin or the author deletes it with its cascade; anyone else gets 403 |
| TagsRouter.ClassifyTagKey | routers/forum/tags.py:60-62 | an integer key is an id and every text key is a title; no key is refused |
| TagsRouter.GetTag | routers/forum/tags.py:48-62 | an id is looked up by id; any text is looked up by exact title, with the "with this field" 404 on a miss |
| TagsRouter.ListTags | routers/forum/tags.py:32-45 | anyone lists a page of tags |
| TagsRouter.PostTag | routers/forum/tags.py:12-29 | admin only; otherwise `create_tag` |
| TagsRouter.PatchTag | routers/forum/tags.py:65-84 | admin only; otherwise `update_tag` |
| TagsRouter.RemoveTag | routers/forum/tags.py:87-105 | admin only; otherwise the tag cascade |
| ArticlesRouter.PostArticle | routers/news/articles.py:11-28 | admin only; otherwise `create_article` |
| ArticlesRouter.ListArticles | routers/news/articles.py:31-49 | anyone gets the window [skip, skip+limit) of the articles ordered by `date_created` descending: as many ids as that window holds, the i-th being position skip+i of that order, so the page runs newest first |
| ArticlesRouter.EditArticle | routers/news/articles.py:67-91 | a non-admin gets 403 "You have no access no edit articles." whether or not the article exists; an admin's patch is applied |
| ArticlesRouter.RateArticle | routers/news/articles.py:94-113 | any existing user rates an existing article; only that article changes |
| ArticlesRouter.RatingIsPersonal | routers/news/articles.py:94-113 | a rating changes nobody's memberships but the rater's, and leaves the rater in at most one list |
| ArticlesRouter.RemoveArticle | routers/news/articles.py:116-134 | admin only; otherwise the article is deleted |
| NotificationsRouter.ListNotifications | routers/users/notifications.py:14-33 | admin only; otherwise the page of the notification table |
| NotificationsRouter.PostNotification | routers/users/notifications.py:36-53 | admin only; otherwise `create_notification` |
| NotificationsRouter.UserNotifications | routers/users/notifications.py:56-77 | only an admin or that user, checked before the user is looked up; the page is the requested window of that user's notifications, newest first |
| NotificationsRouter.RemoveNotification | routers/users/notifications.py:80-104 | a missing notification is a 404, checked first; then only its addressee or an admin deletes it, anyone else gets 403 |
| NotificationsRouter.EditNotification | routers/users/notifications.py:107-131 | admin only; otherwise the title patch |
| RolesRouter.ClassifyRoleKey | routers/users/roles.py:79-91 | an integer key is an id, a purely alphabetic one a title, and any other key is unresolved |
| RolesRouter.GetRole | routers/users/roles.py:58-91 | admin only; an id is looked up by id, an alphabetic key by title with a 404 on a miss, and any other key is 400 "Unresolved type of role_key." |
| RolesRouter.PatchRole | routers/users/roles.py:94-124 | admin only; an id goes to `update_role`, a title to `update_role_by_title`, anything else is 400 |
| RolesRouter.RemoveRole | routers/users/roles.py:127-158 | admin only; an id or a title deletes the role with its users, anything else is 400 |
| RolesRouter.RemoveRoleKeysAgree | routers/users/roles.py:148-151 | deleting by a role's title and by its id do the same thing |
| RolesRouter.PostRole | routers/users/roles.py:14-32 | admin only; otherwise `create_role` |
| RolesRouter.ListRoles | routers/users/roles.py:35-55 | admin only; otherwise a page of roles |
| UsersRouter.PostUser | routers/users/users.py:15-27 | anyone registers; registration succeeds exactly when username and email are free and the role exists |
| UsersRouter.ListUsers | routers/users/users.py:30-43 | anyone lists a page of users |
| UsersRouter.ClassifyUserKey | routers/users/users.py:75-93 | an integer is an id; then an email-shaped text is an email; then a text alphanumeric once '_' is removed is a username; anything else is unresolved |
| UsersRouter.GetUser | routers/users/users.py:60-93 | an id or username miss is a 404, an email miss is an empty result, and an unresolved key is 400 |
| UsersRouter.EmailKeyNeverUsername | routers/users/users.py:77-89 | an email-shaped key is never tried as a username |
| UsersRouter.PunctuatedKeyUnresolved | routers/users/users.py:83-93 | a key with other punctuation, or the empty key, is refused with 400 |
| UsersRouter.EditUser | routers/users/users.py:118-138 | only an admin or that user; otherwise `update_user` |
| UsersRouter.RemoveUser | routers/users/users.py:96-115 | only an admin or that user deletes an existing user, with the user cascade |

## Left out

- The database session and engine, `get_db`, and the `.env` configuration (database/db.py): the store is an immutable value, and each request is one transition from the store it reads.
- main.py and the routers' `__init__.py` files: application wiring, CORS and startup seeding.
- security/hashing.py is not part of this model. Hashing and verifying are the parameters `hash` and `verify`.
- JWT signing and the signature check, HS256 and the secret key: they are the parameters `encode` and `decode`. The only promise used is `SoundCodec`. `decode` also stands for the library's checks of registered claims other than `exp`, which the tokens this server signs never carry. The `exp` check itself is modelled, as `SecurityToken.Expired`, at the request time `now`.
- `get_questions_by_title` and the `by_title` listing: fuzzy title scoring is a foreign floating-point function. `QuestionsRouter.ListingOf` still dispatches to it.
- Wall-clock time: `now` is a parameter in seconds, and defaults such as `date_created` take it.
- async/await, the websocket transport, and concurrent chat sessions: a session is one sequential trace.
- Unicode: `lower`, `isalpha` and `isalnum` are modelled over ASCII letters and digits only.
- Pydantic request validation, response serialisation and `Union[int, str]` coercion: a path key arrives already split into `IntKey` or `StrKey`.
- Negative `skip` or `limit`: they are `nat`, since the database rejects a negative offset or limit.
- `GET /questions/{id}/`, `GET /articles/{id}/`, `GET /comments/{question_id}/`, `GET /questions/{user_id}/user/` and `GET /users/me/` are single calls of `get_object`, `get_comments_by_question_id`, `get_objects_by_expression` or the current user. They are modelled by `Http.Find`, `CommentCrud.CommentsOfQuestion` and `QuestionCrud.QuestionsByAuthor`.
- An endpoint's `current_user` is always present, because `get_current_user` refuses first. So a router always passes `Some(actor)` to the gates, and the gates themselves also cover `None`.
- The 404 "User or question with this id does not exist." in `create_comment` is unreachable, because `get_object` raises first. The model yields the earlier 404s.
- Dependencies.GetUser: a `sub` claim that is not text counts as missing. An `exp` claim given as text is refused outright, where the library's `int()` conversion would accept a decimal numeral; the tokens this server signs carry a numeric `exp`.
- UsersRouter.GetUser: the key `me` never reaches `get_user`. `GET /users/me/` (routers/users/users.py:46) is declared before `GET /users/{user_key}/` (routers/users/users.py:60), so it answers with the current user. A user whose username is `me` cannot be fetched by username, and the model takes every key as already routed past that endpoint.
- Chat.Session: a user is their id and a websocket is a connection number. Two entries are equal when both agree. A session that cannot disconnect, which the precondition-free model never meets, would raise in the source.
- Chat.Send: that `send` leaves the registry unchanged holds because the registry is a value. Likewise for `SecurityToken.TokenClaims`, which does not mutate the caller's dict.
- Dependencies.TokenInQuery: its own contract only bounds the length. What it removes is stated by `Dependencies.QueryTokenSchemeOptional`, for tokens without an inner `"Bearer "`.
- Association order: `Question.tags`, `Article.likes` and `Article.dislikes` are sequences kept in append order, which is the order of the session's Python list. The tables `tag_question`, `users_like_article` and `users_dislike_article` (database/models.py:8-23) hold only the two key columns. The relationships at database/models.py:76 and :120-121 have no `order_by`, so the `db.refresh` after a commit reloads the list in whatever order the SELECT returns. What `TagCrud.FillTagsAppends`, `TagCrud.FillTagsFromEmpty`, `QuestionCrud.CreateQuestionTags`, `QuestionCrud.UpdateQuestionRetags` and `ArticleCrud.ToggleChooses` say about order holds for the list in the session, not for the stored rows or the response. Their membership and repeat-freedom statements hold for both.
- Crud.Rows: without `order_by` the database guarantees no order. The model fixes ascending id, and equal sort keys may come in any order.
- TagCrud.FillTags: it checks every title before resolving any. The source checks each title just before resolving it. The two differ only in rows added before a refusal, which the failed request never commits.
- QuestionsRouter.ListQuestions: its contract gives only the page size and membership. The ordering is stated by `QuestionsRouter.ListQuestionsOrdered`.
- Ascii.DeleteAll: its own contract only bounds the length. Its effect on text with and without the pattern is stated by `Ascii.DeleteAllAbsent` and `Ascii.DeleteAllPrefix`.
- TagCrud.AddTags: its own contract gives only the count and the counter. What each id resolves to is stated by `TagCrud.AddTagsResolves` and `TagCrud.AddTagsKeys`.
- ArticleCrud.Toggle: its own contract says only that title, content and date are kept. The list changes are stated by `ArticleCrud.ToggleWithdraws`, `ArticleCrud.ToggleChooses`, `ArticleCrud.ToggleExclusive` and `ArticleCrud.ToggleTwiceUndoes`.
- UsersRouter.ListUsers: states the membership and size of the page, not its order. The order is stated for `Crud.GetObjects` and `Crud.GetObjectsAll`.
- TagsRouter.ListTags: states the membership and size of the page, not its order, as for users.
- RolesRouter.ListRoles: states the admin refusal and that the page holds roles, not the page's size or order.

=== FILE: ascii.dfy ===
/** The few `str` methods the backend relies on (`isalpha`, `isalnum`, `lower`,
    `replace`), restricted to ASCII text. */
module Ascii {

  import opened Http

  predicate IsUpper(c: char) {
    'A' <= c <= 'Z'
  }

  predicate IsLower(c: char) {
    'a' <= c <= 'z'
  }

  predicate IsLetter(c: char) {
    IsUpper(c) || IsLower(c)
  }

  predicate IsDigit(c: char) {
    '0' <= c <= '9'
  }

  predicate IsAlnumChar(c: char) {
    IsLetter(c) || IsDigit(c)
  }

  /** `str.isalpha()`: true iff the string is non-empty and every character is a letter. */
  predicate IsAlpha(s: string) {
    |s| > 0 && forall i :: 0 <= i < |s| ==> IsLetter(s[i])
  }

  /** `str.isalnum()`: true iff the string is non-empty and every character is a letter or digit. */
  predicate IsAlnum(s: string) {
    |s| > 0 && forall i :: 0 <= i < |s| ==> IsAlnumChar(s[i])
  }

  function ToLower(c: char): (r: char)
    ensures !IsUpper(r)
    ensures IsAlnumChar(r) <==> IsAlnumChar(c)
    ensures !IsUpper(c) ==> r == c
  {
    if IsUpper(c) then (c as int + 32) as char else c
  }

  /** `str.lower()` */
  function Lower(s: string): (r: string)
    ensures |r| == |s|
    ensures forall i :: 0 <= i < |s| ==> r[i] == ToLower(s[i])
  {
    if |s| == 0 then [] else [ToLower(s[0])] + Lower(s[1..])
  }

  /** Lower-casing twice is lower-casing once, and keeps alphanumeric text alphanumeric. */
  lemma LowerIdempotent(s: string)
    ensures Lower(Lower(s)) == Lower(s)
    ensures IsAlnum(Lower(s)) <==> IsAlnum(s)
    ensures forall i :: 0 <= i < |s| ==> !IsUpper(Lower(s)[i])
  {
  }

  /** `s.replace(c, '')` for one character `c`: every occurrence is deleted, order kept. */
  function Delete(s: string, c: char): (r: string)
    ensures c !in r
    ensures |r| <= |s|
    ensures forall x :: x in r <==> x in s && x != c
    ensures c !in s ==> r == s
    ensures multiset(r) == multiset(s)[c := 0]
  {
    if |s| == 0 then []
    else
      assert s == [s[0]] + s[1..];
      if s[0] == c then Delete(s[1..], c)
      else [s[0]] + Delete(s[1..], c)
  }

  /** Deleting works piecewise, so the kept characters stay in their original order:
      the result for `a + b` is the result for `a` followed by the result for `b`. */
  lemma {:induction false} DeleteConcat(a: string, b: string, c: char)
    ensures Delete(a + b, c) == Delete(a, c) + Delete(b, c)
    decreases |a|
  {
    if |a| > 0 {
      assert (a + b)[1..] == a[1..] + b;
      DeleteConcat(a[1..], b, c);
    } else {
      assert a + b == b;
    }
  }

  /** True iff `pat` occurs in `s` at position `i`. */
  predicate OccursAt(s: string, pat: string, i: nat) {
    i + |pat| <= |s| && s[i..i + |pat|] == pat
  }

  /** True iff `pat` occurs anywhere in `s`. */
  predicate Contains(s: string, pat: string) {
    exists i: nat | i <= |s| :: OccursAt(s, pat, i)
  }

  /** `s.replace(pat, '')`: scans left to right and deletes every non-overlapping
      occurrence of the non-empty `pat`. */
  function DeleteAll(s: string, pat: string): (r: string)
    requires |pat| > 0
    ensures |r| <= |s|
    decreases |s|
  {
    if |s| >= |pat| && s[..|pat|] == pat then DeleteAll(s[|pat|..], pat)
    else if |s| == 0 then []
    else [s[0]] + DeleteAll(s[1..], pat)
  }

  /** Text with no occurrence of `pat` passes through `DeleteAll` unchanged. */
  lemma {:induction false} DeleteAllAbsent(s: string, pat: string)
    requires |pat| > 0
    requires !Contains(s, pat)
    ensures DeleteAll(s, pat) == s
    decreases |s|
  {
    assert !OccursAt(s, pat, 0);
    if |s| > 0 {
      forall i: nat ensures !OccursAt(s[1..], pat, i) {
        if OccursAt(s[1..], pat, i) {
          assert s[1..][i..i + |pat|] == s[i + 1..i + 1 + |pat|];
          assert OccursAt(s, pat, i + 1);
        }
      }
      DeleteAllAbsent(s[1..], pat);
    }
  }

  /** A leading occurrence is deleted and the rest is processed as if it were alone. */
  lemma DeleteAllPrefix(pat: string, s: string)
    requires |pat| > 0
    ensures DeleteAll(pat + s, pat) == DeleteAll(s, pat)
  {
    assert (pat + s)[..|pat|] == pat;
    assert (pat + s)[|pat|..] == s;
  }

  /** `str.find(c)`: the first position holding `c`, if any. */
  function FindFirst(s: string, c: char): (r: Option<nat>)
    ensures r.None? <==> c !in s
    ensures r.Some? ==> r.value < |s| && s[r.value] == c
    ensures r.Some? ==> forall j :: 0 <= j < r.value ==> s[j] != c
  {
    if |s| == 0 then None
    else if s[0] == c then Some(0)
    else match FindFirst(s[1..], c)
      case None => None
      case Some(i) => Some(i + 1)
  }

  /** `str.rfind(c)`: the last position holding `c`, if any. */
  function FindLast(s: string, c: char): (r: Option<nat>)
    ensures r.None? <==> c !in s
    ensures r.Some? ==> r.value < |s| && s[r.value] == c
    ensures r.Some? ==> forall j :: r.value < j < |s| ==> s[j] != c
  {
    if |s| == 0 then None
    else if s[|s| - 1] == c then Some(|s| - 1)
    else FindLast(s[..|s| - 1], c)
  }
}

=== FILE: chat.dfy ===
/** routers/chat: the connection registry of socket_manager.py and the lifetime of one
    `/chat/ws/chat/` websocket session of chat.py. A websocket is a connection number;
    a send is a delivery of an event to a connection. */
module Chat {

  import opened Http
  import opened Models
  import opened Lists
  import opened SecurityToken
  import opened Dependencies

  const Joined: string := "connected to the chat"
  const Left: string := "left the chat"

  /** One `(websocket, user)` pair of `active_connections`. */
  datatype Entry = Entry(conn: nat, user: nat)

  type Registry = seq<Entry>

  /** The JSON a session sends: its presence announcement, or a message a client sent,
      passed on as it came. */
  datatype Event =
    | Presence(user: string, message: string, connection: bool)
    | Relayed(data: string)

  datatype Delivery = Delivery(conn: nat, event: Event)

  /** The connections a registry sends to. */
  function Conns(reg: Registry): (cs: set<nat>)
    ensures forall c :: c in cs <==> exists i :: 0 <= i < |reg| && reg[i].conn == c
  {
    set i | 0 <= i < |reg| :: reg[i].conn
  }

  /** `SocketManager()`: nobody is connected. */
  const Initial: Registry := []

  /** `connect`: the pair joins the end of the registry. */
  function Connect(reg: Registry, e: Entry): (r: Registry)
    ensures |r| == |reg| + 1 && r[..|reg|] == reg && r[|reg|] == e
  {
    reg + [e]
  }

  /** `disconnect`: `list.remove` takes out the first equal pair, and raises
      `ValueError` (here `None`) when there is none. */
  function Disconnect(reg: Registry, e: Entry): (r: Option<Registry>)
    ensures r.None? <==> e !in reg
    ensures r.Some? ==> r.value == reg[..FirstIndex(reg, e)] + reg[FirstIndex(reg, e) + 1..]
    ensures r.Some? ==> |r.value| == |reg| - 1 && multiset(r.value) == multiset(reg) - multiset{e}
  {
    RemoveFirst(reg, e)
  }

  /** `send`: one delivery per registered pair, in registry order; a connection
      registered twice receives the event twice. */
  function Send(reg: Registry, ev: Event): (r: seq<Delivery>)
    ensures |r| == |reg|
    ensures forall i :: 0 <= i < |reg| ==> r[i].conn == reg[i].conn && r[i].event == ev
  {
    seq(|reg|, i requires 0 <= i < |reg| => Delivery(reg[i].conn, ev))
  }

  /** Connecting and then disconnecting a pair that was not registered restores the
      registry. */
  lemma {:induction false} DisconnectUndoesConnect(reg: Registry, e: Entry)
    requires e !in reg
    ensures Disconnect(Connect(reg, e), e) == Some(reg)
  {
    var r := Connect(reg, e);
    var i := FirstIndex(r, e);
    assert i == |reg|;
    assert r[..i] + r[i + 1..] == reg;
    assert RemoveFirst(r, e) == Some(reg);
  }

  /** A send reaches exactly the registered connections. */
  lemma SendReaches(reg: Registry, ev: Event, c: nat)
    ensures Delivery(c, ev) in Send(reg, ev) <==> c in Conns(reg)
  {
    var r := Send(reg, ev);
    if c in Conns(reg) {
      var i :| 0 <= i < |reg| && reg[i].conn == c;
      assert r[i] == Delivery(c, ev);
    }
  }

  /** The relays of the session's messages, in the order received, each to the whole
      registry. */
  function Relays(reg: Registry, messages: seq<string>): (r: seq<Delivery>)
    ensures |r| == |messages| * |reg|
    ensures forall d :: d in r ==> d.event.Relayed? && d.event.data in messages && d.conn in Conns(reg)
    ensures forall m, c :: m in messages && c in Conns(reg) ==> Delivery(c, Relayed(m)) in r
    decreases |messages|
  {
    if messages == [] then []
    else
      var last := messages[|messages| - 1];
      var init := messages[..|messages| - 1];
      var r := Relays(reg, init) + Send(reg, Relayed(last));
      assert messages == init + [last];
      assert |messages| * |reg| == |init| * |reg| + |reg| by {
        assert |messages| == |init| + 1;
      }
      assert forall c :: c in Conns(reg) ==> Delivery(c, Relayed(last)) in Send(reg, Relayed(last)) by {
        forall c | c in Conns(reg) ensures Delivery(c, Relayed(last)) in Send(reg, Relayed(last)) {
          SendReaches(reg, Relayed(last), c);
        }
      }
      r
  }

  /** A frame a client sends: text holding JSON, or a frame `receive_json` cannot
      decode. Text that is not JSON raises `JSONDecodeError`, and a binary frame has
      no text and raises `KeyError`. */
  datatype Frame = Json(data: string) | Undecodable

  /** Every frame decodes. */
  predicate AllDecodable(frames: seq<Frame>) {
    forall i :: 0 <= i < |frames| ==> frames[i].Json?
  }

  /** The messages of the frames before the first undecodable one, in order. */
  function Decoded(frames: seq<Frame>): (ms: seq<string>)
    ensures |ms| <= |frames|
    ensures forall i :: 0 <= i < |ms| ==> frames[i] == Json(ms[i])
    ensures |ms| < |frames| ==> frames[|ms|].Undecodable?
  {
    if frames == [] || frames[0].Undecodable? then [] else [frames[0].data] + Decoded(frames[1..])
  }

  /** The decoded messages are all the frames exactly when every frame decodes. */
  lemma DecodedAll(frames: seq<Frame>)
    ensures |Decoded(frames)| == |frames| <==> AllDecodable(frames)
  {
    var ms := Decoded(frames);
    if |ms| < |frames| {
      assert frames[|ms|].Undecodable?;
    }
  }

  /** The presence event of a session of the user called `username`. */
  function JoinEvent(username: string): Event {
    Presence(username, Joined, true)
  }

  /** The leave notice: the join notice's dictionary with only its message replaced,
      so `connection` still reads true. */
  function LeaveEvent(username: string): Event {
    Presence(username, Left, true)
  }

  /** What one session leaves behind: the registry after it and what it sent. */
  datatype Outcome = Outcome(registry: Registry, sent: seq<Delivery>)

  /** Everything a session sends, in order: its join notice to the registry it joined,
      its relays to that registry, and its leave notice to the registry left after
      the disconnect. */
  function Traffic(during: Registry, username: string, messages: seq<string>, after: Registry): seq<Delivery> {
    Send(during, JoinEvent(username)) + Relays(during, messages) + Send(after, LeaveEvent(username))
  }

  /** One `chat` session on connection `conn` whose client sends `frames` and then
      disconnects. The user comes from the query token, checked at time `now`; a
      token that names nobody makes the dependency refuse before the handler runs, so
      nothing is registered or sent. Otherwise the pair is registered, everyone (the
      newcomer included) hears that it joined, and every message is relayed to
      everyone. When every frame decodes, the disconnect follows and the remaining
      registry hears that it left. The first undecodable frame instead ends the
      handler with an exception the loop does not catch: the frames after it are
      never read, the pair is never taken out of the registry, and no leave notice is
      sent. The session is taken on its own: other sessions do not interleave with
      it. */
  function Session(s: Store, decode: string -> Option<Claims>, now: int, token: string, reg: Registry, conn: nat, frames: seq<Frame>): (o: Outcome)
    requires IdsBelowNext(s)
    ensures GetUserByQuery(s, decode, now, token).Fail? ==> o == Outcome(reg, [])
    ensures GetUserByQuery(s, decode, now, token).Ok? && AllDecodable(frames) ==>
      var e := Entry(conn, GetUserByQuery(s, decode, now, token).value);
      Disconnect(Connect(reg, e), e) == Some(o.registry)
    ensures GetUserByQuery(s, decode, now, token).Ok? && !AllDecodable(frames) ==>
      o.registry == Connect(reg, Entry(conn, GetUserByQuery(s, decode, now, token).value))
  {
    match GetUserByQuery(s, decode, now, token)
    case Fail(_) => Outcome(reg, [])
    case Ok(user) =>
      var e := Entry(conn, user);
      var during := Connect(reg, e);
      var name := s.users[user].username;
      var messages := Decoded(frames);
      DecodedAll(frames);
      if |messages| < |frames| then
        Outcome(during, Send(during, JoinEvent(name)) + Relays(during, messages))
      else
        assert during[|reg|] == e;
        var after := Disconnect(during, e).value;
        Outcome(after, Traffic(during, name, messages, after))
  }

  /** In a session's traffic the leave notice goes only to the registry left after
      the disconnect: the join notice and the relays never say "left". */
  lemma LeaveGoesToRemaining(during: Registry, username: string, messages: seq<string>, after: Registry, d: Delivery)
    requires d in Traffic(during, username, messages, after)
    requires d.event.Presence? && d.event.message == Left
    ensures d.conn in Conns(after)
  {
    var leave := Send(after, LeaveEvent(username));
    assert d !in Send(during, JoinEvent(username)) + Relays(during, messages);
    var i :| 0 <= i < |leave| && leave[i] == d;
    assert after[i].conn == d.conn;
  }

  /** A session on a connection the registry does not hold yet, whose every frame
      decodes, ends with the registry as it found it, and its leave notice goes to
      every other connection but not to its own. */
  lemma {:induction false} SessionLeavesNoTrace(s: Store, decode: string -> Option<Claims>, now: int, token: string, reg: Registry, conn: nat, frames: seq<Frame>)
    requires IdsBelowNext(s)
    requires conn !in Conns(reg)
    requires AllDecodable(frames)
    ensures var o := Session(s, decode, now, token, reg, conn, frames);
      && o.registry == reg
      && (forall d :: d in o.sent && d.event.Presence? && d.event.message == Left ==> d.conn != conn && d.conn in Conns(reg))
  {
    var o := Session(s, decode, now, token, reg, conn, frames);
    if GetUserByQuery(s, decode, now, token).Ok? {
      var user := GetUserByQuery(s, decode, now, token).value;
      var e := Entry(conn, user);
      assert e !in reg;
      DisconnectUndoesConnect(reg, e);
      DecodedAll(frames);
      var during := Connect(reg, e);
      var name := s.users[user].username;
      var messages := Decoded(frames);
      assert o.sent == Traffic(during, name, messages, reg);
      forall d | d in o.sent && d.event.Presence? && d.event.message == Left
        ensures d.conn in Conns(reg)
      {
        LeaveGoesToRemaining(during, name, messages, reg, d);
      }
    }
  }

  /** A session whose client sends a frame that is not JSON leaves its pair behind:
      the pair stays registered, nobody hears that it left, and every later send
      still addresses its connection. */
  lemma UndecodableFrameStrands(s: Store, decode: string -> Option<Claims>, now: int, token: string, reg: Registry, conn: nat, frames: seq<Frame>, ev: Event)
    requires IdsBelowNext(s) && GetUserByQuery(s, decode, now, token).Ok?
    requires !AllDecodable(frames)
    ensures var o := Session(s, decode, now, token, reg, conn, frames);
      && Entry(conn, GetUserByQuery(s, decode, now, token).value) in o.registry
      && (forall d :: d in o.sent ==> !(d.event.Presence? && d.event.message == Left))
      && Delivery(conn, ev) in Send(o.registry, ev)
  {
    var user := GetUserByQuery(s, decode, now, token).value;
    var o := Session(s, decode, now, token, reg, conn, frames);
    var during := Connect(reg, Entry(conn, user));
    var name := s.users[user].username;
    DecodedAll(frames);
    assert o.sent == Send(during, JoinEvent(name)) + Relays(during, Decoded(frames));
    OpeningSaysNoLeave(during, name, Decoded(frames));
    assert during[|reg|] == Entry(conn, user);
    SendReaches(during, ev, conn);
  }

  /** The join notice and the relays never say "left". */
  lemma OpeningSaysNoLeave(during: Registry, username: string, messages: seq<string>)
    ensures forall d :: d in Send(during, JoinEvent(username)) + Relays(during, messages) ==>
      !(d.event.Presence? && d.event.message == Left)
  {
    var join := Send(during, JoinEvent(username));
    forall d | d in join + Relays(during, messages)
      ensures !(d.event.Presence? && d.event.message == Left)
    {
      if d in join {
        var i :| 0 <= i < |join| && join[i] == d;
      }
    }
  }

  /** Whatever a session that names a user ends with, it first sends its join notice
      and the relays of the decoded messages to the registry it joined. */
  lemma SessionOpens(s: Store, decode: string -> Option<Claims>, now: int, token: string, reg: Registry, conn: nat, frames: seq<Frame>, d: Delivery)
    requires IdsBelowNext(s) && GetUserByQuery(s, decode, now, token).Ok?
    requires var user := GetUserByQuery(s, decode, now, token).value;
      d in Send(Connect(reg, Entry(conn, user)), JoinEvent(s.users[user].username))
        + Relays(Connect(reg, Entry(conn, user)), Decoded(frames))
    ensures d in Session(s, decode, now, token, reg, conn, frames).sent
  {
    var user := GetUserByQuery(s, decode, now, token).value;
    var o := Session(s, decode, now, token, reg, conn, frames);
    var during := Connect(reg, Entry(conn, user));
    var prefix := Send(during, JoinEvent(s.users[user].username)) + Relays(during, Decoded(frames));
    DecodedAll(frames);
    if AllDecodable(frames) {
      var after := Disconnect(during, Entry(conn, user)).value;
      assert o.sent == prefix + Send(after, LeaveEvent(s.users[user].username));
    } else {
      assert o.sent == prefix;
    }
  }

  /** A frame with only decodable frames before it is among the decoded messages, at
      its own position. */
  lemma DecodedPrefix(frames: seq<Frame>, i: nat)
    requires i < |frames| && frames[i].Json? && forall j :: 0 <= j < i ==> frames[j].Json?
    ensures i < |Decoded(frames)| && Decoded(frames)[i] == frames[i].data
  {
  }

  /** After a connect, the registry sends to the connections it sent to before and to
      the newcomer's. */
  lemma ConnectReaches(reg: Registry, e: Entry, c: nat)
    requires c in Conns(reg) || c == e.conn
    ensures c in Conns(Connect(reg, e))
  {
    var r := Connect(reg, e);
    if c == e.conn {
      assert r[|reg|].conn == c;
    } else {
      var k :| 0 <= k < |reg| && reg[k].conn == c;
      assert r[k].conn == c;
    }
  }

  /** Every connection registered when a session starts, and the session's own
      connection, hears of the join and receives every message the client sent
      before any undecodable frame. */
  lemma SessionBroadcasts(s: Store, decode: string -> Option<Claims>, now: int, token: string, reg: Registry, conn: nat, frames: seq<Frame>, c: nat, i: nat)
    requires IdsBelowNext(s) && GetUserByQuery(s, decode, now, token).Ok?
    requires c in Conns(reg) || c == conn
    requires i < |frames| && frames[i].Json? && forall j :: 0 <= j < i ==> frames[j].Json?
    ensures var user := GetUserByQuery(s, decode, now, token).value;
      var o := Session(s, decode, now, token, reg, conn, frames);
      && Delivery(c, JoinEvent(s.users[user].username)) in o.sent
      && Delivery(c, Relayed(frames[i].data)) in o.sent
  {
    var user := GetUserByQuery(s, decode, now, token).value;
    var during := Connect(reg, Entry(conn, user));
    var join := JoinEvent(s.users[user].username);
    var messages := Decoded(frames);
    DecodedPrefix(frames, i);
    ConnectReaches(reg, Entry(conn, user), c);
    SendReaches(during, join, c);
    SessionOpens(s, decode, now, token, reg, conn, frames, Delivery(c, join));
    assert Delivery(c, Relayed(messages[i])) in Relays(during, messages);
    SessionOpens(s, decode, now, token, reg, conn, frames, Delivery(c, Relayed(messages[i])));
  }
}

=== FILE: crud.dfy ===
/** The table-generic helpers at the top of database/crud.py: `get_object_by_expression`,
    `get_objects`, and the `commit` that refuses a store breaking a unique or
    primary-key constraint. `get_object` itself is `Http.Find`. */
module Crud {

  import opened Http
  import opened Models
  import opened Lists

  /** `get_object_by_expression(cls, expr, raise_404=True)`: the first row satisfying
      `p`, or the "with this field" 404. */
  function FindWhere<T>(m: map<nat, T>, next: nat, p: T -> bool, entity: string): (r: Result<nat>)
    requires forall k :: k in m ==> k < next
    ensures r.Ok? ==> r.value in m && p(m[r.value])
    ensures r.Fail? <==> forall k :: k in m ==> !p(m[k])
    ensures r.Fail? ==> r.error == NoSuchField(entity)
  {
    match FirstWhere(m, next, p)
    case Some(k) => Ok(k)
    case None => Fail(NoSuchField(entity))
  }

  /** Under a unique column, the row `FindWhere` returns is the only one matching. */
  lemma FindWhereUnique(m: map<nat, Role>, next: nat, title: string)
    requires forall k :: k in m ==> k < next
    requires UniqueRoleTitles(m)
    ensures var r := FindWhere(m, next, (x: Role) => x.title == title, "Role");
      forall k :: k in m && m[k].title == title ==> r == Ok(k)
  {
  }

  /** What a failed commit reports: a unique or primary-key violation. */
  const IntegrityViolation: Error := Raise(IntegrityError500, "IntegrityError: duplicate key value violates unique constraint")

  /** What an UPDATE reports when it writes NULL into a NOT NULL column. */
  const NullViolation: Error := Raise(IntegrityError500, "IntegrityError: null value violates not-null constraint")

  /** The UPDATE statement of a merged row: it fails when the merge put NULL into a
      NOT NULL column (`None`). */
  function Written<T>(merged: Option<T>): (r: Result<T>)
    ensures r.Ok? <==> merged.Some?
    ensures r.Ok? ==> r.value == merged.value
    ensures r.Fail? ==> r.error == NullViolation
  {
    match merged
    case None => Fail(NullViolation)
    case Some(row) => Ok(row)
  }

  /** `db.commit()`: the pending store is written iff it keeps the schema's keys. */
  function Commit(s: Store): (r: Result<Store>)
    ensures r.Ok? <==> Committable(s)
    ensures r.Ok? ==> r.value == s
    ensures r.Fail? ==> r.error == IntegrityViolation
  {
    if Committable(s) then Ok(s) else Fail(IntegrityViolation)
  }

  /** Writing one row twice in a session leaves the last write. */
  lemma UpdateTwice<T>(m: map<nat, T>, k: nat, a: T, b: T)
    ensures m[k := a][k := b] == m[k := b]
  {
  }

  // ---------------------------------------------------------------------------
  // Listing

  /** An `order_by` argument: none, or one integer column of the row with id `k`. */
  datatype Order = Unordered | By(key: nat -> int, dir: Direction)

  function Elements(xs: seq<nat>): (r: set<nat>)
    ensures forall x :: x in r <==> x in xs
  {
    if |xs| == 0 then {} else {xs[0]} + Elements(xs[1..])
  }

  /** A strictly increasing list has as many elements as its set of elements. */
  lemma {:induction false} IncreasingCard(xs: seq<nat>)
    requires forall i, j :: 0 <= i < j < |xs| ==> xs[i] < xs[j]
    ensures |Elements(xs)| == |xs|
    decreases |xs|
  {
    if |xs| > 0 {
      IncreasingCard(xs[1..]);
      assert xs[0] !in xs[1..];
    }
  }

  /** A list without repeats holds each element at most once. */
  lemma {:induction false} DistinctCount(ys: seq<nat>, x: nat)
    requires Distinct(ys)
    ensures multiset(ys)[x] <= 1
    decreases |ys|
  {
    if |ys| > 0 {
      assert ys == [ys[0]] + ys[1..];
      DistinctCount(ys[1..], x);
      assert ys[0] !in ys[1..];
    }
  }

  /** Reordering a list without repeats gives a list without repeats. */
  lemma SameElementsDistinct(xs: seq<nat>, ys: seq<nat>)
    requires multiset(xs) == multiset(ys) && Distinct(ys)
    ensures Distinct(xs)
  {
    forall i, j | 0 <= i < j < |xs| ensures xs[i] != xs[j] {
      if xs[i] == xs[j] {
        assert xs == xs[..i] + [xs[i]] + xs[i + 1..j] + [xs[j]] + xs[j + 1..];
        assert multiset(xs)[xs[i]] >= 2;
        DistinctCount(ys, xs[i]);
      }
    }
  }

  /** The whole table in the order the query returns it: every row exactly once,
      sorted by the column when there is one. Without `order_by`, Postgres guarantees
      no order; the model fixes ascending id. */
  function Rows<T>(m: map<nat, T>, next: nat, order: Order): (r: seq<nat>)
    requires forall k :: k in m ==> k < next
    ensures forall k :: k in m <==> k in r
    ensures |r| == |m|
    ensures order.By? ==> SortedBy(r, order.key, order.dir)
  {
    var ids := Ids(m, next);
    IncreasingCard(ids);
    assert m.Keys == Elements(ids);
    match order
    case Unordered => ids
    case By(key, dir) =>
      SortKeepsElements(ids, key, dir);
      SortBy(ids, key, dir)
  }

  /** Sorting keeps the length and the elements. */
  lemma SortKeepsElements(ids: seq<nat>, key: nat -> int, dir: Direction)
    ensures |SortBy(ids, key, dir)| == |ids|
    ensures forall k :: k in SortBy(ids, key, dir) <==> k in ids
  {
    var sorted := SortBy(ids, key, dir);
    assert |sorted| == |multiset(sorted)| == |multiset(ids)| == |ids|;
    assert forall k :: k in sorted <==> k in multiset(ids);
  }

  /** `get_objects`: the rows at positions [skip, skip + limit) of the table in query
      order. */
  function GetObjects<T>(m: map<nat, T>, next: nat, order: Order, skip: nat, limit: nat): (r: seq<nat>)
    requires forall k :: k in m ==> k < next
    ensures forall i :: 0 <= i < |r| ==> r[i] in m
    ensures |r| == if skip >= |m| then 0 else Min(limit, |m| - skip)
    ensures forall i :: 0 <= i < |r| ==> r[i] == Rows(m, next, order)[skip + i]
  {
    Window(Rows(m, next, order), skip, limit)
  }

  /** With no order, a window from offset 0 at least as wide as the table lists every
      row once, by ascending id. */
  lemma GetObjectsAll<T>(m: map<nat, T>, next: nat, limit: nat)
    requires forall k :: k in m ==> k < next
    requires limit >= |m|
    ensures var r := GetObjects(m, next, Unordered, 0, limit);
      (forall k :: k in m <==> k in r) && (forall i, j :: 0 <= i < j < |r| ==> r[i] < r[j])
  {
    WindowWhole(Rows(m, next, Unordered), limit);
  }

  /** The key function ordering a table by one integer column of its rows. */
  function ColumnKey<T>(m: map<nat, T>, column: T -> int): (key: nat -> int)
    ensures forall k :: k in m ==> key(k) == column(m[k])
  {
    k => if k in m then column(m[k]) else 0
  }

  /** A window of a table ordered by one column keeps that column's order. */
  lemma WindowOrdered<T>(m: map<nat, T>, next: nat, column: T -> int, dir: Direction, skip: nat, limit: nat)
    requires forall k :: k in m ==> k < next
    ensures var page := GetObjects(m, next, By(ColumnKey(m, column), dir), skip, limit);
      forall i, j :: 0 <= i < j < |page| ==> page[i] in m && page[j] in m && InOrder(column(m[page[i]]), column(m[page[j]]), dir)
  {
    var key := ColumnKey(m, column);
    var rows := Rows(m, next, By(key, dir));
    var page := GetObjects(m, next, By(key, dir), skip, limit);
    forall i, j | 0 <= i < j < |page|
      ensures page[i] in m && page[j] in m && InOrder(column(m[page[i]]), column(m[page[j]]), dir)
    {
      assert page[i] == rows[skip + i] && page[j] == rows[skip + j];
      assert InOrder(key(rows[skip + i]), key(rows[skip + j]), dir);
    }
  }

  /** `.order_by(column)` over a list of ids: the same ids, the column ascending. */
  function OrderByColumn<T>(m: map<nat, T>, ids: seq<nat>, column: T -> int): (r: seq<nat>)
    requires forall i :: 0 <= i < |ids| ==> ids[i] in m
    ensures multiset(r) == multiset(ids)
    ensures forall k :: k in r <==> k in ids
    ensures forall i, j :: 0 <= i < j < |r| ==> r[i] in m && r[j] in m && column(m[r[i]]) <= column(m[r[j]])
  {
    var sorted := SortBy(ids, ColumnKey(m, column), Asc);
    assert forall k :: k in sorted <==> k in multiset(ids);
    ColumnSorted(m, sorted, column);
    sorted
  }

  lemma ColumnSorted<T>(m: map<nat, T>, xs: seq<nat>, column: T -> int)
    requires forall k :: k in xs ==> k in m
    requires SortedBy(xs, ColumnKey(m, column), Asc)
    ensures forall i, j :: 0 <= i < j < |xs| ==> xs[i] in m && xs[j] in m && column(m[xs[i]]) <= column(m[xs[j]])
  {
    var key := ColumnKey(m, column);
    forall i, j | 0 <= i < j < |xs|
      ensures xs[i] in m && xs[j] in m && column(m[xs[i]]) <= column(m[xs[j]])
    {
      assert InOrder(key(xs[i]), key(xs[j]), Asc);
    }
  }

  /** `.filter(column == v).all()`: the matching rows, ascending id. */
  function Where<T>(m: map<nat, T>, next: nat, p: T -> bool): (r: seq<nat>)
    requires forall k :: k in m ==> k < next
    ensures forall k :: k in r <==> k in m && p(m[k])
    ensures forall i, j :: 0 <= i < j < |r| ==> r[i] < r[j]
  {
    Keep(m, Ids(m, next), p)
  }

  function Keep<T>(m: map<nat, T>, ids: seq<nat>, p: T -> bool): (r: seq<nat>)
    requires forall i :: 0 <= i < |ids| ==> ids[i] in m
    requires forall i, j :: 0 <= i < j < |ids| ==> ids[i] < ids[j]
    ensures forall k :: k in r <==> k in ids && p(m[k])
    ensures forall i, j :: 0 <= i < j < |r| ==> r[i] < r[j]
    ensures forall i :: 0 <= i < |r| ==> |ids| > 0 && ids[0] <= r[i]
  {
    if |ids| == 0 then []
    else
      var rest := Keep(m, ids[1..], p);
      if p(m[ids[0]]) then [ids[0]] + rest else rest
  }
}

=== FILE: crud_articles.dfy ===
/** `create_article`, `update_article_rating`, and the article cases of
    `update_object` and `delete_object` (database/crud.py). */
module ArticleCrud {

  import opened Http
  import opened Models
  import opened Schemas
  import opened Crud
  import opened Lists

  /** `create_article`: a new article, rated by nobody. Articles have no unique
      column and no foreign key, so the commit always succeeds. */
  function CreateArticle(s: Store, ac: ArticleCreate, now: int): (r: (Store, nat))
    requires IdsBelowNext(s) && AssociationKeys(s) && RatersExist(s)
    ensures var (t, id) := r;
      && id !in s.articles
      && t.articles == s.articles[id := Article(ac.title, ac.content, now, [], [])]
      && WritesArticles(s, t)
  {
    (s.(articles := s.articles[s.next := Article(ac.title, ac.content, now, [], [])], next := s.next + 1), s.next)
  }

  /** `update_object(Article, ...)`: the sent columns are overwritten, and a null one
      fails the UPDATE; the ratings and the creation date are not part of the
      patch. */
  function UpdateArticle(s: Store, id: int, p: ArticleUpdate): (r: Result<(Store, nat)>)
    requires IdsBelowNext(s) && AssociationKeys(s) && RatersExist(s)
    ensures r.Fail? <==> !Has(s.articles, id) || p.WritesNull()
    ensures !Has(s.articles, id) ==> r == Fail(NoSuchId("Article"))
    ensures Has(s.articles, id) && p.WritesNull() ==> r == Fail(NullViolation)
    ensures r.Ok? ==>
      var (t, k) := r.value;
      && k == id && k in s.articles
      && t.articles == s.articles[k := MergeArticle(s.articles[k], p).value]
      && t.next == s.next && WritesArticles(s, t)
  {
    var k :- Find(s.articles, id, "Article");
    var merged :- Written(MergeArticle(s.articles[k], p));
    Ok((s.(articles := s.articles[k := merged]), k))
  }

  /** `delete_object(Article, ...)`: the article's rating rows go with it. */
  function DeleteArticle(s: Store, id: int): (r: Result<Store>)
    requires IdsBelowNext(s) && AssociationKeys(s) && RatersExist(s)
    ensures r.Fail? <==> !Has(s.articles, id)
    ensures r.Fail? ==> r.error == NoSuchId("Article")
    ensures r.Ok? ==> r.value.articles == s.articles - {id as nat}
    ensures r.Ok? ==> r.value.next == s.next && WritesArticles(s, r.value)
  {
    var k :- Find(s.articles, id, "Article");
    Ok(s.(articles := s.articles - {k}))
  }

  // ---------------------------------------------------------------------------
  // The like/dislike toggle

  /** The article after `user` rates it `t`. A user already in the chosen list is
      taken out of it and nothing else changes; otherwise the user is appended to the
      chosen list and taken out of the opposite one if there. */
  function Toggle(a: Article, t: RatingType, user: nat): (b: Article)
    ensures b.title == a.title && b.content == a.content && b.created == a.created
  {
    var chosen := Raters(a, t);
    if user in chosen then
      WithRaters(a, t, RemoveFirst(chosen, user).value)
    else
      var added := WithRaters(a, t, chosen + [user]);
      var other := Raters(added, Opposite(t));
      if user in other then WithRaters(added, Opposite(t), RemoveFirst(other, user).value)
      else added
  }

  /** Both lists of an article, as the association tables' keys demand them. */
  predicate RatingsDistinct(a: Article) {
    Distinct(a.likes) && Distinct(a.dislikes)
  }

  lemma RatersOfBoth(a: Article, t: RatingType)
    ensures {Raters(a, t), Raters(a, Opposite(t))} == {a.likes, a.dislikes}
  {
  }

  /** The first branch: a user who had chosen `t` withdraws it, and the opposite list
      is left exactly as it was. */
  lemma ToggleWithdraws(a: Article, t: RatingType, user: nat)
    requires RatingsDistinct(a) && user in Raters(a, t)
    ensures var b := Toggle(a, t, user);
      && (forall v :: v in Raters(b, t) <==> v in Raters(a, t) && v != user)
      && Raters(b, Opposite(t)) == Raters(a, Opposite(t))
      && Distinct(Raters(b, t))
  {
    RatersOfBoth(a, t);
    RemoveFirstOfUnique(Raters(a, t), user);
  }

  /** The second branch: a new rating is appended to the chosen list and clears the
      user from the opposite list, keeping everyone else there. */
  lemma ToggleChooses(a: Article, t: RatingType, user: nat)
    requires RatingsDistinct(a) && user !in Raters(a, t)
    ensures var b := Toggle(a, t, user);
      && Raters(b, t) == Raters(a, t) + [user]
      && (forall v :: v in Raters(b, Opposite(t)) <==> v in Raters(a, Opposite(t)) && v != user)
      && Distinct(Raters(b, Opposite(t)))
  {
    RatersOfBoth(a, t);
    var added := WithRaters(a, t, Raters(a, t) + [user]);
    OppositeSwaps(t);
    assert Raters(added, Opposite(t)) == Raters(a, Opposite(t));
    if user in Raters(a, Opposite(t)) {
      RemoveFirstOfUnique(Raters(a, Opposite(t)), user);
    }
  }

  /** After the toggle the user is in at most one list, both lists are still free of
      repeats, and every other user's memberships are unchanged. */
  lemma ToggleExclusive(a: Article, t: RatingType, user: nat)
    requires RatingsDistinct(a)
    ensures var b := Toggle(a, t, user);
      && !(user in b.likes && user in b.dislikes)
      && RatingsDistinct(b)
      && (forall v :: v != user ==> (v in b.likes <==> v in a.likes) && (v in b.dislikes <==> v in a.dislikes))
      && (forall v :: v in b.likes || v in b.dislikes ==> v == user || v in a.likes || v in a.dislikes)
  {
    var b := Toggle(a, t, user);
    RatersOfBoth(a, t);
    RatersOfBoth(b, t);
    OppositeSwaps(t);
    if user in Raters(a, t) {
      ToggleWithdraws(a, t, user);
    } else {
      ToggleChooses(a, t, user);
      AppendDistinct(Raters(a, t), user);
    }
    assert (t == Likes && b.likes == Raters(b, t) && b.dislikes == Raters(b, Opposite(t)))
        || (t == Dislikes && b.dislikes == Raters(b, t) && b.likes == Raters(b, Opposite(t)));
  }

  lemma AppendDistinct(xs: seq<nat>, x: nat)
    requires Distinct(xs) && x !in xs
    ensures Distinct(xs + [x])
  {
    assert forall i :: 0 <= i < |xs| ==> (xs + [x])[i] == xs[i];
  }

  /** A user who had rated the article neither way and gives the same rating twice
      leaves the article as it was. */
  lemma ToggleTwiceUndoes(a: Article, t: RatingType, user: nat)
    requires user !in a.likes && user !in a.dislikes
    ensures Toggle(Toggle(a, t, user), t, user) == a
  {
    RatersOfBoth(a, t);
    var b := Toggle(a, t, user);
    OppositeSwaps(t);
    assert Raters(b, t) == Raters(a, t) + [user];
    assert FirstIndex(Raters(b, t), user) == |Raters(a, t)|;
    assert RemoveFirst(Raters(b, t), user).value == Raters(a, t);
  }

  /** `update_article_rating`: the article is looked up first, then the rating user;
      the toggle touches only that article. */
  function UpdateArticleRating(s: Store, articleId: int, userId: int, t: RatingType): (r: Result<Store>)
    requires IdsBelowNext(s) && AssociationKeys(s) && RatersExist(s)
    ensures !Has(s.articles, articleId) ==> r == Fail(NoSuchId("Article"))
    ensures Has(s.articles, articleId) && !Has(s.users, userId) ==> r == Fail(NoSuchId("User"))
    ensures r.Ok? <==> Has(s.articles, articleId) && Has(s.users, userId)
    ensures r.Ok? ==>
      && r.value.articles == s.articles[articleId as nat := Toggle(s.articles[articleId as nat], t, userId as nat)]
      && r.value.next == s.next && WritesArticles(s, r.value)
  {
    var k :- Find(s.articles, articleId, "Article");
    var user :- Find(s.users, userId, "User");
    ToggleWrites(s, k, t, user);
    Ok(s.(articles := s.articles[k := Toggle(s.articles[k], t, user)]))
  }

  /** Toggling one existing user's rating of one article is a write to the article
      table. */
  lemma ToggleWrites(s: Store, k: nat, t: RatingType, user: nat)
    requires IdsBelowNext(s) && AssociationKeys(s) && RatersExist(s)
    requires k in s.articles && user in s.users
    ensures WritesArticles(s, s.(articles := s.articles[k := Toggle(s.articles[k], t, user)]))
  {
    ToggleKeepsRaters(s.articles[k], t, user, s.users.Keys);
  }

  /** A toggle by a known user leaves both lists free of repeats and made of known
      users. */
  lemma ToggleKeepsRaters(a: Article, t: RatingType, user: nat, known: set<nat>)
    requires RatingsDistinct(a) && user in known
    requires forall i :: 0 <= i < |a.likes| ==> a.likes[i] in known
    requires forall i :: 0 <= i < |a.dislikes| ==> a.dislikes[i] in known
    ensures var b := Toggle(a, t, user);
      && RatingsDistinct(b)
      && (forall i :: 0 <= i < |b.likes| ==> b.likes[i] in known)
      && (forall i :: 0 <= i < |b.dislikes| ==> b.dislikes[i] in known)
  {
    var b := Toggle(a, t, user);
    ToggleExclusive(a, t, user);
    forall i | 0 <= i < |b.likes| ensures b.likes[i] in known {
      assert b.likes[i] in b.likes;
    }
    forall i | 0 <= i < |b.dislikes| ensures b.dislikes[i] in known {
      assert b.dislikes[i] in b.dislikes;
    }
  }
}

=== FILE: crud_comments.dfy ===
/** `create_comment`, `get_comments_by_question_id`, and the comment cases of
    `update_object` and `delete_object` (database/crud.py). */
module CommentCrud {

  import opened Http
  import opened Models
  import opened Schemas
  import opened Crud
  import opened Lists
  import opened NotificationCrud

  /** The title of the notification a comment sends the question's author. */
  function CommentedTitle(username: string, questionTitle: string): string {
    "User " + username + " commented your question: \"" + questionTitle + "\"."
  }

  /** The session state after `create_comment` commits the comment: a new row under
      the next id, not yet an answer. */
  function AddComment(s: Store, content: string, now: int, author: nat, question: nat): (t: Store)
    requires IdsBelowNext(s)
    ensures IdsBelowNext(t) && s.next !in s.comments
    ensures t.comments == s.comments[s.next := Comment(content, now, false, author, question)]
    ensures t.roles == s.roles && t.users == s.users && t.notifications == s.notifications
    ensures t.tags == s.tags && t.questions == s.questions && t.articles == s.articles
    ensures t.next == s.next + 1
  {
    s.(comments := s.comments[s.next := Comment(content, now, false, author, question)], next := s.next + 1)
  }

  /** `create_comment`: `get_object` refuses a missing author and then a missing
      question with its own 404, so the combined "User or question" message is never
      reached. The comment is committed; then, when its author is not the question's
      author, `create_notification` tells the question's author. */
  function CreateComment(s: Store, cc: CommentCreate, now: int): (r: Result<(Store, nat)>)
    requires IdsBelowNext(s) && NotificationsLinked(s) && AuthorsExist(s)
    ensures !(cc.authorId.Some? && Has(s.users, cc.authorId.value)) ==> r == Fail(NoSuchId("User"))
    ensures cc.authorId.Some? && Has(s.users, cc.authorId.value) ==>
      (r.Fail? <==> !Has(s.questions, cc.questionId)) && (r.Fail? ==> r.error == NoSuchId("Question"))
    ensures r.Ok? ==>
      var (t, id) := r.value;
      && id !in s.comments
      && t.comments == s.comments[id := Comment(cc.content, now, false, cc.authorId.value as nat, cc.questionId as nat)]
  {
    var author :- if cc.authorId.Some? then Find(s.users, cc.authorId.value, "User") else Fail(NoSuchId("User"));
    var question :- Find(s.questions, cc.questionId, "Question");
    var committed := AddComment(s, cc.content, now, author, question);
    var asker := s.questions[question].authorId;
    if author != asker then
      var title := CommentedTitle(s.users[author].username, s.questions[question].title);
      var notified := CreateNotification(committed, NotificationCreate(title, asker, question)).value;
      Ok((notified.0, s.next))
    else
      Ok((committed, s.next))
  }

  /** A comment creates a notification exactly when its author is not the question's
      author; the notification goes to the question's author, names the commenter and
      the question, and is the only one added. */
  lemma CreateCommentNotifies(s: Store, cc: CommentCreate, now: int)
    requires IdsBelowNext(s) && NotificationsLinked(s) && AuthorsExist(s)
    requires CreateComment(s, cc, now).Ok?
    ensures var (t, id) := CreateComment(s, cc, now).value;
      var author := cc.authorId.value as nat;
      var question := cc.questionId as nat;
      var asker := s.questions[question].authorId;
      && (author == asker ==> t.notifications == s.notifications)
      && (author != asker ==>
            && t.next == s.next + 2
            && s.next + 1 !in s.notifications
            && t.notifications == s.notifications[s.next + 1 :=
                 Notification(CommentedTitle(s.users[author].username, s.questions[question].title), asker, question)])
  {
  }

  /** `create_comment` is a write to the comment table followed by a write to the
      notification table. */
  lemma CreateCommentWrites(s: Store, cc: CommentCreate, now: int)
    requires IdsBelowNext(s) && NotificationsLinked(s) && AuthorsExist(s) && CommentsLinked(s)
    requires CreateComment(s, cc, now).Ok?
    ensures var (t, id) := CreateComment(s, cc, now).value;
      var mid := s.(comments := t.comments, next := id + 1);
      WritesComments(s, mid) && WritesNotifications(mid, t)
  {
    CreateCommentNotifies(s, cc, now);
  }

  /** `create_comment` keeps the store's invariant. */
  lemma CreateCommentValid(s: Store, cc: CommentCreate, now: int)
    requires Valid(s)
    requires CreateComment(s, cc, now).Ok?
    ensures Valid(CreateComment(s, cc, now).value.0)
  {
    var (t, id) := CreateComment(s, cc, now).value;
    CreateCommentWrites(s, cc, now);
    WritesCommentsValid(s, s.(comments := t.comments, next := id + 1));
    WritesNotificationsValid(s.(comments := t.comments, next := id + 1), t);
  }

  /** `update_object(Comment, ...)`: the sent columns are overwritten, and a null one
      fails the UPDATE. */
  function UpdateComment(s: Store, id: int, p: CommentUpdate): (r: Result<(Store, nat)>)
    requires IdsBelowNext(s) && CommentsLinked(s)
    ensures r.Fail? <==> !Has(s.comments, id) || p.WritesNull()
    ensures !Has(s.comments, id) ==> r == Fail(NoSuchId("Comment"))
    ensures Has(s.comments, id) && p.WritesNull() ==> r == Fail(NullViolation)
    ensures r.Ok? ==>
      var (t, k) := r.value;
      && k == id && k in s.comments
      && t.comments == s.comments[k := MergeComment(s.comments[k], p).value]
      && t.next == s.next && WritesComments(s, t)
  {
    var k :- Find(s.comments, id, "Comment");
    var merged :- Written(MergeComment(s.comments[k], p));
    Ok((s.(comments := s.comments[k := merged]), k))
  }

  /** `delete_object(Comment, ...)`: nothing refers to a comment. */
  function DeleteComment(s: Store, id: int): (r: Result<Store>)
    requires IdsBelowNext(s) && CommentsLinked(s)
    ensures r.Fail? <==> !Has(s.comments, id)
    ensures r.Fail? ==> r.error == NoSuchId("Comment")
    ensures r.Ok? ==> r.value.comments == s.comments - {id as nat}
    ensures r.Ok? ==> r.value.next == s.next && WritesComments(s, r.value)
  {
    var k :- Find(s.comments, id, "Comment");
    Ok(s.(comments := s.comments - {k}))
  }

  /** `get_comments_by_question_id`: the question's comments, oldest first; an unknown
      question simply has none. Comments created at the same time may come in any
      order, as in SQL. */
  function CommentsOfQuestion(s: Store, questionId: int): (r: seq<nat>)
    requires IdsBelowNext(s)
    ensures forall k :: k in r <==> k in s.comments && s.comments[k].questionId as int == questionId
    ensures Distinct(r)
    ensures forall i, j :: 0 <= i < j < |r| ==> s.comments[r[i]].created <= s.comments[r[j]].created
  {
    var mine := Where(s.comments, s.next, (c: Comment) => c.questionId as int == questionId);
    var sorted := OrderByColumn(s.comments, mine, (c: Comment) => c.created);
    SameElementsDistinct(sorted, mine);
    sorted
  }
}

=== FILE: crud_notifications.dfy ===
/** `create_notification`, `get_notifications_by_user_id`,
    `delete_notifications_by_user_id`, and the notification cases of `update_object`
    and `delete_object` (database/crud.py). */
module NotificationCrud {

  import opened Http
  import opened Models
  import opened Schemas
  import opened Crud
  import opened Lists

  /** `create_notification`: the addressee is looked up before the question. */
  function CreateNotification(s: Store, nc: NotificationCreate): (r: Result<(Store, nat)>)
    requires IdsBelowNext(s) && NotificationsLinked(s)
    ensures !Has(s.users, nc.userId) ==> r == Fail(NoSuchId("User"))
    ensures Has(s.users, nc.userId) && !Has(s.questions, nc.questionId) ==> r == Fail(NoSuchId("Question"))
    ensures r.Ok? <==> Has(s.users, nc.userId) && Has(s.questions, nc.questionId)
    ensures r.Ok? ==>
      var (t, id) := r.value;
      && id !in s.notifications
      && t.notifications == s.notifications[id := Notification(nc.title, nc.userId as nat, nc.questionId as nat)]
      && WritesNotifications(s, t)
  {
    var user :- Find(s.users, nc.userId, "User");
    var question :- Find(s.questions, nc.questionId, "Question");
    var id := s.next;
    Ok((s.(notifications := s.notifications[id := Notification(nc.title, user, question)], next := id + 1), id))
  }

  /** One user's notifications, newest id first. */
  function NotificationsOf(s: Store, user: nat): (r: seq<nat>)
    requires IdsBelowNext(s)
    ensures forall k :: k in r <==> k in s.notifications && s.notifications[k].userId == user
    ensures forall i, j :: 0 <= i < j < |r| ==> r[i] > r[j]
  {
    var ascending := Where(s.notifications, s.next, (n: Notification) => n.userId == user);
    Reverse(ascending)
  }

  function Reverse(xs: seq<nat>): (r: seq<nat>)
    ensures |r| == |xs|
    ensures forall i :: 0 <= i < |xs| ==> r[i] == xs[|xs| - 1 - i]
    ensures forall x :: x in r <==> x in xs
  {
    if |xs| == 0 then [] else Reverse(xs[1..]) + [xs[0]]
  }

  /** `get_notifications_by_user_id`: 404 for an unknown user, otherwise the window
      [skip, skip + limit) of that user's notifications ordered by id descending. */
  function NotificationsByUser(s: Store, userId: int, skip: nat, limit: nat): (r: Result<seq<nat>>)
    requires IdsBelowNext(s)
    ensures r.Fail? <==> !Has(s.users, userId)
    ensures r.Fail? ==> r.error == NoSuchId("User")
    ensures r.Ok? ==> r.value == Window(NotificationsOf(s, userId as nat), skip, limit)
  {
    var user :- Find(s.users, userId, "User");
    Ok(Window(NotificationsOf(s, user), skip, limit))
  }

  /** Every page `get_notifications_by_user_id` returns holds only notifications
      addressed to that user, newest first. */
  lemma NotificationPageIsTheUsers(s: Store, userId: int, skip: nat, limit: nat)
    requires IdsBelowNext(s) && Has(s.users, userId)
    ensures var page := NotificationsByUser(s, userId, skip, limit).value;
      && (forall i :: 0 <= i < |page| ==>
            page[i] in s.notifications && s.notifications[page[i]].userId as int == userId)
      && (forall i, j :: 0 <= i < j < |page| ==> page[i] > page[j])
  {
    var mine := NotificationsOf(s, userId as nat);
    var page := NotificationsByUser(s, userId, skip, limit).value;
    assert forall i :: 0 <= i < |page| ==> page[i] == mine[skip + i];
  }

  /** `delete_notifications_by_user_id`: removes exactly the user's notifications. */
  function DeleteNotificationsByUser(s: Store, userId: int): (r: Result<Store>)
    requires IdsBelowNext(s) && NotificationsLinked(s)
    ensures r.Fail? <==> !Has(s.users, userId)
    ensures r.Fail? ==> r.error == NoSuchId("User")
    ensures r.Ok? ==> forall k :: k in r.value.notifications <==>
      k in s.notifications && s.notifications[k].userId as int != userId
    ensures r.Ok? ==> forall k :: k in r.value.notifications ==> r.value.notifications[k] == s.notifications[k]
    ensures r.Ok? ==> r.value.next == s.next && WritesNotifications(s, r.value)
  {
    var user :- Find(s.users, userId, "User");
    Ok(s.(notifications := map k | k in s.notifications && s.notifications[k].userId != user :: s.notifications[k]))
  }

  /** `update_object(Notification, ...)`: only the title is patchable, and a null
      title fails the UPDATE. */
  function UpdateNotification(s: Store, id: int, p: NotificationUpdate): (r: Result<(Store, nat)>)
    requires IdsBelowNext(s) && NotificationsLinked(s)
    ensures r.Fail? <==> !Has(s.notifications, id) || p.WritesNull()
    ensures !Has(s.notifications, id) ==> r == Fail(NoSuchId("Notification"))
    ensures Has(s.notifications, id) && p.WritesNull() ==> r == Fail(NullViolation)
    ensures r.Ok? ==>
      var (t, k) := r.value;
      && k == id && k in s.notifications
      && t.notifications == s.notifications[k := MergeNotification(s.notifications[k], p).value]
      && t.next == s.next && WritesNotifications(s, t)
  {
    var k :- Find(s.notifications, id, "Notification");
    var merged :- Written(MergeNotification(s.notifications[k], p));
    Ok((s.(notifications := s.notifications[k := merged]), k))
  }

  /** `delete_object(Notification, ...)`: nothing refers to a notification. */
  function DeleteNotification(s: Store, id: int): (r: Result<Store>)
    requires IdsBelowNext(s) && NotificationsLinked(s)
    ensures r.Fail? <==> !Has(s.notifications, id)
    ensures r.Fail? ==> r.error == NoSuchId("Notification")
    ensures r.Ok? ==> r.value.notifications == s.notifications - {id as nat}
    ensures r.Ok? ==> r.value.next == s.next && WritesNotifications(s, r.value)
  {
    var k :- Find(s.notifications, id, "Notification");
    Ok(s.(notifications := s.notifications - {k}))
  }

  /** Paging through a user's notifications with consecutive windows visits them in
      order: two adjacent pages are the page spanning both. */
  lemma NotificationPagesTile(s: Store, userId: int, skip: nat, a: nat, b: nat)
    requires IdsBelowNext(s) && Has(s.users, userId)
    ensures NotificationsByUser(s, userId, skip, a).value + NotificationsByUser(s, userId, skip + a, b).value
         == NotificationsByUser(s, userId, skip, a + b).value
  {
    WindowsTile(NotificationsOf(s, userId as nat), skip, a, b);
  }
}

=== FILE: crud_questions.dfy ===
/** `create_question`, `update_question`, the question case of `delete_object`, and
    the author filter behind `get_questions_by_user` (database/crud.py). */
module QuestionCrud {

  import opened Http
  import opened Ascii
  import opened Models
  import opened Schemas
  import opened Crud
  import opened TagCrud

  /** The author lookup of `create_question`: an absent `author_id` matches no user. */
  function FindAuthor(s: Store, authorId: Option<int>): (r: Result<nat>)
    ensures r.Ok? <==> authorId.Some? && Has(s.users, authorId.value)
    ensures r.Ok? ==> r.value as int == authorId.value && r.value in s.users
    ensures r.Fail? ==> r.error == NoSuchId("User")
  {
    if authorId.Some? then Find(s.users, authorId.value, "User") else Fail(NoSuchId("User"))
  }

  /** The session state after `db.add(question_db)`: the new row under the next id,
      with no views and no tags yet. */
  function AddQuestion(s: Store, qc: QuestionCreate, author: nat, now: int): (t: Store)
    requires IdsBelowNext(s)
    ensures IdsBelowNext(t) && s.next in t.questions && s.next !in s.questions
    ensures t.questions[s.next] == Question(qc.title, qc.content, now, 0, author, [])
  {
    s.(questions := s.questions[s.next := Question(qc.title, qc.content, now, 0, author, [])], next := s.next + 1)
  }

  /** `create_question`: 404 for a missing author, then the question is added and
      `fill_tags` runs (400 on a bad title), and the commit refuses the store when a
      title repeats (500). */
  function CreateQuestion(s: Store, qc: QuestionCreate, now: int): (r: Result<(Store, nat)>)
    requires IdsBelowNext(s)
    ensures !(qc.authorId.Some? && Has(s.users, qc.authorId.value)) ==> r == Fail(NoSuchId("User"))
    ensures qc.authorId.Some? && Has(s.users, qc.authorId.value) && qc.tags.Some? && SomeTitleWrong(qc.tags.value) ==>
      r == Fail(Raise(BadRequest400, WrongTagTitle))
    ensures r.Ok? ==>
      var (t, id) := r.value;
      && id !in s.questions && id in t.questions
      && t.questions[id].title == qc.title && t.questions[id].content == qc.content
      && t.questions[id].created == now && t.questions[id].views == 0
      && t.questions[id].authorId as int == qc.authorId.value
      && Committable(t)
  {
    var author :- FindAuthor(s, qc.authorId);
    var pending := AddQuestion(s, qc, author, now);
    var filled :- FillTags(pending, s.next, qc.tags);
    var t :- Commit(filled);
    Ok((t, s.next))
  }

  /** Without titles, `create_question` attaches no tags and leaves the tag table
      alone. */
  lemma CreateQuestionUntagged(s: Store, qc: QuestionCreate, now: int)
    requires IdsBelowNext(s)
    requires CreateQuestion(s, qc, now).Ok? && (qc.tags.None? || qc.tags == Some([]))
    ensures var (t, id) := CreateQuestion(s, qc, now).value;
      t.questions[id].tags == [] && t.tags == s.tags
  {
  }

  /** With titles, `create_question` attaches one tag per title in order, each
      carrying the title lower-cased and reusing a committed tag exactly when one has
      that title; committed tags are kept. */
  lemma CreateQuestionTags(s: Store, qc: QuestionCreate, now: int)
    requires IdsBelowNext(s)
    requires CreateQuestion(s, qc, now).Ok? && qc.tags.Some? && qc.tags.value != []
    ensures var (t, id) := CreateQuestion(s, qc, now).value;
      var tags := t.questions[id].tags;
      var titles := qc.tags.value;
      && |tags| == |titles|
      && (forall i :: 0 <= i < |tags| ==> tags[i] in t.tags && t.tags[tags[i]].title == Lower(titles[i]))
      && (forall i :: 0 <= i < |tags| ==>
            (tags[i] in s.tags <==> exists k :: k in s.tags && s.tags[k].title == Lower(titles[i])))
      && (forall k :: k in s.tags ==> k in t.tags && t.tags[k] == s.tags[k])
      && (forall k :: k in t.tags ==> k < t.next)
  {
    var pending := AddQuestion(s, qc, FindAuthor(s, qc.authorId).value, now);
    assert CreateQuestion(s, qc, now).value == (FillTags(pending, s.next, qc.tags).value, s.next);
    FillTagsFromEmpty(pending, s.next, qc.tags.value);
  }

  /** With an author and well-formed titles, `create_question` on a committable store
      fails at the commit exactly when two titles are equal once lower-cased. */
  lemma CreateQuestionCommits(s: Store, qc: QuestionCreate, now: int)
    requires IdsBelowNext(s) && Committable(s)
    requires qc.authorId.Some? && Has(s.users, qc.authorId.value)
    requires qc.tags.Some? && !SomeTitleWrong(qc.tags.value)
    ensures CreateQuestion(s, qc, now).Ok? <==> DistinctTitles(LowerAll(qc.tags.value))
    ensures CreateQuestion(s, qc, now).Fail? ==> CreateQuestion(s, qc, now).error == IntegrityViolation
  {
    var pending := AddQuestion(s, qc, qc.authorId.value as nat, now);
    assert Committable(pending) by {
      assert forall k :: k in pending.questions && k != s.next ==> pending.questions[k] == s.questions[k];
    }
    if qc.tags.value != [] {
      FillTagsCommits(pending, s.next, qc.tags.value);
    }
  }

  /** `create_question` writes one new question and the tag table, and no other
      table. */
  lemma CreateQuestionFrame(s: Store, qc: QuestionCreate, now: int)
    requires IdsBelowNext(s)
    requires CreateQuestion(s, qc, now).Ok?
    ensures var (t, id) := CreateQuestion(s, qc, now).value;
      && t.roles == s.roles && t.users == s.users && t.notifications == s.notifications
      && t.comments == s.comments && t.articles == s.articles
      && id == s.next && s.next < t.next
      && t.questions == s.questions[id := t.questions[id]]
  {
    var pending := AddQuestion(s, qc, FindAuthor(s, qc.authorId).value, now);
    var filled := FillTags(pending, s.next, qc.tags);
    assert filled.Ok? && Commit(filled.value) == Ok(filled.value);
    var t := filled.value;
    assert CreateQuestion(s, qc, now) == Ok((t, s.next));
    UpdateTwice(s.questions, s.next, pending.questions[s.next], t.questions[s.next]);
  }

  /** Growing the tag table, keeping its rows and titles unique, is a write to it. */
  lemma GrowTagsWrites(s: Store, tags: map<nat, Tag>, next: nat)
    requires forall k :: k in s.tags ==> k < s.next
    requires s.next <= next && UniqueTagTitles(tags)
    requires forall k :: k in s.tags ==> k in tags
    requires forall k :: k in tags ==> k < next
    ensures WritesTags(s, s.(tags := tags, next := next))
  {
  }

  /** Setting one question row, whose author and tags exist, in a committable store
      is a write to the question table. */
  lemma SetQuestionWrites(m: Store, t: Store, id: nat)
    requires t.roles == m.roles && t.users == m.users && t.notifications == m.notifications
    requires t.tags == m.tags && t.comments == m.comments && t.articles == m.articles
    requires m.next <= t.next && id < t.next
    requires forall k :: k in m.questions ==> k < m.next
    requires AuthorsExist(m) && TagsExist(m) && Committable(t)
    requires id in t.questions && t.questions == m.questions[id := t.questions[id]]
    requires t.questions[id].authorId in m.users
    requires forall i :: 0 <= i < |t.questions[id].tags| ==> t.questions[id].tags[i] in m.tags
    ensures WritesQuestions(m, t)
  {
  }

  /** `create_question` is a write to the tag table followed by a write to the
      question table. */
  lemma CreateQuestionWrites(s: Store, qc: QuestionCreate, now: int)
    requires IdsBelowNext(s) && AuthorsExist(s) && TagsExist(s)
    requires CreateQuestion(s, qc, now).Ok?
    ensures var (t, id) := CreateQuestion(s, qc, now).value;
      WritesTags(s, s.(tags := t.tags, next := t.next)) && WritesQuestions(s.(tags := t.tags, next := t.next), t)
  {
    var (t, id) := CreateQuestion(s, qc, now).value;
    CreateQuestionFrame(s, qc, now);
    if qc.tags.Some? && qc.tags.value != [] {
      CreateQuestionTags(s, qc, now);
    } else {
      CreateQuestionUntagged(s, qc, now);
    }
    GrowTagsWrites(s, t.tags, t.next);
    SetQuestionWrites(s.(tags := t.tags, next := t.next), t, id);
  }

  /** `create_question` keeps the store's invariant. */
  lemma CreateQuestionValid(s: Store, qc: QuestionCreate, now: int)
    requires Valid(s)
    requires CreateQuestion(s, qc, now).Ok?
    ensures Valid(CreateQuestion(s, qc, now).value.0)
  {
    var t := CreateQuestion(s, qc, now).value.0;
    CreateQuestionWrites(s, qc, now);
    WritesTagsValid(s, s.(tags := t.tags, next := t.next));
    WritesQuestionsValid(s.(tags := t.tags, next := t.next), t);
  }

  /** True iff `update_question` refills the tags: the patch's tag list is truthy. */
  predicate RetagsQuestion(p: QuestionUpdate) {
    p.tags.Set? && p.tags.value != []
  }

  /** The session state `update_question` hands to `fill_tags` once its UPDATE has
      gone through: the merged row, with its tag list emptied when the patch brings
      tags. */
  function PatchQuestion(s: Store, k: nat, p: QuestionUpdate): (t: Store)
    requires k in s.questions && !p.WritesNull()
    ensures k in t.questions && t.questions == s.questions[k := t.questions[k]]
    ensures t.questions[k] == MergeQuestion(s.questions[k], p).value.(tags := t.questions[k].tags)
    ensures t.questions[k].tags == if RetagsQuestion(p) then [] else s.questions[k].tags
    ensures t.roles == s.roles && t.users == s.users && t.notifications == s.notifications
    ensures t.tags == s.tags && t.comments == s.comments && t.articles == s.articles && t.next == s.next
  {
    var merged := MergeQuestion(s.questions[k], p).value;
    s.(questions := s.questions[k := if RetagsQuestion(p) then merged.(tags := []) else merged])
  }

  /** `update_question`: 404 for a missing question; the sent columns are merged and
      written at once, so a null one fails before the tags are looked at; a truthy
      tag list replaces the tags through `fill_tags` (400 on a bad title); then the
      commit (500 when a title repeats). */
  function UpdateQuestion(s: Store, id: int, p: QuestionUpdate): (r: Result<(Store, nat)>)
    requires IdsBelowNext(s)
    ensures !Has(s.questions, id) ==> r == Fail(NoSuchId("Question"))
    ensures Has(s.questions, id) && p.WritesNull() ==> r == Fail(NullViolation)
    ensures Has(s.questions, id) && !p.WritesNull() && RetagsQuestion(p) && SomeTitleWrong(p.tags.value) ==>
      r == Fail(Raise(BadRequest400, WrongTagTitle))
    ensures r.Ok? ==>
      var (t, k) := r.value;
      && !p.WritesNull()
      && k == id && k in s.questions && k in t.questions
      && t.questions[k] == MergeQuestion(s.questions[k], p).value.(tags := t.questions[k].tags)
      && (!RetagsQuestion(p) ==> t == s.(questions := s.questions[k := MergeQuestion(s.questions[k], p).value]))
      && Committable(t)
  {
    var k :- Find(s.questions, id, "Question");
    var _ :- Written(MergeQuestion(s.questions[k], p));
    var pending := PatchQuestion(s, k, p);
    var filled :- FillTags(pending, k, p.tags.AsOption());
    var t :- Commit(filled);
    Ok((t, k))
  }

  /** Without a truthy tag list, `update_question` on a committable store succeeds for
      every existing question unless a column is sent as null: only title, content
      and views change. */
  lemma UpdateQuestionUntagged(s: Store, id: int, p: QuestionUpdate)
    requires IdsBelowNext(s) && Committable(s) && Has(s.questions, id)
    requires !RetagsQuestion(p)
    ensures UpdateQuestion(s, id, p).Ok? <==> !p.WritesNull()
  {
    if !p.WritesNull() {
      var k := id as nat;
      var t := PatchQuestion(s, k, p);
      assert t.questions[k].tags == s.questions[k].tags;
      assert forall q :: q in t.questions ==> t.questions[q].tags == s.questions[q].tags;
    }
  }

  /** With a truthy, well-formed tag list, `update_question` on a committable store
      fails at the commit exactly when two titles are equal once lower-cased. */
  lemma UpdateQuestionCommits(s: Store, id: int, p: QuestionUpdate)
    requires IdsBelowNext(s) && Committable(s) && Has(s.questions, id)
    requires RetagsQuestion(p) && !SomeTitleWrong(p.tags.value)
    ensures UpdateQuestion(s, id, p).Ok? <==> !p.WritesNull() && DistinctTitles(LowerAll(p.tags.value))
    ensures UpdateQuestion(s, id, p).Fail? ==>
      UpdateQuestion(s, id, p).error == if p.WritesNull() then NullViolation else IntegrityViolation
  {
    if !p.WritesNull() {
      var k := id as nat;
      var pending := PatchQuestion(s, k, p);
      assert Committable(pending) by {
        assert forall q :: q in pending.questions && q != k ==> pending.questions[q] == s.questions[q];
      }
      FillTagsCommits(pending, k, p.tags.value);
    }
  }

  /** A truthy tag list replaces the question's tags by the titles' tags, in order,
      each carrying its title lower-cased and reusing a committed tag exactly when
      one has that title. */
  lemma UpdateQuestionRetags(s: Store, id: int, p: QuestionUpdate)
    requires IdsBelowNext(s) && Has(s.questions, id)
    requires UpdateQuestion(s, id, p).Ok? && RetagsQuestion(p)
    ensures var (t, k) := UpdateQuestion(s, id, p).value;
      var tags := t.questions[k].tags;
      var titles := p.tags.value;
      && |tags| == |titles|
      && (forall i :: 0 <= i < |tags| ==> tags[i] in t.tags && t.tags[tags[i]].title == Lower(titles[i]))
      && (forall i :: 0 <= i < |tags| ==>
            (tags[i] in s.tags <==> exists j :: j in s.tags && s.tags[j].title == Lower(titles[i])))
      && (forall j :: j in s.tags ==> j in t.tags && t.tags[j] == s.tags[j])
      && (forall j :: j in t.tags ==> j < t.next)
  {
    var k := id as nat;
    var pending := PatchQuestion(s, k, p);
    var filled := FillTags(pending, k, p.tags.AsOption());
    assert filled.Ok? && Commit(filled.value) == Ok(filled.value);
    assert UpdateQuestion(s, id, p) == Ok((filled.value, k));
    FillTagsFromEmpty(pending, k, p.tags.value);
  }

  /** `update_question` writes the one question and the tag table, and no other
      table. */
  lemma UpdateQuestionFrame(s: Store, id: int, p: QuestionUpdate)
    requires IdsBelowNext(s)
    requires UpdateQuestion(s, id, p).Ok?
    ensures var (t, k) := UpdateQuestion(s, id, p).value;
      && t.roles == s.roles && t.users == s.users && t.notifications == s.notifications
      && t.comments == s.comments && t.articles == s.articles
      && s.next <= t.next && k in t.questions
      && t.questions == s.questions[k := t.questions[k]]
  {
    var k := id as nat;
    var pending := PatchQuestion(s, k, p);
    var filled := FillTags(pending, k, p.tags.AsOption());
    assert filled.Ok? && Commit(filled.value) == Ok(filled.value);
    var t := filled.value;
    assert UpdateQuestion(s, id, p) == Ok((t, k));
    UpdateTwice(s.questions, k, pending.questions[k], t.questions[k]);
  }

  /** `update_question` is a write to the tag table followed by a write to the
      question table. */
  lemma UpdateQuestionWrites(s: Store, id: int, p: QuestionUpdate)
    requires IdsBelowNext(s) && AuthorsExist(s) && TagsExist(s)
    requires UpdateQuestion(s, id, p).Ok?
    ensures var (t, k) := UpdateQuestion(s, id, p).value;
      WritesTags(s, s.(tags := t.tags, next := t.next)) && WritesQuestions(s.(tags := t.tags, next := t.next), t)
  {
    var (t, k) := UpdateQuestion(s, id, p).value;
    UpdateQuestionFrame(s, id, p);
    if RetagsQuestion(p) {
      UpdateQuestionRetags(s, id, p);
    } else {
      assert t.questions[k].tags == s.questions[k].tags;
    }
    GrowTagsWrites(s, t.tags, t.next);
    SetQuestionWrites(s.(tags := t.tags, next := t.next), t, k);
  }

  /** `update_question` keeps the store's invariant. */
  lemma UpdateQuestionValid(s: Store, id: int, p: QuestionUpdate)
    requires Valid(s)
    requires UpdateQuestion(s, id, p).Ok?
    ensures Valid(UpdateQuestion(s, id, p).value.0)
  {
    var t := UpdateQuestion(s, id, p).value.0;
    UpdateQuestionWrites(s, id, p);
    WritesTagsValid(s, s.(tags := t.tags, next := t.next));
    WritesQuestionsValid(s.(tags := t.tags, next := t.next), t);
  }

  /** Deleting a question (`delete_object`) cascades to its comments and
      notifications. */
  function DeleteQuestion(s: Store, id: int): (r: Result<Store>)
    ensures r.Fail? <==> !Has(s.questions, id)
    ensures r.Fail? ==> r.error == NoSuchId("Question")
    ensures r.Ok? ==> r.value == DeleteQuestions(s, {id as nat})
  {
    var k :- Find(s.questions, id, "Question");
    Ok(DeleteQuestions(s, {k}))
  }

  /** `get_objects_by_expression(Question, author_id == user_id)`: the user's
      questions by ascending id; an unknown user simply has none. */
  function QuestionsByAuthor(s: Store, userId: int): (r: seq<nat>)
    requires IdsBelowNext(s)
    ensures forall k :: k in r <==> k in s.questions && s.questions[k].authorId as int == userId
    ensures forall i, j :: 0 <= i < j < |r| ==> r[i] < r[j]
    ensures AuthorsExist(s) && r != [] ==> Has(s.users, userId)
  {
    var mine := Where(s.questions, s.next, (q: Question) => q.authorId as int == userId);
    assert mine != [] ==> mine[0] in mine;
    mine
  }
}

=== FILE: crud_roles.dfy ===
/** `create_role`, `update_role`, `update_role_by_title`, `delete_role_by_title` and
    the role case of `delete_object` (database/crud.py). */
module RoleCrud {

  import opened Http
  import opened Models
  import opened Schemas
  import opened Crud

  const RoleTitleTaken: string := "Role with this title already exists."

  /** True iff some role other than `id` holds `title`. */
  predicate TitleHeldByOther(s: Store, title: string, id: int) {
    exists k :: k in s.roles && s.roles[k].title == title && k as int != id
  }

  function RoleTitled(s: Store, title: string): (r: Option<nat>)
    requires IdsBelowNext(s)
    ensures r.Some? <==> exists k :: k in s.roles && s.roles[k].title == title
    ensures r.Some? ==> r.value in s.roles && s.roles[r.value].title == title
  {
    FirstWhere(s.roles, s.next, (x: Role) => x.title == title)
  }

  /** Giving row `k` a title no other row holds keeps titles unique. */
  lemma SetRoleTitleUnique(m: map<nat, Role>, k: nat, title: string)
    requires UniqueRoleTitles(m)
    requires forall j :: j in m && j != k ==> m[j].title != title
    ensures UniqueRoleTitles(m[k := Role(title)])
  {
  }

  /** `create_role`: refuses a title already in use; otherwise adds the role under a
      fresh id and changes nothing else. */
  function CreateRole(s: Store, rc: RoleCreate): (r: Result<(Store, nat)>)
    requires IdsBelowNext(s) && UniqueRoleTitles(s.roles)
    ensures r.Fail? <==> exists k :: k in s.roles && s.roles[k].title == rc.title
    ensures r.Fail? ==> r.error == Raise(Forbidden403, RoleTitleTaken)
    ensures r.Ok? ==>
      var (t, id) := r.value;
      && id !in s.roles
      && t.roles == s.roles[id := Role(rc.title)]
      && WritesRoles(s, t)
  {
    if RoleTitled(s, rc.title).Some? then Fail(Raise(Forbidden403, RoleTitleTaken))
    else
      var id := s.next;
      SetRoleTitleUnique(s.roles, id, rc.title);
      Ok((s.(roles := s.roles[id := Role(rc.title)], next := id + 1), id))
  }

  /** `update_role`: the title conflict is checked against other ids first, and only
      then is the id looked up; a sent title overwrites, one left out keeps, and a
      null fails the UPDATE. A null title never clashes: `title == None` is `IS NULL`,
      which no row matches. */
  function UpdateRole(s: Store, id: int, p: RoleUpdate): (r: Result<(Store, nat)>)
    requires IdsBelowNext(s) && UniqueRoleTitles(s.roles)
    ensures r.Fail? && r.error.status == Forbidden403 <==> p.title.Set? && TitleHeldByOther(s, p.title.value, id)
    ensures r.Fail? && r.error.status == Forbidden403 ==> r.error.detail == RoleTitleTaken
    ensures !(p.title.Set? && TitleHeldByOther(s, p.title.value, id)) ==>
      && (r.Fail? <==> !Has(s.roles, id) || p.WritesNull())
      && (!Has(s.roles, id) ==> r == Fail(NoSuchId("Role")))
      && (Has(s.roles, id) && p.WritesNull() ==> r == Fail(NullViolation))
    ensures r.Ok? ==>
      var (t, k) := r.value;
      && k == id && k in s.roles
      && t.roles == s.roles[k := MergeRole(s.roles[k], p).value]
      && t.next == s.next && WritesRoles(s, t)
  {
    if p.title.Set? && TitleHeldByOther(s, p.title.value, id) then
      Fail(Raise(Forbidden403, RoleTitleTaken))
    else
      var k :- Find(s.roles, id, "Role");
      var merged :- Written(MergeRole(s.roles[k], p));
      var roles := s.roles[k := merged];
      assert UniqueRoleTitles(roles) by {
        if p.title.Set? {
          SetRoleTitleUnique(s.roles, k, p.title.value);
        } else {
          assert roles == s.roles;
        }
      }
      Ok((s.(roles := roles), k))
  }

  /** `update_role_by_title`: resolves the title (404 "with this field") and then
      behaves as `update_role` on that id. */
  function UpdateRoleByTitle(s: Store, title: string, p: RoleUpdate): (r: Result<(Store, nat)>)
    requires IdsBelowNext(s) && UniqueRoleTitles(s.roles)
    ensures (forall k :: k in s.roles ==> s.roles[k].title != title) ==> r == Fail(NoSuchField("Role"))
    ensures forall k :: k in s.roles && s.roles[k].title == title ==> r == UpdateRole(s, k, p)
  {
    var k :- FindWhere(s.roles, s.next, (x: Role) => x.title == title, "Role");
    UpdateRole(s, k, p)
  }

  /** Deleting a role by id (`delete_object`) cascades to its users. */
  function DeleteRole(s: Store, id: int): (r: Result<Store>)
    ensures r.Fail? <==> !Has(s.roles, id)
    ensures r.Fail? ==> r.error == NoSuchId("Role")
    ensures r.Ok? ==> r.value == DeleteRoleCascade(s, id)
  {
    var k :- Find(s.roles, id, "Role");
    Ok(DeleteRoleCascade(s, k))
  }

  /** `delete_role_by_title` */
  function DeleteRoleByTitle(s: Store, title: string): (r: Result<Store>)
    requires IdsBelowNext(s) && UniqueRoleTitles(s.roles)
    ensures r.Fail? <==> forall k :: k in s.roles ==> s.roles[k].title != title
    ensures r.Fail? ==> r.error == NoSuchField("Role")
    ensures forall k :: k in s.roles && s.roles[k].title == title ==> r == Ok(DeleteRoleCascade(s, k))
  {
    var k :- FindWhere(s.roles, s.next, (x: Role) => x.title == title, "Role");
    Ok(DeleteRoleCascade(s, k))
  }

  /** Creating a role and then creating it again is refused, and resubmitting a
      role's own title as an update is accepted and changes nothing. */
  lemma RoleTitleRoundTrips(s: Store, rc: RoleCreate)
    requires IdsBelowNext(s) && UniqueRoleTitles(s.roles)
    requires CreateRole(s, rc).Ok?
    ensures var (t, id) := CreateRole(s, rc).value;
      && CreateRole(t, rc) == Fail(Raise(Forbidden403, RoleTitleTaken))
      && UpdateRole(t, id, RoleUpdate(Set(rc.title))) == Ok((t, id))
  {
    var (t, id) := CreateRole(s, rc).value;
    assert t.roles[id].title == rc.title;
    assert !TitleHeldByOther(t, rc.title, id);
    assert t.roles[id := MergeRole(t.roles[id], RoleUpdate(Set(rc.title))).value] == t.roles;
  }
}

=== FILE: crud_tags.dfy ===
/** `create_tag`, `update_tag`, `fill_tags`, and the tag cases of `delete_object`
    (database/crud.py). */
module TagCrud {

  import opened Http
  import opened Ascii
  import opened Models
  import opened Schemas
  import opened Crud

  /** The two refusals differ in one letter, as in the source. */
  const TagTitleExist: string := "Tag with this title already exist."
  const TagTitleExists: string := "Tag with this title already exists."
  const WrongTagTitle: string := "Wrong tag title."

  /** True iff some tag other than `id` holds `title`. */
  predicate TagTitleHeldByOther(s: Store, title: string, id: int) {
    exists k :: k in s.tags && s.tags[k].title == title && k as int != id
  }

  function TagTitled(s: Store, title: string): (r: Option<nat>)
    requires IdsBelowNext(s)
    ensures r.Some? <==> exists k :: k in s.tags && s.tags[k].title == title
    ensures r.Some? ==> r.value in s.tags && s.tags[r.value].title == title
  {
    FirstWhere(s.tags, s.next, (x: Tag) => x.title == title)
  }

  /** Giving row `k` a title no other row holds keeps titles unique. */
  lemma SetTagTitleUnique(m: map<nat, Tag>, k: nat, title: string)
    requires UniqueTagTitles(m)
    requires forall j :: j in m && j != k ==> m[j].title != title
    ensures UniqueTagTitles(m[k := Tag(title)])
  {
  }

  /** `create_tag`: refuses a title already in use; otherwise adds the tag under a
      fresh id. */
  function CreateTag(s: Store, tc: TagCreate): (r: Result<(Store, nat)>)
    requires IdsBelowNext(s) && UniqueTagTitles(s.tags)
    ensures r.Fail? <==> exists k :: k in s.tags && s.tags[k].title == tc.title
    ensures r.Fail? ==> r.error == Raise(Forbidden403, TagTitleExist)
    ensures r.Ok? ==>
      var (t, id) := r.value;
      && id !in s.tags
      && t.tags == s.tags[id := Tag(tc.title)]
      && WritesTags(s, t)
  {
    if TagTitled(s, tc.title).Some? then Fail(Raise(Forbidden403, TagTitleExist))
    else
      SetTagTitleUnique(s.tags, s.next, tc.title);
      Ok((s.(tags := s.tags[s.next := Tag(tc.title)], next := s.next + 1), s.next))
  }

  /** `update_tag`: the title conflict is checked against other ids before the id is
      looked up. A title left out or sent as null matches no row (`title == NULL` is
      never true); a null then fails the UPDATE. */
  function UpdateTag(s: Store, id: int, p: TagUpdate): (r: Result<(Store, nat)>)
    requires IdsBelowNext(s) && UniqueTagTitles(s.tags)
    ensures r.Fail? && r.error.status == Forbidden403 <==> p.title.Set? && TagTitleHeldByOther(s, p.title.value, id)
    ensures r.Fail? && r.error.status == Forbidden403 ==> r.error.detail == TagTitleExists
    ensures !(p.title.Set? && TagTitleHeldByOther(s, p.title.value, id)) ==>
      && (r.Fail? <==> !Has(s.tags, id) || p.WritesNull())
      && (!Has(s.tags, id) ==> r == Fail(NoSuchId("Tag")))
      && (Has(s.tags, id) && p.WritesNull() ==> r == Fail(NullViolation))
    ensures r.Ok? ==>
      var (t, k) := r.value;
      && k == id && k in s.tags
      && t.tags == s.tags[k := MergeTag(s.tags[k], p).value]
      && t.next == s.next && WritesTags(s, t)
  {
    if p.title.Set? && TagTitleHeldByOther(s, p.title.value, id) then
      Fail(Raise(Forbidden403, TagTitleExists))
    else
      var k :- Find(s.tags, id, "Tag");
      var merged :- Written(MergeTag(s.tags[k], p));
      var tags := s.tags[k := merged];
      assert UniqueTagTitles(tags) by {
        if p.title.Set? {
          SetTagTitleUnique(s.tags, k, p.title.value);
        } else {
          assert tags == s.tags;
        }
      }
      Ok((s.(tags := tags), k))
  }

  /** `delete_object(Tag, ...)`: the tag leaves every question's tag list. */
  function DeleteTag(s: Store, id: int): (r: Result<Store>)
    ensures r.Fail? <==> !Has(s.tags, id)
    ensures r.Fail? ==> r.error == NoSuchId("Tag")
    ensures r.Ok? ==> r.value == DeleteTagCascade(s, id)
  {
    var k :- Find(s.tags, id, "Tag");
    Ok(DeleteTagCascade(s, k))
  }

  /** Creating a tag and then creating it again is refused. */
  lemma TagCreateTwiceRefused(s: Store, tc: TagCreate)
    requires IdsBelowNext(s) && UniqueTagTitles(s.tags)
    requires CreateTag(s, tc).Ok?
    ensures var (t, id) := CreateTag(s, tc).value;
      CreateTag(t, tc) == Fail(Raise(Forbidden403, TagTitleExist))
  {
    var (t, id) := CreateTag(s, tc).value;
    assert t.tags[id].title == tc.title;
  }

  /** Resubmitting a new tag's own title as an update is accepted and changes
      nothing. */
  lemma TagTitleRoundTrips(s: Store, tc: TagCreate)
    requires IdsBelowNext(s) && UniqueTagTitles(s.tags)
    requires CreateTag(s, tc).Ok?
    ensures var (t, id) := CreateTag(s, tc).value;
      UpdateTag(t, id, TagUpdate(Set(tc.title))) == Ok((t, id))
  {
    var (t, id) := CreateTag(s, tc).value;
    assert t.tags[id].title == tc.title;
    assert !TagTitleHeldByOther(t, tc.title, id);
    assert t.tags[id := MergeTag(t.tags[id], TagUpdate(Set(tc.title))).value] == t.tags;
  }

  // ---------------------------------------------------------------------------
  // fill_tags

  /** `tag.replace('.', '').replace('-', '').replace('_', '').isalnum()` */
  predicate ValidTagTitle(t: string) {
    IsAlnum(Delete(Delete(Delete(t, '.'), '-'), '_'))
  }

  predicate TagChar(c: char) {
    IsAlnumChar(c) || c == '.' || c == '-' || c == '_'
  }

  /** A tag title passes iff it is made of letters, digits, '.', '-' and '_' and
      holds at least one letter or digit. */
  lemma ValidTagTitleIff(t: string)
    ensures ValidTagTitle(t) <==>
      (forall i :: 0 <= i < |t| ==> TagChar(t[i])) && (exists i :: 0 <= i < |t| && IsAlnumChar(t[i]))
  {
    if ValidTagTitle(t) {
      ValidTagTitleShape(t);
    }
    if (forall i :: 0 <= i < |t| ==> TagChar(t[i])) && (exists i :: 0 <= i < |t| && IsAlnumChar(t[i])) {
      ShapedTagTitleValid(t);
    }
  }

  /** What is left after the three deletions is the title without '.', '-' and '_'. */
  lemma TagTitleStripped(t: string)
    ensures forall x :: x in Delete(Delete(Delete(t, '.'), '-'), '_') <==> x in t && x != '.' && x != '-' && x != '_'
  {
  }

  lemma ValidTagTitleShape(t: string)
    requires ValidTagTitle(t)
    ensures forall i :: 0 <= i < |t| ==> TagChar(t[i])
    ensures exists i :: 0 <= i < |t| && IsAlnumChar(t[i])
  {
    var r := Delete(Delete(Delete(t, '.'), '-'), '_');
    TagTitleStripped(t);
    assert r[0] in t;
    forall i | 0 <= i < |t| ensures TagChar(t[i]) {
      if !(t[i] == '.' || t[i] == '-' || t[i] == '_') {
        assert t[i] in r;
      }
    }
  }

  lemma ShapedTagTitleValid(t: string)
    requires forall i :: 0 <= i < |t| ==> TagChar(t[i])
    requires exists i :: 0 <= i < |t| && IsAlnumChar(t[i])
    ensures ValidTagTitle(t)
  {
    var r := Delete(Delete(Delete(t, '.'), '-'), '_');
    TagTitleStripped(t);
    var i :| 0 <= i < |t| && IsAlnumChar(t[i]);
    assert t[i] in r;
    forall j | 0 <= j < |r| ensures IsAlnumChar(r[j]) {
      assert r[j] in t;
    }
  }

  function LowerAll(xs: seq<string>): (r: seq<string>)
    ensures |r| == |xs|
    ensures forall i :: 0 <= i < |xs| ==> r[i] == Lower(xs[i])
  {
    if |xs| == 0 then [] else [Lower(xs[0])] + LowerAll(xs[1..])
  }

  /** What the loop of `fill_tags` collects: the pending tag table, the next free id,
      and the tag ids appended to the question. */
  datatype Filled = Filled(tags: map<nat, Tag>, next: nat, ids: seq<nat>)

  /** The committed tag `fill_tags` finds for `title`, if any. */
  function CommittedTag(committed: map<nat, Tag>, bound: nat, title: string): (r: Option<nat>)
    requires forall k :: k in committed ==> k < bound
    ensures r.Some? <==> exists k :: k in committed && committed[k].title == title
    ensures r.Some? ==> r.value in committed && committed[r.value].title == title
  {
    FirstWhere(committed, bound, (x: Tag) => x.title == title)
  }

  /** The committed tags the titles resolve to, one lookup per title. */
  function Lookups(committed: map<nat, Tag>, bound: nat, titles: seq<string>): (r: seq<Option<nat>>)
    requires forall k :: k in committed ==> k < bound
    ensures |r| == |titles|
    ensures forall i :: 0 <= i < |titles| ==> r[i] == CommittedTag(committed, bound, titles[i])
  {
    seq(|titles|, i requires 0 <= i < |titles| => CommittedTag(committed, bound, titles[i]))
  }

  /** The loop of `fill_tags` over titles already lower-cased and checked, given what
      each title's lookup found: a found tag is reused, and otherwise a tag is added
      under the next id. Lookups read the committed table: the session does not
      autoflush, so a tag added earlier in the same loop is not found again and a
      repeated new title is added twice. */
  function AddTags(found: seq<Option<nat>>, titles: seq<string>, pending: map<nat, Tag>, next: nat): (f: Filled)
    requires |found| == |titles|
    ensures |f.ids| == |titles| && next <= f.next
    decreases |titles|
  {
    if |titles| == 0 then Filled(pending, next, [])
    else if found[0].Some? then
      var rest := AddTags(found[1..], titles[1..], pending, next);
      rest.(ids := [found[0].value] + rest.ids)
    else
      var rest := AddTags(found[1..], titles[1..], pending[next := Tag(titles[0])], next + 1);
      rest.(ids := [next] + rest.ids)
  }

  /** The loop only adds rows, each under an id in [next, f.next). */
  lemma {:induction false} AddTagsGrows(found: seq<Option<nat>>, titles: seq<string>, pending: map<nat, Tag>, next: nat)
    requires |found| == |titles|
    requires forall k :: k in pending ==> k < next
    ensures var f := AddTags(found, titles, pending, next);
      && (forall k :: k in pending ==> k in f.tags && f.tags[k] == pending[k])
      && (forall k :: k in f.tags ==> k in pending || next <= k < f.next)
    decreases |titles|
  {
    if |titles| > 0 {
      if found[0].Some? {
        AddTagsGrows(found[1..], titles[1..], pending, next);
      } else {
        AddTagsGrows(found[1..], titles[1..], pending[next := Tag(titles[0])], next + 1);
      }
    }
  }

  /** A title whose lookup found a tag gets that tag's id; any other gets a new id,
      at least `next`, holding the title, and larger than the new ids before it. */
  lemma {:induction false} AddTagsIds(found: seq<Option<nat>>, titles: seq<string>, pending: map<nat, Tag>, next: nat)
    requires |found| == |titles|
    requires forall k :: k in pending ==> k < next
    ensures var f := AddTags(found, titles, pending, next);
      && (forall i :: 0 <= i < |titles| && found[i].Some? ==> f.ids[i] == found[i].value)
      && (forall i :: 0 <= i < |titles| && found[i].None? ==>
            next <= f.ids[i] < f.next && f.ids[i] in f.tags && f.tags[f.ids[i]].title == titles[i])
      && (forall i, j :: 0 <= i < j < |titles| && found[i].None? && found[j].None? ==> f.ids[i] < f.ids[j])
    decreases |titles|
  {
    if |titles| > 0 {
      var f := AddTags(found, titles, pending, next);
      var p', n' := pending, next;
      if found[0].None? {
        p', n' := pending[next := Tag(titles[0])], next + 1;
      }
      var rest := AddTags(found[1..], titles[1..], p', n');
      assert f.ids == [f.ids[0]] + rest.ids && f.tags == rest.tags && f.next == rest.next;
      AddTagsIds(found[1..], titles[1..], p', n');
      AddTagsGrows(found[1..], titles[1..], p', n');
      forall i | 0 < i < |titles|
        ensures found[i] == found[1..][i - 1] && titles[i] == titles[1..][i - 1] && f.ids[i] == rest.ids[i - 1]
      {
      }
    }
  }

  /** Every row the loop adds is the tag of some title whose lookup found nothing. */
  lemma {:induction false} AddTagsNewKeys(found: seq<Option<nat>>, titles: seq<string>, pending: map<nat, Tag>, next: nat)
    requires |found| == |titles|
    ensures var f := AddTags(found, titles, pending, next);
      forall k :: k in f.tags && k !in pending ==> exists i :: 0 <= i < |titles| && found[i].None? && f.ids[i] == k
    decreases |titles|
  {
    if |titles| > 0 {
      var f := AddTags(found, titles, pending, next);
      var p', n' := pending, next;
      if found[0].None? {
        p', n' := pending[next := Tag(titles[0])], next + 1;
      }
      var rest := AddTags(found[1..], titles[1..], p', n');
      assert f.ids == [f.ids[0]] + rest.ids && f.tags == rest.tags;
      AddTagsNewKeys(found[1..], titles[1..], p', n');
      forall k | k in f.tags && k !in pending
        ensures exists i :: 0 <= i < |titles| && found[i].None? && f.ids[i] == k
      {
        if k in p' {
          assert found[0].None? && f.ids[0] == k;
        } else {
          var i :| 0 <= i < |titles[1..]| && found[1..][i].None? && rest.ids[i] == k;
          assert found[i + 1].None? && f.ids[i + 1] == k;
        }
      }
    }
  }

  /** No title occurs twice. */
  predicate DistinctTitles(xs: seq<string>) {
    forall i, j :: 0 <= i < j < |xs| ==> xs[i] != xs[j]
  }

  /** The loop run over the committed table, stated without the lookups: each title
      gets a tag carrying it, a committed one exactly when one has that title; the
      committed rows stay; every other row is a new tag some title got; and new tags
      get increasing ids below the new counter. */
  lemma AddTagsResolves(committed: map<nat, Tag>, next: nat, titles: seq<string>)
    requires forall k :: k in committed ==> k < next
    ensures var f := AddTags(Lookups(committed, next, titles), titles, committed, next);
      && (forall i :: 0 <= i < |titles| ==> f.ids[i] in f.tags && f.tags[f.ids[i]].title == titles[i])
      && (forall i :: 0 <= i < |titles| ==>
            (f.ids[i] in committed <==> exists k :: k in committed && committed[k].title == titles[i]))
      && (forall k :: k in committed ==> k in f.tags && f.tags[k] == committed[k])
      && (forall k :: k in f.tags && k !in committed ==> exists i :: 0 <= i < |titles| && f.ids[i] == k)
      && (forall i, j :: 0 <= i < j < |titles| && f.ids[i] !in committed && f.ids[j] !in committed ==>
            f.ids[i] < f.ids[j])
      && (forall k :: k in f.tags ==> k < f.next)
  {
    var found := Lookups(committed, next, titles);
    var f := AddTags(found, titles, committed, next);
    AddTagsIds(found, titles, committed, next);
    AddTagsGrows(found, titles, committed, next);
    AddTagsNewKeys(found, titles, committed, next);
    forall i | 0 <= i < |titles| ensures f.ids[i] in committed <==> found[i].Some? {
    }
  }

  /** Run over the committed table, the loop keeps tag titles unique and its ids
      distinct exactly when no title repeats: a repeated title either resolves to the
      same committed tag twice or is added twice as two rows. */
  lemma AddTagsKeys(committed: map<nat, Tag>, next: nat, titles: seq<string>)
    requires forall k :: k in committed ==> k < next
    requires UniqueTagTitles(committed)
    ensures var f := AddTags(Lookups(committed, next, titles), titles, committed, next);
      UniqueTagTitles(f.tags) && Distinct(f.ids) <==> DistinctTitles(titles)
  {
    var f := AddTags(Lookups(committed, next, titles), titles, committed, next);
    if DistinctTitles(titles) {
      DistinctTitlesKeepKeys(committed, next, titles);
    } else {
      AddTagsResolves(committed, next, titles);
      var i, j :| 0 <= i < j < |titles| && titles[i] == titles[j];
      assert f.tags[f.ids[i]].title == f.tags[f.ids[j]].title;
    }
  }

  /** With no title repeated, every tag the loop ends with has its own title and
      every title its own id. */
  lemma DistinctTitlesKeepKeys(committed: map<nat, Tag>, next: nat, titles: seq<string>)
    requires forall k :: k in committed ==> k < next
    requires UniqueTagTitles(committed) && DistinctTitles(titles)
    ensures var f := AddTags(Lookups(committed, next, titles), titles, committed, next);
      UniqueTagTitles(f.tags) && Distinct(f.ids)
  {
    var f := AddTags(Lookups(committed, next, titles), titles, committed, next);
    AddTagsResolves(committed, next, titles);
    forall i, j | 0 <= i < j < |titles| ensures f.ids[i] != f.ids[j] {
      assert f.tags[f.ids[i]].title == titles[i] && f.tags[f.ids[j]].title == titles[j];
    }
    forall a, b | a in f.tags && b in f.tags && f.tags[a].title == f.tags[b].title ensures a == b {
      if a !in committed {
        var i :| 0 <= i < |titles| && f.ids[i] == a;
        if b !in committed {
          var j :| 0 <= j < |titles| && f.ids[j] == b;
          assert titles[i] == titles[j];
        } else {
          assert false;
        }
      } else if b !in committed {
        assert false;
      }
    }
  }

  /** True iff some title, lower-cased, fails `ValidTagTitle`. */
  predicate SomeTitleWrong(titles: seq<string>) {
    exists i :: 0 <= i < |titles| && !ValidTagTitle(Lower(titles[i]))
  }

  /** The store after the loop: the tag table and counter it leaves, and the ids
      appended to question `q`'s list. */
  function Attach(s: Store, q: nat, f: Filled): (t: Store)
    requires q in s.questions && s.next <= f.next
    ensures s.next <= t.next
    ensures t.roles == s.roles && t.users == s.users && t.notifications == s.notifications
    ensures t.comments == s.comments && t.articles == s.articles
    ensures q in t.questions && t.questions == s.questions[q := s.questions[q].(tags := t.questions[q].tags)]
  {
    s.(tags := f.tags, next := f.next, questions := s.questions[q := s.questions[q].(tags := s.questions[q].tags + f.ids)])
  }

  /** `fill_tags(db, tags, question)`: with no titles (absent or empty) nothing
      happens; otherwise every title, lower-cased, is checked (400 on the first bad
      one), reused when a committed tag has it and added otherwise, and the tags are
      appended to the question's list in the order given. The store `s` is the
      session's pending state, whose tag table is the committed one. The source
      checks each title just before resolving it; checking them all first differs
      only in rows added before the refusal, which the failed request never commits. */
  function FillTags(s: Store, q: nat, titles: Option<seq<string>>): (r: Result<Store>)
    requires IdsBelowNext(s) && q in s.questions
    ensures titles.None? || titles == Some([]) ==> r == Ok(s)
    ensures r.Fail? <==> titles.Some? && SomeTitleWrong(titles.value)
    ensures r.Fail? ==> r.error == Raise(BadRequest400, WrongTagTitle)
    ensures r.Ok? ==>
      var t := r.value;
      && s.next <= t.next
      && t.roles == s.roles && t.users == s.users && t.notifications == s.notifications
      && t.comments == s.comments && t.articles == s.articles
      && q in t.questions
      && t.questions == s.questions[q := s.questions[q].(tags := t.questions[q].tags)]
  {
    if titles.None? || titles.value == [] then Ok(s)
    else if SomeTitleWrong(titles.value) then Fail(Raise(BadRequest400, WrongTagTitle))
    else
      var lowered := LowerAll(titles.value);
      Ok(Attach(s, q, AddTags(Lookups(s.tags, s.next, lowered), lowered, s.tags, s.next)))
  }

  /** `fill_tags` appends one tag per title, in order, each carrying the title
      lower-cased; a title reuses a committed tag exactly when one has that title, and
      every other appended tag is a new row. Committed rows are kept as they were. */
  lemma FillTagsAppends(s: Store, q: nat, titles: seq<string>)
    requires IdsBelowNext(s) && q in s.questions
    requires titles != [] && !SomeTitleWrong(titles)
    ensures var t := FillTags(s, q, Some(titles)).value;
      var before := s.questions[q].tags;
      var after := t.questions[q].tags;
      && |after| == |before| + |titles|
      && var added := after[|before|..];
      && after == before + added
      && (forall i :: 0 <= i < |titles| ==>
            added[i] in t.tags && t.tags[added[i]].title == Lower(titles[i]))
      && (forall i :: 0 <= i < |titles| ==>
            (added[i] in s.tags <==> exists k :: k in s.tags && s.tags[k].title == Lower(titles[i])))
      && (forall k :: k in s.tags ==> k in t.tags && t.tags[k] == s.tags[k])
      && (forall k :: k in t.tags ==> k < t.next)
  {
    var lowered := LowerAll(titles);
    var f := AddTags(Lookups(s.tags, s.next, lowered), lowered, s.tags, s.next);
    var t := FillTags(s, q, Some(titles)).value;
    assert t == Attach(s, q, f);
    AddTagsResolves(s.tags, s.next, lowered);
    assert t.questions[q].tags == s.questions[q].tags + f.ids;
    assert t.questions[q].tags[|s.questions[q].tags|..] == f.ids;
  }

  /** For a question with no tags yet, as `create_question` and `update_question`
      hand it over, the commit after `fill_tags` succeeds exactly when no two titles
      are equal once lower-cased. */
  lemma FillTagsCommits(s: Store, q: nat, titles: seq<string>)
    requires IdsBelowNext(s) && Committable(s) && q in s.questions && s.questions[q].tags == []
    requires titles != [] && !SomeTitleWrong(titles)
    ensures Committable(FillTags(s, q, Some(titles)).value) <==> DistinctTitles(LowerAll(titles))
  {
    var lowered := LowerAll(titles);
    var f := AddTags(Lookups(s.tags, s.next, lowered), lowered, s.tags, s.next);
    var t := FillTags(s, q, Some(titles)).value;
    assert t == Attach(s, q, f);
    AttachCommittable(s, q, f);
    AddTagsKeys(s.tags, s.next, lowered);
  }

  /** Handing a committable store's tagless question the loop's ids leaves it
      committable exactly when the new tag table and the ids keep their keys. */
  lemma AttachCommittable(s: Store, q: nat, f: Filled)
    requires Committable(s) && q in s.questions && s.questions[q].tags == [] && s.next <= f.next
    ensures Committable(Attach(s, q, f)) <==> UniqueTagTitles(f.tags) && Distinct(f.ids)
  {
    var t := Attach(s, q, f);
    assert t.questions[q].tags == f.ids;
    assert forall k :: k in t.questions && k != q ==> t.questions[k] == s.questions[k];
  }

  /** For a question with no tags yet, `fill_tags` makes its tags exactly the
      titles' tags, in order. */
  lemma FillTagsFromEmpty(s: Store, q: nat, titles: seq<string>)
    requires IdsBelowNext(s) && q in s.questions && s.questions[q].tags == []
    requires titles != [] && !SomeTitleWrong(titles)
    ensures var t := FillTags(s, q, Some(titles)).value;
      var tags := t.questions[q].tags;
      && |tags| == |titles|
      && (forall i :: 0 <= i < |tags| ==> tags[i] in t.tags && t.tags[tags[i]].title == Lower(titles[i]))
      && (forall i :: 0 <= i < |tags| ==>
            (tags[i] in s.tags <==> exists j :: j in s.tags && s.tags[j].title == Lower(titles[i])))
      && (forall j :: j in s.tags ==> j in t.tags && t.tags[j] == s.tags[j])
      && (forall j :: j in t.tags ==> j < t.next)
  {
    FillTagsAppends(s, q, titles);
  }
}

=== FILE: crud_users.dfy ===
/** `create_user`, `update_user` and the user case of `delete_object`
    (database/crud.py). The password hash is a parameter: the bcrypt wrapper in
    security/hashing.py is not part of this model. */
module UserCrud {

  import opened Http
  import opened Models
  import opened Schemas
  import opened Crud

  const UserTaken: string := "User with this username or email already exists."
  const EmailTaken: string := "User with this email already exists."

  /** True iff an existing user already has the username or the email. */
  predicate Clashes(s: Store, username: string, email: string) {
    exists k :: k in s.users && (s.users[k].username == username || s.users[k].email == email)
  }

  /** True iff a user other than `id` has the email. */
  predicate EmailHeldByOther(s: Store, email: string, id: int) {
    exists k :: k in s.users && s.users[k].email == email && k as int != id
  }

  function UserWithEmail(s: Store, email: string): (r: Option<nat>)
    requires IdsBelowNext(s)
    ensures r.Some? <==> exists k :: k in s.users && s.users[k].email == email
    ensures r.Some? ==> r.value in s.users && s.users[r.value].email == email
  {
    FirstWhere(s.users, s.next, (u: User) => u.email == email)
  }

  function UserWithUsername(s: Store, username: string): (r: Option<nat>)
    requires IdsBelowNext(s)
    ensures r.Some? <==> exists k :: k in s.users && s.users[k].username == username
    ensures r.Some? ==> r.value in s.users && s.users[r.value].username == username
  {
    FirstWhere(s.users, s.next, (u: User) => u.username == username)
  }

  lemma AddUserUnique(m: map<nat, User>, k: nat, u: User)
    requires UniqueUsernames(m) && UniqueEmails(m)
    requires forall j :: j in m && j != k ==> m[j].username != u.username && m[j].email != u.email
    ensures UniqueUsernames(m[k := u]) && UniqueEmails(m[k := u])
  {
  }

  /** Storing a user under a fresh id, with an existing role and a username and email
      nobody holds, is a write to the users table. */
  lemma InsertUserWrites(s: Store, u: User)
    requires IdsBelowNext(s) && UniqueUsernames(s.users) && UniqueEmails(s.users) && RolesHeld(s)
    requires u.roleId in s.roles
    requires forall j :: j in s.users ==> s.users[j].username != u.username && s.users[j].email != u.email
    ensures WritesUsers(s, s.(users := s.users[s.next := u], next := s.next + 1))
  {
    AddUserUnique(s.users, s.next, u);
  }

  /** `create_user`: a clash on username or email is refused first, then the role
      must exist; the stored password is the hash of the submitted one. */
  function CreateUser(s: Store, hash: string -> string, uc: UserCreate, now: int): (r: Result<(Store, nat)>)
    requires IdsBelowNext(s) && UniqueUsernames(s.users) && UniqueEmails(s.users) && RolesHeld(s)
    ensures Clashes(s, uc.username, uc.email) ==> r == Fail(Raise(Forbidden403, UserTaken))
    ensures !Clashes(s, uc.username, uc.email) ==>
      (r.Fail? <==> !Has(s.roles, uc.roleId)) && (r.Fail? ==> r.error == NoSuchId("Role"))
    ensures r.Ok? ==>
      var (t, id) := r.value;
      && id !in s.users
      && t.users == s.users[id := User(uc.username, uc.email, hash(uc.password), now, DefaultProfileImage, uc.roleId as nat)]
      && WritesUsers(s, t)
  {
    if UserWithUsername(s, uc.username).Some? || UserWithEmail(s, uc.email).Some? then
      Fail(Raise(Forbidden403, UserTaken))
    else
      var role :- Find(s.roles, uc.roleId, "Role");
      var u := User(uc.username, uc.email, hash(uc.password), now, DefaultProfileImage, role);
      InsertUserWrites(s, u);
      Ok((s.(users := s.users[s.next := u], next := s.next + 1), s.next))
  }

  /** The password field `update_user` merges: a non-empty password is hashed, while
      an empty or null one is falsy and passes through as sent, and one left out
      stays left out. */
  function StoredPassword(hash: string -> string, password: Patch<string>): (r: Patch<string>)
    ensures r.Unset? <==> password.Unset?
    ensures r.Null? <==> password.Null?
    ensures password.Set? && password.value != "" ==> r == Set(hash(password.value))
    ensures password == Set("") ==> r == Set("")
  {
    match password
    case Set(pw) => if pw != "" then Set(hash(pw)) else Set(pw)
    case _ => password
  }

  /** `update_user`: looks the user up (404), refuses an email another user holds
      (403), rehashes a supplied password, and merges the sent fields. An empty or
      null email skips the 403 check, so only the database can refuse it: the unique
      constraint an empty email, the NOT NULL constraint a null one. */
  function UpdateUser(s: Store, hash: string -> string, id: int, p: UserUpdate): (r: Result<(Store, nat)>)
    requires IdsBelowNext(s) && Committable(s) && RolesHeld(s)
    ensures !Has(s.users, id) ==> r == Fail(NoSuchId("User"))
    ensures Has(s.users, id) && !(p.email.Set? && EmailHeldByOther(s, p.email.value, id)) ==>
      (r.Ok? <==> !p.WritesNull())
    ensures Has(s.users, id) && p.WritesNull() && !(p.email.Set? && p.email.value != "" && EmailHeldByOther(s, p.email.value, id)) ==>
      r == Fail(NullViolation)
    ensures r.Ok? ==>
      var (t, k) := r.value;
      && !p.WritesNull()
      && k == id && k in s.users
      && t.users == s.users[k := MergeUser(s.users[k], p.(password := StoredPassword(hash, p.password))).value]
      && t.next == s.next && WritesUsers(s, t)
  {
    var k :- Find(s.users, id, "User");
    if p.email.Set? && p.email.value != "" && UserWithEmail(s, p.email.value).Some?
       && UserWithEmail(s, p.email.value).value != k then
      Fail(Raise(Forbidden403, EmailTaken))
    else
      var u :- Written(MergeUser(s.users[k], p.(password := StoredPassword(hash, p.password))));
      PatchUserWrites(s, k, u);
      var t :- Commit(s.(users := s.users[k := u]));
      Ok((t, k))
  }

  /** Rewriting one user's row without touching its username or role passes the
      commit whenever no other user holds the row's new email, and once it passes it
      is a write to the users table. */
  lemma PatchUserWrites(s: Store, k: nat, u: User)
    requires IdsBelowNext(s) && Committable(s) && RolesHeld(s)
    requires k in s.users && u.username == s.users[k].username && u.roleId == s.users[k].roleId
    ensures (forall j :: j in s.users && j != k ==> s.users[j].email != u.email) ==>
      Committable(s.(users := s.users[k := u]))
    ensures Committable(s.(users := s.users[k := u])) ==> WritesUsers(s, s.(users := s.users[k := u]))
  {
    if forall j :: j in s.users && j != k ==> s.users[j].email != u.email {
      AddUserUnique(s.users, k, u);
    }
  }

  /** The ways `update_user` refuses an existing user's patch: an email held by
      another user (403, checked only for a non-empty email), a null field (the NOT
      NULL constraint), or, for an empty email that another user also has, the
      unique constraint at commit. */
  lemma UpdateUserRefusals(s: Store, hash: string -> string, id: int, p: UserUpdate)
    requires IdsBelowNext(s) && Committable(s) && RolesHeld(s)
    ensures Has(s.users, id) && p.email.Set? && p.email.value != "" && EmailHeldByOther(s, p.email.value, id) ==>
      UpdateUser(s, hash, id, p) == Fail(Raise(Forbidden403, EmailTaken))
    ensures UpdateUser(s, hash, id, p) == Fail(NullViolation) ==> p.WritesNull()
    ensures UpdateUser(s, hash, id, p) == Fail(IntegrityViolation) ==>
      p.email == Set("") && EmailHeldByOther(s, "", id) && !p.WritesNull()
  {
  }

  /** Deleting a user (`delete_object`) cascades to their notifications, questions,
      comments and ratings. */
  function DeleteUser(s: Store, id: int): (r: Result<Store>)
    ensures r.Fail? <==> !Has(s.users, id)
    ensures r.Fail? ==> r.error == NoSuchId("User")
    ensures r.Ok? ==> r.value == DeleteUsers(s, {id as nat})
  {
    var k :- Find(s.users, id, "User");
    Ok(DeleteUsers(s, {k}))
  }

  /** The user `create_user` stores can be found again by username and by email,
      and a second registration with either is refused. */
  lemma CreatedUserIsFound(s: Store, hash: string -> string, uc: UserCreate, other: UserCreate, now: int)
    requires IdsBelowNext(s) && UniqueUsernames(s.users) && UniqueEmails(s.users) && RolesHeld(s)
    requires CreateUser(s, hash, uc, now).Ok?
    requires other.username == uc.username || other.email == uc.email
    ensures var (t, id) := CreateUser(s, hash, uc, now).value;
      && UserWithUsername(t, uc.username) == Some(id)
      && UserWithEmail(t, uc.email) == Some(id)
      && CreateUser(t, hash, other, now) == Fail(Raise(Forbidden403, UserTaken))
  {
    var (t, id) := CreateUser(s, hash, uc, now).value;
    assert IdsBelowNext(t) && id in t.users;
    assert t.users[id].username == uc.username && t.users[id].email == uc.email;
    var byName := UserWithUsername(t, uc.username);
    assert byName.value == id by {
      assert t.users[byName.value].username == t.users[id].username;
    }
    var byEmail := UserWithEmail(t, uc.email);
    assert byEmail.value == id by {
      assert t.users[byEmail.value].email == t.users[id].email;
    }
    assert Clashes(t, other.username, other.email);
  }
}

=== FILE: decorators.dfy ===
/** The two access decorators of decorators.py, as gates that either let the wrapped
    endpoint run or refuse with 403 before it runs. The decorators read the
    `current_user` and `user_id` keyword arguments; an absent keyword is `None`. */
module Decorators {

  import opened Http

  const AdminTitle: string := "Admin"
  const NotAdmin: string := "You are not an admin."
  const NotThatUser: string := "You are not that user."

  /** The parts of `current_user` the policies read: its id and its role's title. */
  datatype Actor = Actor(id: nat, roleTitle: string)

  predicate IsAdmin(a: Actor) {
    a.roleTitle == AdminTitle
  }

  /** `raise_403_if_not_admin`: the refusal it raises, or `None` when the call goes
      through. A user object is always truthy, so only an absent `current_user`
      skips the check. */
  function AdminGate(currentUser: Option<Actor>): (r: Option<Error>)
    ensures r.Some? <==> currentUser.Some? && currentUser.value.roleTitle != "Admin"
    ensures r.Some? ==> r.value == Raise(Forbidden403, NotAdmin)
  {
    match currentUser
    case Some(user) => if !IsAdmin(user) then Some(Raise(Forbidden403, NotAdmin)) else None
    case None => None
  }

  /** `raise_403_if_no_access`: refuses a present user who is neither an admin nor
      the user named by the `user_id` argument. */
  function AccessGate(currentUser: Option<Actor>, userId: Option<int>): (r: Option<Error>)
    ensures r.None? <==>
      currentUser.None? || currentUser.value.roleTitle == "Admin"
      || (userId.Some? && currentUser.value.id as int == userId.value)
    ensures r.Some? ==> r.value == Raise(Forbidden403, NotThatUser)
  {
    match currentUser
    case Some(user) =>
      if !IsAdmin(user) && Some(user.id as int) != userId then Some(Raise(Forbidden403, NotThatUser))
      else None
    case None => None
  }

  /** The wrapper: a refused call raises before the endpoint runs; an allowed one
      returns the endpoint's own outcome untouched. */
  function Guarded<T>(gate: Option<Error>, call: Result<T>): (r: Result<T>)
    ensures gate.None? ==> r == call
    ensures gate.Some? ==> r == Fail(gate.value)
  {
    match gate
    case Some(e) => Fail(e)
    case None => call
  }

  /** An admin passes both gates whatever the `user_id`, and so does a call without
      a `current_user`. */
  lemma AdminPassesBoth(currentUser: Option<Actor>, userId: Option<int>)
    requires currentUser.None? || IsAdmin(currentUser.value)
    ensures AdminGate(currentUser).None? && AccessGate(currentUser, userId).None?
  {
  }

  /** A non-admin without a `user_id` argument is refused by the access gate: `None`
      equals no id. */
  lemma AccessNeedsUserId(a: Actor)
    requires !IsAdmin(a)
    ensures AccessGate(Some(a), None) == Some(Raise(Forbidden403, NotThatUser))
  {
  }

  /** Admin-only is the stricter gate: whatever it lets through, the access gate lets
      through for every `user_id`; the converse fails for a user acting on themselves. */
  lemma AdminGateStricter(currentUser: Option<Actor>, userId: Option<int>)
    ensures AdminGate(currentUser).None? ==> AccessGate(currentUser, userId).None?
    ensures currentUser.Some? && !IsAdmin(currentUser.value) ==>
      AccessGate(currentUser, Some(currentUser.value.id as int)).None? && AdminGate(currentUser).Some?
  {
  }
}

=== FILE: dependencies.dfy ===
/** dependencies.py: resolving the user a bearer token names. The signature check of
    `jwt.decode` is a parameter: it yields the token's claims, or `None` where the
    library raises `JWTError`. Its expiry check is `SecurityToken.Expired`, made at
    the time `now` of the request. */
module Dependencies {

  import opened Http
  import opened Models
  import opened Ascii
  import opened Email
  import opened SecurityToken
  import opened Services

  const CouldNotValidate: string := "Could not validate credentials"

  /** The one refusal of `get_user`: 401 with a bearer challenge. */
  const CredentialsError: Error := Error(Unauthorized401, CouldNotValidate, true)

  /** The prefix `get_token_in_query` strips. */
  const BearerPrefix: string := "Bearer "

  /** The subject a decoded token names: its `sub` claim when that is text. */
  function Subject(claims: Claims): (r: Option<string>)
    ensures r.Some? <==> "sub" in claims && claims["sub"].Text?
    ensures r.Some? ==> claims["sub"] == Text(r.value)
  {
    if "sub" in claims && claims["sub"].Text? then Some(claims["sub"].text) else None
  }

  /** `get_user`: the token must decode, must not have expired at `now`, must carry a
      subject, and the subject must name a user by email or username; every failure
      is the same 401. */
  function GetUser(s: Store, decode: string -> Option<Claims>, now: int, token: string): (r: Result<nat>)
    requires IdsBelowNext(s)
    ensures r.Fail? ==> r.error == CredentialsError
    ensures r.Ok? <==>
      decode(token).Some? && !Expired(decode(token).value, now) && Subject(decode(token).value).Some?
      && UserByLogin(s, Subject(decode(token).value).value).Some?
    ensures r.Ok? ==>
      var name := decode(token).value["sub"].text;
      && r.value in s.users
      && (if IsEmail(name) then s.users[r.value].email == name else s.users[r.value].username == name)
  {
    match decode(token)
    case None => Fail(CredentialsError)
    case Some(claims) =>
      if Expired(claims, now) then Fail(CredentialsError)
      else
        match Subject(claims)
        case None => Fail(CredentialsError)
        case Some(name) =>
          match UserByLogin(s, name)
          case None => Fail(CredentialsError)
          case Some(k) => Ok(k)
  }

  /** `get_token_in_query`: every `"Bearer "` in the query parameter is removed, as
      `str.replace` does. */
  function TokenInQuery(token: string): (r: string)
    ensures |r| <= |token|
  {
    DeleteAll(token, BearerPrefix)
  }

  /** `get_current_user_by_query`: the header path's `get_user` on the token with its
      scheme words stripped, so it refuses with the same 401 and resolves only to a
      stored user. */
  function GetUserByQuery(s: Store, decode: string -> Option<Claims>, now: int, token: string): (r: Result<nat>)
    requires IdsBelowNext(s)
    ensures r.Fail? ==> r.error == CredentialsError
    ensures r.Ok? ==> r.value in s.users
    ensures r.Ok? ==> decode(TokenInQuery(token)).Some? && !Expired(decode(TokenInQuery(token)).value, now)
  {
    GetUser(s, decode, now, TokenInQuery(token))
  }

  /** A websocket client may send its token with or without the scheme word: as long
      as the token itself has no `"Bearer "` inside, both name the same user. */
  lemma QueryTokenSchemeOptional(s: Store, decode: string -> Option<Claims>, now: int, token: string)
    requires IdsBelowNext(s)
    requires !Contains(token, BearerPrefix)
    ensures GetUserByQuery(s, decode, now, BearerPrefix + token) == GetUser(s, decode, now, token)
    ensures GetUserByQuery(s, decode, now, token) == GetUser(s, decode, now, token)
  {
    DeleteAllPrefix(BearerPrefix, token);
    DeleteAllAbsent(token, BearerPrefix);
  }
}

=== FILE: email.dfy ===
/** `isemail` from services.py: a full match of
      ^([A-Za-z0-9]+[.-_])*[A-Za-z0-9]+@[A-Za-z0-9-]+(\.[A-Z|a-z]{2,})+$
    over ASCII text. The recognizer `IsEmail` splits at the last '@' and checks each
    side with a one-pass shape; the ghost predicates below follow the regular
    expression group by group, and `IsEmailMatchesPattern` proves the two agree. */
module Email {

  import opened Http
  import opened Ascii

  /** `[.-_]` is a character RANGE from '.' (0x2E) to '_' (0x5F), not three characters. */
  predicate IsSeparator(c: char) {
    '.' <= c <= '_'
  }

  /** `[A-Za-z0-9-]` */
  predicate IsLabelChar(c: char) {
    IsAlnumChar(c) || c == '-'
  }

  /** `[A-Z|a-z]`: letters and, literally, the bar. */
  predicate IsSuffixChar(c: char) {
    IsLetter(c) || c == '|'
  }

  // ---------------------------------------------------------------------------
  // The pattern, group by group

  /** `[A-Za-z0-9]+` */
  ghost predicate AlnumRun(s: string) {
    |s| > 0 && forall i :: 0 <= i < |s| ==> IsAlnumChar(s[i])
  }

  /** `([A-Za-z0-9]+[.-_])*[A-Za-z0-9]+` */
  ghost predicate LocalPattern(s: string)
    decreases |s|
  {
    || AlnumRun(s)
    || exists i :: 0 < i < |s| - 1 && AlnumRun(s[..i]) && IsSeparator(s[i]) && LocalPattern(s[i + 1..])
  }

  /** `[A-Za-z0-9-]+` */
  ghost predicate LabelRun(s: string) {
    |s| > 0 && forall i :: 0 <= i < |s| ==> IsLabelChar(s[i])
  }

  /** `[A-Z|a-z]{2,}` */
  ghost predicate SuffixRun(s: string) {
    |s| >= 2 && forall i :: 0 <= i < |s| ==> IsSuffixChar(s[i])
  }

  /** `(\.[A-Z|a-z]{2,})+` */
  ghost predicate SuffixesPattern(s: string)
    decreases |s|
  {
    && |s| > 0
    && s[0] == '.'
    && (|| SuffixRun(s[1..])
        || exists i :: 1 < i < |s| && SuffixRun(s[1..i]) && SuffixesPattern(s[i..]))
  }

  /** `[A-Za-z0-9-]+(\.[A-Z|a-z]{2,})+` */
  ghost predicate DomainPattern(s: string) {
    exists i :: 0 < i < |s| && LabelRun(s[..i]) && SuffixesPattern(s[i..])
  }

  /** The whole pattern, matched against the whole string. */
  ghost predicate EmailPattern(s: string) {
    exists k :: 0 <= k < |s| && s[k] == '@' && LocalPattern(s[..k]) && DomainPattern(s[k + 1..])
  }

  // ---------------------------------------------------------------------------
  // The recognizer

  /** Local part: starts and ends with a letter or digit, every other character is a
      letter, a digit, or a separator followed by a letter or digit. */
  predicate LocalShape(s: string) {
    |s| > 0 && forall i :: 0 <= i < |s| ==> LocalShapeAt(s, i)
  }

  predicate LocalShapeAt(s: string, i: nat)
    requires i < |s|
  {
    IsAlnumChar(s[i]) || (IsSeparator(s[i]) && 0 < i < |s| - 1 && IsAlnumChar(s[i + 1]))
  }

  /** Suffixes: a leading dot, every dot followed by two suffix characters, and every
      other character a suffix character. */
  predicate SuffixesShape(t: string) {
    |t| > 0 && t[0] == '.' && forall j :: 0 <= j < |t| ==> SuffixesShapeAt(t, j)
  }

  predicate SuffixesShapeAt(t: string, j: nat)
    requires j < |t|
  {
    if t[j] == '.' then j + 2 < |t| && IsSuffixChar(t[j + 1]) && IsSuffixChar(t[j + 2])
    else IsSuffixChar(t[j])
  }

  /** Domain: a non-empty label up to the first dot, then the suffixes. */
  predicate DomainShape(d: string) {
    match FindFirst(d, '.')
    case None => false
    case Some(i) => 0 < i && (forall j :: 0 <= j < i ==> IsLabelChar(d[j])) && SuffixesShape(d[i..])
  }

  /** `isemail(s)` is truthy. */
  predicate IsEmail(s: string) {
    match FindLast(s, '@')
    case None => false
    case Some(k) => LocalShape(s[..k]) && DomainShape(s[k + 1..])
  }

  // ---------------------------------------------------------------------------
  // Agreement

  /** Position of the first character that is not a letter or digit (|s| if none). */
  function FirstNonAlnum(s: string): (r: nat)
    ensures r <= |s|
    ensures forall j :: 0 <= j < r ==> IsAlnumChar(s[j])
    ensures r < |s| ==> !IsAlnumChar(s[r])
  {
    if |s| == 0 || !IsAlnumChar(s[0]) then 0 else 1 + FirstNonAlnum(s[1..])
  }

  lemma LocalAgrees(s: string)
    ensures LocalPattern(s) <==> LocalShape(s)
  {
    if LocalPattern(s) {
      LocalPatternShaped(s);
    }
    if LocalShape(s) {
      LocalShapeMatches(s);
    }
  }

  lemma {:induction false} LocalPatternShaped(s: string)
    requires LocalPattern(s)
    ensures LocalShape(s)
    decreases |s|
  {
    if !AlnumRun(s) {
      var i :| 0 < i < |s| - 1 && AlnumRun(s[..i]) && IsSeparator(s[i]) && LocalPattern(s[i + 1..]);
      LocalPatternShaped(s[i + 1..]);
      forall j | 0 <= j < |s| ensures LocalShapeAt(s, j) {
        LocalShapeGlued(s, i, j);
      }
    }
  }

  /** A run, a separator and a shaped local part, glued, are shaped at every
      position. */
  lemma LocalShapeGlued(s: string, i: nat, j: nat)
    requires 0 < i < |s| - 1 && AlnumRun(s[..i]) && IsSeparator(s[i]) && LocalShape(s[i + 1..])
    requires j < |s|
    ensures LocalShapeAt(s, j)
  {
    var rest := s[i + 1..];
    if j < i {
      assert s[j] == s[..i][j];
    } else if j == i {
      assert LocalShapeAt(rest, 0);
      assert s[i + 1] == rest[0];
    } else {
      assert s[j] == rest[j - i - 1];
      assert LocalShapeAt(rest, j - i - 1);
      if !IsAlnumChar(s[j]) {
        assert s[j + 1] == rest[j - i];
      }
    }
  }

  lemma {:induction false} LocalShapeMatches(s: string)
    requires LocalShape(s)
    ensures LocalPattern(s)
    decreases |s|
  {
    if !AlnumRun(s) {
      var i := FirstNonAlnum(s);
      assert i < |s|;
      var rest := s[i + 1..];
      assert LocalShapeAt(s, i);
      forall j | 0 <= j < |rest| ensures LocalShapeAt(rest, j) {
        assert rest[j] == s[i + 1 + j];
        assert LocalShapeAt(s, i + 1 + j);
        if !IsAlnumChar(rest[j]) {
          assert rest[j + 1] == s[i + 2 + j];
        }
      }
      LocalShapeMatches(rest);
      assert AlnumRun(s[..i]);
      assert 0 < i < |s| - 1 && AlnumRun(s[..i]) && IsSeparator(s[i]) && LocalPattern(s[i + 1..]);
    }
  }

  lemma {:induction false} SuffixesAgree(t: string)
    ensures SuffixesPattern(t) <==> SuffixesShape(t)
    decreases |t|
  {
    if SuffixesPattern(t) {
      if SuffixRun(t[1..]) {
        forall j | 0 <= j < |t| ensures SuffixesShapeAt(t, j) {
          if j > 0 {
            assert t[j] == t[1..][j - 1];
          } else {
            assert t[1] == t[1..][0] && t[2] == t[1..][1];
          }
        }
      } else {
        var i :| 1 < i < |t| && SuffixRun(t[1..i]) && SuffixesPattern(t[i..]);
        var rest := t[i..];
        SuffixesAgree(rest);
        forall j | 0 <= j < |t| ensures SuffixesShapeAt(t, j) {
          if j == 0 {
            assert t[1] == t[1..i][0] && t[2] == t[1..i][1];
          } else if j < i {
            assert t[j] == t[1..i][j - 1];
          } else {
            assert t[j] == rest[j - i];
            assert SuffixesShapeAt(rest, j - i);
            if t[j] == '.' {
              assert t[j + 1] == rest[j - i + 1] && t[j + 2] == rest[j - i + 2];
            }
          }
        }
      }
    }
    if SuffixesShape(t) {
      assert SuffixesShapeAt(t, 0);
      match FindFirst(t[1..], '.')
      case None =>
        forall j | 0 <= j < |t[1..]| ensures IsSuffixChar(t[1..][j]) {
          assert t[1..][j] == t[j + 1];
          assert t[1..][j] in t[1..];
          assert SuffixesShapeAt(t, j + 1);
        }
        assert SuffixRun(t[1..]);
      case Some(k0) =>
        var k := k0 + 1;
        assert t[k] == t[1..][k0] == '.';
        assert k >= 3 by {
          assert t[1] == t[1..][0] && t[2] == t[1..][1];
        }
        forall j | 0 <= j < k - 1 ensures IsSuffixChar(t[1..k][j]) {
          assert t[1..k][j] == t[1..][j] == t[j + 1];
          assert SuffixesShapeAt(t, j + 1);
        }
        assert SuffixRun(t[1..k]);
        var rest := t[k..];
        forall j | 0 <= j < |rest| ensures SuffixesShapeAt(rest, j) {
          assert rest[j] == t[k + j];
          assert SuffixesShapeAt(t, k + j);
          if rest[j] == '.' {
            assert rest[j + 1] == t[k + j + 1] && rest[j + 2] == t[k + j + 2];
          }
        }
        assert SuffixesShape(rest);
        SuffixesAgree(rest);
        assert 1 < k < |t| && SuffixRun(t[1..k]) && SuffixesPattern(t[k..]);
    }
  }

  lemma DomainAgrees(d: string)
    ensures DomainPattern(d) <==> DomainShape(d)
  {
    if DomainPattern(d) {
      var i :| 0 < i < |d| && LabelRun(d[..i]) && SuffixesPattern(d[i..]);
      DomainPatternShaped(d, i);
    }
    if DomainShape(d) {
      var i := FindFirst(d, '.').value;
      SuffixesAgree(d[i..]);
      assert LabelRun(d[..i]);
    }
  }

  lemma DomainPatternShaped(d: string, i: nat)
    requires 0 < i < |d| && LabelRun(d[..i]) && SuffixesPattern(d[i..])
    ensures DomainShape(d)
  {
    SuffixesAgree(d[i..]);
    assert d[i] == d[i..][0] == '.';
    var f := FindFirst(d, '.');
    assert f.Some? && f.value <= i;
    assert f.value == i;
    forall j | 0 <= j < i ensures IsLabelChar(d[j]) {
      assert d[j] == d[..i][j];
    }
  }

  /** A string in the domain's shape holds no '@', so the separating '@' is the last one. */
  lemma DomainHasNoAt(d: string)
    requires DomainShape(d)
    ensures '@' !in d
  {
    var i := FindFirst(d, '.').value;
    var t := d[i..];
    forall j | 0 <= j < |d| ensures d[j] != '@' {
      if j >= i {
        assert d[j] == t[j - i];
        assert SuffixesShapeAt(t, j - i);
      }
    }
  }

  /** The recognizer accepts exactly the strings the regular expression fully matches. */
  lemma IsEmailMatchesPattern(s: string)
    ensures IsEmail(s) <==> EmailPattern(s)
  {
    if IsEmail(s) {
      AcceptedMatches(s);
    }
    if EmailPattern(s) {
      MatchedAccepted(s);
    }
  }

  lemma AcceptedMatches(s: string)
    requires IsEmail(s)
    ensures EmailPattern(s)
  {
    var k := FindLast(s, '@').value;
    assert LocalShape(s[..k]) && DomainShape(s[k + 1..]);
    LocalAgrees(s[..k]);
    DomainAgrees(s[k + 1..]);
    assert 0 <= k < |s| && s[k] == '@' && LocalPattern(s[..k]) && DomainPattern(s[k + 1..]);
  }

  lemma MatchedAccepted(s: string)
    requires EmailPattern(s)
    ensures IsEmail(s)
  {
    var k :| 0 <= k < |s| && s[k] == '@' && LocalPattern(s[..k]) && DomainPattern(s[k + 1..]);
    LocalAgrees(s[..k]);
    DomainAgrees(s[k + 1..]);
    DomainHasNoAt(s[k + 1..]);
    LastAt(s, k);
  }

  /** An '@' with none after it is the last one. */
  lemma LastAt(s: string, k: nat)
    requires k < |s| && s[k] == '@' && '@' !in s[k + 1..]
    ensures FindLast(s, '@') == Some(k)
  {
    var d := s[k + 1..];
    forall j | k < j < |s| ensures s[j] != '@' {
      assert s[j] == d[j - k - 1];
    }
    var l := FindLast(s, '@');
    assert l.Some? by {
      assert s[k] in s;
    }
  }

  /** Gluing a host label to suffixes gives a domain. */
  lemma DomainOf(host: string, suffixes: string)
    requires |host| > 0 && forall j :: 0 <= j < |host| ==> IsLabelChar(host[j])
    requires SuffixesShape(suffixes)
    ensures DomainShape(host + suffixes)
  {
    var d := host + suffixes;
    assert d[|host|] == suffixes[0] == '.';
    var f := FindFirst(d, '.');
    assert f.Some? && f.value <= |host|;
    assert d[|host|..] == suffixes;
  }

  /** Gluing a local part to a domain with '@' gives an address the recognizer accepts. */
  lemma EmailOf(local: string, domain: string)
    requires LocalShape(local) && DomainShape(domain)
    ensures IsEmail(local + "@" + domain)
  {
    var s := local + "@" + domain;
    DomainHasNoAt(domain);
    var l := FindLast(s, '@');
    assert s[|local|] == '@';
    assert l.Some? && l.value >= |local|;
    assert s[..|local|] == local;
    assert s[|local| + 1..] == domain;
  }

  // ---------------------------------------------------------------------------
  // What the pattern as written accepts and rejects

  /** `[.-_]` is a range that contains '@': a second '@' may join two local-part runs. */
  lemma AtMayJoinLocalParts(a: string, b: string, d: string)
    requires LocalShape(a) && LocalShape(b) && DomainShape(d)
    ensures IsEmail(a + "@" + b + "@" + d)
  {
    var l := a + "@" + b;
    assert LocalShapeAt(b, 0);
    forall i | 0 <= i < |l| ensures LocalShapeAt(l, i) {
      if i < |a| {
        assert l[i] == a[i];
        assert LocalShapeAt(a, i);
        if !IsAlnumChar(a[i]) {
          assert l[i + 1] == a[i + 1];
        }
      } else if i == |a| {
        assert l[i + 1] == b[0];
      } else {
        assert l[i] == b[i - |a| - 1];
        assert LocalShapeAt(b, i - |a| - 1);
        if !IsAlnumChar(l[i]) {
          assert l[i + 1] == b[i - |a|];
        }
      }
    }
    EmailOf(l, d);
    assert l + "@" + d == a + "@" + b + "@" + d;
  }

  /** `[.-_]` is a range that does NOT contain '-': no accepted address has a hyphen
      before its last '@'. */
  lemma LocalPartHasNoHyphen(s: string)
    requires IsEmail(s)
    ensures FindLast(s, '@').Some?
    ensures '-' !in s[..FindLast(s, '@').value]
  {
    var l := s[..FindLast(s, '@').value];
    forall i | 0 <= i < |l| ensures l[i] != '-' {
      assert LocalShapeAt(l, i);
    }
  }

  /** The whole string must match: an accepted address starts with a letter or digit
      and ends with two suffix characters, so no text may precede or follow it. */
  lemma AcceptedAddressEnds(s: string)
    requires IsEmail(s)
    ensures |s| >= 6
    ensures IsAlnumChar(s[0])
    ensures IsSuffixChar(s[|s| - 2]) && IsSuffixChar(s[|s| - 1])
  {
    var k := FindLast(s, '@').value;
    var l := s[..k];
    assert LocalShapeAt(l, 0);
    assert s[0] == l[0];
    var d := s[k + 1..];
    var i := FindFirst(d, '.').value;
    var t := d[i..];
    assert SuffixesShapeAt(t, 0);
    assert SuffixesShapeAt(t, |t| - 2);
    assert SuffixesShapeAt(t, |t| - 1);
    assert t[|t| - 1] == s[|s| - 1] && t[|t| - 2] == s[|s| - 2];
  }

  /** A hyphenated local part, as in "ann-bob@mail.com", is rejected. */
  lemma HyphenatedAddressRejected()
    ensures !IsEmail("ann-bob@mail.com")
  {
    var s := "ann-bob@mail.com";
    assert FindLast(s, '@') == Some(7);
    assert s[..7] == "ann-bob";
    assert !LocalShapeAt("ann-bob", 3);
  }

  /** `[A-Z|a-z]` admits the bar: "mail.c|m" is a domain the pattern accepts. */
  lemma BarAcceptedInSuffix()
    ensures DomainShape("mail.c|m")
  {
    assert SuffixesShape(".c|m");
    DomainOf("mail", ".c|m");
    assert "mail" + ".c|m" == "mail.c|m";
  }
}

=== FILE: http.dfy ===
/** HTTP-level outcomes shared by every layer of the backend: the status codes the
    application raises, the error record an `HTTPException` carries, and the
    failure-compatible `Result` and `Option` wrappers used instead of exceptions. */
module Http {

  const Ok200: nat := 200
  const NoContent204: nat := 204
  const BadRequest400: nat := 400
  const Unauthorized401: nat := 401
  const Forbidden403: nat := 403
  const NotFound404: nat := 404
  /** What the database raises when a commit violates a unique or primary-key constraint. */
  const IntegrityError500: nat := 500

  /** An `HTTPException`: status, detail text, and whether a `WWW-Authenticate: Bearer`
      challenge header is attached (section 3 of RFC 6750). */
  datatype Error = Error(status: nat, detail: string, bearerChallenge: bool)

  datatype Option<+T> = None | Some(value: T) {
    function GetOr(default: T): T {
      match this
      case Some(v) => v
      case None => default
    }
  }

  datatype Result<+T> = Ok(value: T) | Fail(error: Error) {
    predicate IsFailure() {
      Fail?
    }

    function PropagateFailure<U>(): Result<U>
      requires Fail?
    {
      Fail(error)
    }

    function Extract(): T
      requires Ok?
    {
      value
    }
  }

  /** A `Union[int, str]` path parameter after FastAPI has parsed it: digits become an
      integer, anything else stays text. */
  datatype PathKey = IntKey(id: int) | StrKey(text: string)

  /** How a router resolves a path key: by id, by email, by a title or username, or
      not at all (400). */
  datatype Lookup = ById(id: int) | ByEmail(email: string) | ByName(name: string) | Unresolved

  /** Python truthiness of an optional string argument: present and non-empty. */
  predicate Truthy(o: Option<string>) {
    o.Some? && o.value != ""
  }

  /** Raising statuses are the client and server error codes. */
  predicate IsErrorStatus(status: nat) {
    400 <= status < 600
  }

  function Raise(status: nat, detail: string): (e: Error)
    requires IsErrorStatus(status)
    ensures e.status == status && !e.bearerChallenge
  {
    Error(status, detail, false)
  }

  /** `get_object`'s 404: "<Entity> with this id does not exist." */
  function NoSuchId(entity: string): (e: Error)
    ensures e.status == NotFound404
  {
    Raise(NotFound404, entity + " with this id does not exist.")
  }

  /** `get_object_by_expression(..., raise_404=True)`'s 404. */
  function NoSuchField(entity: string): (e: Error)
    ensures e.status == NotFound404
  {
    Raise(NotFound404, entity + " with this field does not exist.")
  }

  /** True iff the path or body id `id` names a row of `table`; a negative id names none. */
  predicate Has<T>(table: map<nat, T>, id: int) {
    id >= 0 && id as nat in table
  }

  /** Looks up `id` in one table, failing as `get_object` does. */
  function Find<T>(table: map<nat, T>, id: int, entity: string): (r: Result<nat>)
    ensures r.Ok? <==> Has(table, id)
    ensures r.Ok? ==> r.value == id && r.value in table
    ensures r.Fail? ==> r.error == NoSuchId(entity)
  {
    if Has(table, id) then Ok(id as nat) else Fail(NoSuchId(entity))
  }
}

=== FILE: lists.dfy ===
/** Sequence operations the queries and the chat registry share: the
    `OFFSET skip LIMIT limit` window, Python's `list.remove`, and `ORDER BY` on one
    integer column in either direction. */
module Lists {

  import opened Http

  function Min(a: int, b: int): int {
    if a <= b then a else b
  }

  /** `OFFSET skip LIMIT limit`: the rows at positions [skip, skip + limit). */
  function Window<T>(rows: seq<T>, skip: nat, limit: nat): (r: seq<T>)
    ensures |r| == if skip >= |rows| then 0 else Min(limit, |rows| - skip)
    ensures forall i :: 0 <= i < |r| ==> r[i] == rows[skip + i]
  {
    if skip >= |rows| then [] else rows[skip..skip + Min(limit, |rows| - skip)]
  }

  /** Consecutive pages tile the result: page [skip, skip+a) followed by page
      [skip+a, skip+a+b) is page [skip, skip+a+b). */
  lemma WindowsTile<T>(rows: seq<T>, skip: nat, a: nat, b: nat)
    ensures Window(rows, skip, a) + Window(rows, skip + a, b) == Window(rows, skip, a + b)
  {
    var l, m, whole := Window(rows, skip, a), Window(rows, skip + a, b), Window(rows, skip, a + b);
    assert |l + m| == |whole|;
    forall i | 0 <= i < |whole| ensures (l + m)[i] == whole[i] {
      if i >= |l| {
        assert (l + m)[i] == m[i - |l|] == rows[skip + a + (i - |l|)];
      }
    }
  }

  /** A window as wide as the table from offset 0 returns the table. */
  lemma WindowWhole<T>(rows: seq<T>, limit: nat)
    requires limit >= |rows|
    ensures Window(rows, 0, limit) == rows
  {
  }

  /** `list.index(x)`: the first position holding `x`. */
  function FirstIndex<T(==)>(xs: seq<T>, x: T): (i: nat)
    requires x in xs
    ensures i < |xs| && xs[i] == x && x !in xs[..i]
  {
    if xs[0] == x then 0
    else
      var i := FirstIndex(xs[1..], x) + 1;
      assert xs[..i] == [xs[0]] + xs[1..][..i - 1];
      i
  }

  /** `list.remove(x)`: deletes the first occurrence and keeps the order of the rest;
      `None` stands for the `ValueError` raised when `x` is absent. */
  function RemoveFirst<T(==)>(xs: seq<T>, x: T): (r: Option<seq<T>>)
    ensures r.None? <==> x !in xs
    ensures r.Some? ==> r.value == xs[..FirstIndex(xs, x)] + xs[FirstIndex(xs, x) + 1..]
    ensures r.Some? ==> |r.value| == |xs| - 1 && multiset(r.value) == multiset(xs) - multiset{x}
  {
    if x !in xs then None
    else
      var i := FirstIndex(xs, x);
      assert xs == xs[..i] + [x] + xs[i + 1..];
      Some(xs[..i] + xs[i + 1..])
  }

  /** Removing the only occurrence of `x` from a list without repeats is filtering it out. */
  lemma RemoveFirstOfUnique<T>(xs: seq<T>, x: T)
    requires x in xs
    requires forall i, j :: 0 <= i < j < |xs| ==> xs[i] != xs[j]
    ensures RemoveFirst(xs, x).Some?
    ensures var r := RemoveFirst(xs, x).value;
      (forall y :: y in r <==> y in xs && y != x) && (forall i, j :: 0 <= i < j < |r| ==> r[i] != r[j])
  {
    var r := RemoveFirst(xs, x).value;
    var i := FirstIndex(xs, x);
    forall y ensures y in r <==> y in xs && y != x {
      if y in r {
        var j :| 0 <= j < |r| && r[j] == y;
        if j < i {
          assert y == xs[j];
        } else {
          assert y == xs[j + 1];
        }
      }
      if y in xs && y != x {
        var j :| 0 <= j < |xs| && xs[j] == y;
        if j < i {
          assert r[j] == y;
        } else {
          assert r[j - 1] == y;
        }
      }
    }
    forall a, b | 0 <= a < b < |r| ensures r[a] != r[b] {
      var a', b' := if a < i then a else a + 1, if b < i then b else b + 1;
      assert r[a] == xs[a'] && r[b] == xs[b'];
    }
  }

  // ---------------------------------------------------------------------------
  // ORDER BY one integer column

  datatype Direction = Asc | Desc

  predicate InOrder(a: int, b: int, dir: Direction) {
    match dir
    case Asc => a <= b
    case Desc => a >= b
  }

  predicate SortedBy(xs: seq<nat>, key: nat -> int, dir: Direction) {
    forall i, j :: 0 <= i < j < |xs| ==> InOrder(key(xs[i]), key(xs[j]), dir)
  }

  function Insert(x: nat, xs: seq<nat>, key: nat -> int, dir: Direction): (r: seq<nat>)
    requires SortedBy(xs, key, dir)
    ensures SortedBy(r, key, dir)
    ensures |r| == |xs| + 1
    ensures forall y :: y in r <==> y == x || y in xs
    ensures multiset(r) == multiset(xs) + multiset{x}
  {
    if |xs| == 0 || InOrder(key(x), key(xs[0]), dir) then [x] + xs
    else
      var rest := Insert(x, xs[1..], key, dir);
      assert xs == [xs[0]] + xs[1..];
      assert InOrder(key(xs[0]), key(x), dir);
      forall j | 0 <= j < |rest| ensures InOrder(key(xs[0]), key(rest[j]), dir) {
        if rest[j] != x {
          assert rest[j] in rest;
          assert rest[j] in xs[1..];
          var k :| 0 <= k < |xs[1..]| && xs[1..][k] == rest[j];
          assert InOrder(key(xs[0]), key(xs[k + 1]), dir);
        }
      }
      [xs[0]] + rest
  }

  /** The rows `ids` in the order `ORDER BY key dir` puts them; rows with equal keys
      may come in any order, as in SQL. */
  function SortBy(ids: seq<nat>, key: nat -> int, dir: Direction): (r: seq<nat>)
    ensures SortedBy(r, key, dir)
    ensures multiset(r) == multiset(ids)
  {
    if |ids| == 0 then []
    else
      assert ids == [ids[0]] + ids[1..];
      Insert(ids[0], SortBy(ids[1..], key, dir), key, dir)
  }
}

=== FILE: models.dfy ===
/** The ORM tables of database/models.py as an immutable in-memory store: one map from
    id to record per table, the columns each record carries, the constraints the
    schema declares (unique titles, usernames and emails; composite primary keys on
    the association tables) and the delete cascades its relationships configure. */
module Models {

  import opened Http

  const AdminTitle: string := "Admin"
  const DefaultProfileImage: string := "https://i.imgur.com/2VVImvn.jpg"

  datatype Role = Role(title: string)

  /** `password` holds the stored hash; `roleId` the `role_id` foreign key. */
  datatype User = User(
    username: string,
    email: string,
    password: string,
    created: int,
    profileImage: string,
    roleId: nat)

  datatype Notification = Notification(title: string, userId: nat, questionId: nat)

  datatype Tag = Tag(title: string)

  /** `tags` is the question's side of the `tag_question` association, in list order. */
  datatype Question = Question(
    title: string,
    content: string,
    created: int,
    views: int,
    authorId: nat,
    tags: seq<nat>)

  datatype Comment = Comment(
    content: string,
    created: int,
    isAnswer: bool,
    authorId: nat,
    questionId: nat)

  /** `likes` and `dislikes` are the article's side of `users_like_article` and
      `users_dislike_article`, in list order. */
  datatype Article = Article(
    title: string,
    content: string,
    created: int,
    likes: seq<nat>,
    dislikes: seq<nat>)

  /** Every table, and the next id the database will hand out. */
  datatype Store = Store(
    roles: map<nat, Role>,
    users: map<nat, User>,
    notifications: map<nat, Notification>,
    tags: map<nat, Tag>,
    questions: map<nat, Question>,
    comments: map<nat, Comment>,
    articles: map<nat, Article>,
    next: nat)

  const EmptyStore: Store := Store(map[], map[], map[], map[], map[], map[], map[], 1)

  // ---------------------------------------------------------------------------
  // Constraints

  /** No element occurs twice. */
  predicate Distinct(xs: seq<nat>) {
    forall i, j :: 0 <= i < j < |xs| ==> xs[i] != xs[j]
  }

  /** Every id in use is below `next`, so `next` is fresh. */
  predicate IdsBelowNext(s: Store) {
    && (forall k :: k in s.roles ==> k < s.next)
    && (forall k :: k in s.users ==> k < s.next)
    && (forall k :: k in s.notifications ==> k < s.next)
    && (forall k :: k in s.tags ==> k < s.next)
    && (forall k :: k in s.questions ==> k < s.next)
    && (forall k :: k in s.comments ==> k < s.next)
    && (forall k :: k in s.articles ==> k < s.next)
  }

  predicate UniqueRoleTitles(roles: map<nat, Role>) {
    forall a, b :: a in roles && b in roles && roles[a].title == roles[b].title ==> a == b
  }

  predicate UniqueUsernames(users: map<nat, User>) {
    forall a, b :: a in users && b in users && users[a].username == users[b].username ==> a == b
  }

  predicate UniqueEmails(users: map<nat, User>) {
    forall a, b :: a in users && b in users && users[a].email == users[b].email ==> a == b
  }

  predicate UniqueTagTitles(tags: map<nat, Tag>) {
    forall a, b :: a in tags && b in tags && tags[a].title == tags[b].title ==> a == b
  }

  /** The `unique=True` columns (models.py lines 31, 43, 44, 74). */
  predicate UniqueColumns(s: Store) {
    && UniqueRoleTitles(s.roles)
    && UniqueUsernames(s.users)
    && UniqueEmails(s.users)
    && UniqueTagTitles(s.tags)
  }

  /** The composite primary keys of the association tables: a pair occurs once. */
  predicate AssociationKeys(s: Store) {
    && (forall q :: q in s.questions ==> Distinct(s.questions[q].tags))
    && (forall a :: a in s.articles ==> Distinct(s.articles[a].likes) && Distinct(s.articles[a].dislikes))
  }

  /** What `commit` insists on: a store violating a unique or primary key is refused. */
  predicate Committable(s: Store) {
    UniqueColumns(s) && AssociationKeys(s)
  }

  /** Every user's role exists. */
  predicate RolesHeld(s: Store) {
    forall u :: u in s.users ==> s.users[u].roleId in s.roles
  }

  predicate NotificationsLinked(s: Store) {
    forall n :: n in s.notifications ==>
      s.notifications[n].userId in s.users && s.notifications[n].questionId in s.questions
  }

  predicate AuthorsExist(s: Store) {
    forall q :: q in s.questions ==> s.questions[q].authorId in s.users
  }

  /** Every `tag_question` row names an existing tag. */
  predicate TagsExist(s: Store) {
    forall q, i :: q in s.questions && 0 <= i < |s.questions[q].tags| ==> s.questions[q].tags[i] in s.tags
  }

  predicate CommentsLinked(s: Store) {
    forall c :: c in s.comments ==> s.comments[c].authorId in s.users && s.comments[c].questionId in s.questions
  }

  /** Every `users_like_article` and `users_dislike_article` row names an existing user. */
  predicate RatersExist(s: Store) {
    && (forall a, i :: a in s.articles && 0 <= i < |s.articles[a].likes| ==> s.articles[a].likes[i] in s.users)
    && (forall a, i :: a in s.articles && 0 <= i < |s.articles[a].dislikes| ==> s.articles[a].dislikes[i] in s.users)
  }

  /** Every foreign key names an existing row. */
  predicate Linked(s: Store) {
    RolesHeld(s) && NotificationsLinked(s) && AuthorsExist(s) && TagsExist(s) && CommentsLinked(s) && RatersExist(s)
  }

  /** The store invariant every request keeps. */
  predicate Valid(s: Store) {
    IdsBelowNext(s) && Committable(s) && Linked(s)
  }

  lemma EmptyStoreValid()
    ensures Valid(EmptyStore)
    ensures |EmptyStore.users| == 0
  {
  }

  // ---------------------------------------------------------------------------
  // Reading tables in id order

  /** The keys of `m` in [lo, hi), ascending. */
  function IdsBetween<T>(m: map<nat, T>, lo: nat, hi: nat): (r: seq<nat>)
    ensures forall i :: 0 <= i < |r| ==> r[i] in m && lo <= r[i] < hi
    ensures forall k :: k in m && lo <= k < hi ==> k in r
    ensures forall i, j :: 0 <= i < j < |r| ==> r[i] < r[j]
    decreases hi - lo
  {
    if lo >= hi then []
    else if lo in m then
      var rest := IdsBetween(m, lo + 1, hi);
      PrependAscends(lo, rest);
      [lo] + rest
    else IdsBetween(m, lo + 1, hi)
  }

  /** An id below every id of an ascending list keeps it ascending when put first. */
  lemma PrependAscends(lo: nat, rest: seq<nat>)
    requires forall i :: 0 <= i < |rest| ==> lo < rest[i]
    requires forall i, j :: 0 <= i < j < |rest| ==> rest[i] < rest[j]
    ensures forall i, j :: 0 <= i < j < |[lo] + rest| ==> ([lo] + rest)[i] < ([lo] + rest)[j]
  {
  }

  /** All keys of a table, ascending: the order the unordered queries return rows in. */
  function Ids<T>(m: map<nat, T>, next: nat): (r: seq<nat>)
    requires forall k :: k in m ==> k < next
    ensures forall k :: k in m <==> k in r
    ensures forall i, j :: 0 <= i < j < |r| ==> r[i] < r[j]
  {
    IdsBetween(m, 0, next)
  }

  /** `query(...).filter(expr).first()`: the lowest id whose row satisfies `p`. */
  function FirstWhere<T>(m: map<nat, T>, next: nat, p: T -> bool): (r: Option<nat>)
    requires forall k :: k in m ==> k < next
    ensures r.Some? ==> r.value in m && p(m[r.value])
    ensures r.Some? ==> forall k :: k in m && p(m[k]) ==> r.value <= k
    ensures r.None? <==> forall k :: k in m ==> !p(m[k])
  {
    FirstIn(m, Ids(m, next), p)
  }

  function FirstIn<T>(m: map<nat, T>, ids: seq<nat>, p: T -> bool): (r: Option<nat>)
    requires forall i :: 0 <= i < |ids| ==> ids[i] in m
    ensures r.Some? ==> r.value in ids && p(m[r.value])
    ensures r.Some? ==> forall i :: 0 <= i < |ids| && p(m[ids[i]]) ==> r.value == ids[i] || r.value in ids[..i]
    ensures r.None? <==> forall i :: 0 <= i < |ids| ==> !p(m[ids[i]])
  {
    if |ids| == 0 then None
    else if p(m[ids[0]]) then Some(ids[0])
    else match FirstIn(m, ids[1..], p)
      case None => None
      case Some(k) =>
        assert forall i :: 1 <= i < |ids| ==> ids[1..][..i - 1] == ids[1..i];
        Some(k)
  }

  // ---------------------------------------------------------------------------
  // Deletes and their cascades

  lemma DistinctTail(xs: seq<nat>)
    requires |xs| > 0 && Distinct(xs)
    ensures Distinct(xs[1..]) && xs[0] !in xs[1..]
  {
    forall i, j | 0 <= i < j < |xs[1..]| ensures xs[1..][i] != xs[1..][j] {
      assert xs[1..][i] == xs[i + 1] && xs[1..][j] == xs[j + 1];
    }
  }

  /** `xs` without the members of `gone`, order kept. */
  function Without(xs: seq<nat>, gone: set<nat>): (r: seq<nat>)
    ensures forall x :: x in r <==> x in xs && x !in gone
    ensures Distinct(xs) ==> Distinct(r)
    ensures |r| <= |xs|
  {
    if |xs| == 0 then []
    else if xs[0] in gone then Without(xs[1..], gone)
    else
      var rest := Without(xs[1..], gone);
      assert Distinct(xs) ==> Distinct(xs[1..]) && xs[0] !in xs[1..] by {
        if Distinct(xs) {
          DistinctTail(xs);
        }
      }
      [xs[0]] + rest
  }

  /** Deleting questions: their `notifications` and `comments` relationships carry
      `cascade='all,delete'` (models.py lines 92-93). */
  function DeleteQuestions(s: Store, qs: set<nat>): (r: Store)
    ensures forall q :: q in r.questions <==> q in s.questions && q !in qs
    ensures forall q :: q in r.questions ==> r.questions[q] == s.questions[q]
    ensures forall c :: c in r.comments <==> c in s.comments && s.comments[c].questionId !in qs
    ensures forall c :: c in r.comments ==> r.comments[c] == s.comments[c]
    ensures forall n :: n in r.notifications <==> n in s.notifications && s.notifications[n].questionId !in qs
    ensures forall n :: n in r.notifications ==> r.notifications[n] == s.notifications[n]
    ensures r.roles == s.roles && r.users == s.users && r.tags == s.tags
    ensures r.articles == s.articles && r.next == s.next
  {
    s.(questions := map q | q in s.questions && q !in qs :: s.questions[q],
       comments := map c | c in s.comments && s.comments[c].questionId !in qs :: s.comments[c],
       notifications := map n | n in s.notifications && s.notifications[n].questionId !in qs :: s.notifications[n])
  }

  /** True iff `q` is a question written by one of `us`. */
  predicate QuestionBy(s: Store, q: nat, us: set<nat>) {
    q in s.questions && s.questions[q].authorId in us
  }

  /** Deleting users: `notifications`, `questions` and `comments` cascade (models.py
      lines 50-52), the questions cascade further, and the users' rows leave the
      like and dislike association tables. */
  function DeleteUsers(s: Store, us: set<nat>): (r: Store)
    ensures forall u :: u in r.users <==> u in s.users && u !in us
    ensures forall u :: u in r.users ==> r.users[u] == s.users[u]
    ensures forall q :: q in r.questions <==> q in s.questions && s.questions[q].authorId !in us
    ensures forall q :: q in r.questions ==> r.questions[q] == s.questions[q]
    ensures forall c :: c in r.comments <==>
      && c in s.comments
      && s.comments[c].authorId !in us
      && !QuestionBy(s, s.comments[c].questionId, us)
    ensures forall c :: c in r.comments ==> r.comments[c] == s.comments[c]
    ensures forall n :: n in r.notifications <==>
      && n in s.notifications
      && s.notifications[n].userId !in us
      && !QuestionBy(s, s.notifications[n].questionId, us)
    ensures forall n :: n in r.notifications ==> r.notifications[n] == s.notifications[n]
    ensures r.articles.Keys == s.articles.Keys
    ensures forall a :: a in r.articles ==>
      && r.articles[a] == s.articles[a].(likes := Without(s.articles[a].likes, us),
                                         dislikes := Without(s.articles[a].dislikes, us))
    ensures r.roles == s.roles && r.tags == s.tags && r.next == s.next
  {
    var byAuthor := set q | q in s.questions && s.questions[q].authorId in us;
    var t := DeleteQuestions(s, byAuthor);
    t.(users := map u | u in t.users && u !in us :: t.users[u],
       comments := map c | c in t.comments && t.comments[c].authorId !in us :: t.comments[c],
       notifications := map n | n in t.notifications && t.notifications[n].userId !in us :: t.notifications[n],
       articles := map a | a in t.articles ::
         t.articles[a].(likes := Without(t.articles[a].likes, us), dislikes := Without(t.articles[a].dislikes, us)))
  }

  /** The users holding role `id`. */
  function RoleHolders(s: Store, id: nat): (us: set<nat>)
    ensures forall u :: u in us <==> u in s.users && s.users[u].roleId == id
  {
    set u | u in s.users && s.users[u].roleId == id
  }

  /** Deleting a role deletes the users holding it (`cascade='all,delete'`, models.py
      line 33), with everything that cascades from them: apart from the roles table,
      the store is the one `DeleteUsers` leaves for the holders. */
  function DeleteRoleCascade(s: Store, id: nat): (r: Store)
    ensures forall k :: k in r.roles <==> k in s.roles && k != id
    ensures forall k :: k in r.roles ==> r.roles[k] == s.roles[k]
    ensures forall u :: u in r.users <==> u in s.users && s.users[u].roleId != id
    ensures forall u :: u in r.users ==> r.users[u] == s.users[u]
    ensures r.(roles := s.roles) == DeleteUsers(s, RoleHolders(s, id))
  {
    var t := DeleteUsers(s, RoleHolders(s, id));
    t.(roles := map k | k in t.roles && k != id :: t.roles[k])
  }

  /** Deleting a tag removes its rows from `tag_question`. */
  function DeleteTagCascade(s: Store, id: nat): (r: Store)
    ensures forall k :: k in r.tags <==> k in s.tags && k != id
    ensures forall k :: k in r.tags ==> r.tags[k] == s.tags[k]
    ensures r.questions.Keys == s.questions.Keys
    ensures forall q :: q in r.questions ==>
      r.questions[q] == s.questions[q].(tags := Without(s.questions[q].tags, {id}))
    ensures r.roles == s.roles && r.users == s.users && r.notifications == s.notifications
    ensures r.comments == s.comments && r.articles == s.articles && r.next == s.next
  {
    s.(tags := map k | k in s.tags && k != id :: s.tags[k],
       questions := map q | q in s.questions :: s.questions[q].(tags := Without(s.questions[q].tags, {id})))
  }

  // ---------------------------------------------------------------------------
  // The cascades keep the invariant

  lemma DeleteQuestionsChildren(s: Store, qs: set<nat>)
    requires NotificationsLinked(s) && CommentsLinked(s)
    ensures NotificationsLinked(DeleteQuestions(s, qs)) && CommentsLinked(DeleteQuestions(s, qs))
  {
  }

  lemma DeleteQuestionsValid(s: Store, qs: set<nat>)
    requires Valid(s)
    ensures Valid(DeleteQuestions(s, qs))
  {
    DeleteQuestionsChildren(s, qs);
  }

  lemma DeleteUsersKeys(s: Store, us: set<nat>)
    requires Valid(s)
    ensures IdsBelowNext(DeleteUsers(s, us)) && Committable(DeleteUsers(s, us))
  {
  }

  lemma DeleteUsersOwners(s: Store, us: set<nat>)
    requires RolesHeld(s) && AuthorsExist(s) && TagsExist(s)
    ensures var r := DeleteUsers(s, us);
      RolesHeld(r) && AuthorsExist(r) && TagsExist(r)
  {
  }

  lemma DeleteUsersChildren(s: Store, us: set<nat>)
    requires NotificationsLinked(s) && CommentsLinked(s)
    ensures NotificationsLinked(DeleteUsers(s, us)) && CommentsLinked(DeleteUsers(s, us))
  {
    var r := DeleteUsers(s, us);
    forall n | n in r.notifications
      ensures r.notifications[n].userId in r.users && r.notifications[n].questionId in r.questions
    {
      assert n in s.notifications;
    }
    forall c | c in r.comments
      ensures r.comments[c].authorId in r.users && r.comments[c].questionId in r.questions
    {
      assert c in s.comments;
    }
  }

  /** A list of keys of `before` minus `gone` holds keys of `before` minus `gone`. */
  lemma WithoutStaysIn<T>(xs: seq<nat>, gone: set<nat>, before: map<nat, T>, after: map<nat, T>)
    requires forall i :: 0 <= i < |xs| ==> xs[i] in before
    requires forall k :: k in after <==> k in before && k !in gone
    ensures forall i :: 0 <= i < |Without(xs, gone)| ==> Without(xs, gone)[i] in after
  {
    var w := Without(xs, gone);
    forall i | 0 <= i < |w| ensures w[i] in after {
      assert w[i] in xs;
    }
  }

  lemma DeleteUsersRatings(s: Store, us: set<nat>)
    requires RatersExist(s)
    ensures RatersExist(DeleteUsers(s, us))
  {
    var r := DeleteUsers(s, us);
    forall a | a in r.articles
      ensures forall i :: 0 <= i < |r.articles[a].likes| ==> r.articles[a].likes[i] in r.users
      ensures forall i :: 0 <= i < |r.articles[a].dislikes| ==> r.articles[a].dislikes[i] in r.users
    {
      WithoutStaysIn(s.articles[a].likes, us, s.users, r.users);
      WithoutStaysIn(s.articles[a].dislikes, us, s.users, r.users);
    }
  }

  /** Deleting users leaves no dangling reference behind. */
  lemma DeleteUsersValid(s: Store, us: set<nat>)
    requires Valid(s)
    ensures Valid(DeleteUsers(s, us))
  {
    DeleteUsersKeys(s, us);
    DeleteUsersOwners(s, us);
    DeleteUsersChildren(s, us);
    DeleteUsersRatings(s, us);
  }

  lemma DeleteRoleValid(s: Store, id: nat)
    requires Valid(s)
    ensures Valid(DeleteRoleCascade(s, id))
  {
    var holders := RoleHolders(s, id);
    DeleteUsersValid(s, holders);
    var t := DeleteUsers(s, holders);
    FewerRolesValid(t, DeleteRoleCascade(s, id));
  }

  /** Dropping roles nobody holds keeps the store valid. */
  lemma FewerRolesValid(t: Store, r: Store)
    requires Valid(t) && r == t.(roles := r.roles)
    requires forall k :: k in r.roles ==> k in t.roles && r.roles[k] == t.roles[k]
    requires forall u :: u in t.users ==> t.users[u].roleId in r.roles
    ensures Valid(r)
  {
  }

  lemma DeleteTagLinks(s: Store, id: nat)
    requires TagsExist(s)
    ensures TagsExist(DeleteTagCascade(s, id))
  {
    var r := DeleteTagCascade(s, id);
    forall q | q in r.questions ensures forall i :: 0 <= i < |r.questions[q].tags| ==> r.questions[q].tags[i] in r.tags {
      WithoutStaysIn(s.questions[q].tags, {id}, s.tags, r.tags);
    }
  }

  lemma DeleteTagValid(s: Store, id: nat)
    requires Valid(s)
    ensures Valid(DeleteTagCascade(s, id))
  {
    DeleteTagLinks(s, id);
  }

  // ---------------------------------------------------------------------------
  // Writes to one table. Each request that inserts or patches rows touches one
  // table (and the id counter); `WritesX(s, t)` says that `t` is such a write on `s`
  // that keeps the table's own constraints, keeps its foreign keys pointing at rows
  // of `s`, and drops no row another table may refer to. The lemmas below show any
  // such write keeps the whole store valid, so each operation only has to establish
  // its table's part.

  predicate WritesRoles(s: Store, t: Store) {
    && t.users == s.users && t.notifications == s.notifications && t.tags == s.tags
    && t.questions == s.questions && t.comments == s.comments && t.articles == s.articles
    && s.next <= t.next
    && (forall k :: k in t.roles ==> k < t.next)
    && UniqueRoleTitles(t.roles)
    && (forall k :: k in s.roles ==> k in t.roles)
  }

  predicate WritesUsers(s: Store, t: Store) {
    && t.roles == s.roles && t.notifications == s.notifications && t.tags == s.tags
    && t.questions == s.questions && t.comments == s.comments && t.articles == s.articles
    && s.next <= t.next
    && (forall k :: k in t.users ==> k < t.next && t.users[k].roleId in s.roles)
    && UniqueUsernames(t.users) && UniqueEmails(t.users)
    && (forall k :: k in s.users ==> k in t.users)
  }

  predicate WritesNotifications(s: Store, t: Store) {
    && t.roles == s.roles && t.users == s.users && t.tags == s.tags
    && t.questions == s.questions && t.comments == s.comments && t.articles == s.articles
    && s.next <= t.next
    && (forall k :: k in t.notifications ==>
          && k < t.next
          && t.notifications[k].userId in s.users
          && t.notifications[k].questionId in s.questions)
  }

  predicate WritesTags(s: Store, t: Store) {
    && t.roles == s.roles && t.users == s.users && t.notifications == s.notifications
    && t.questions == s.questions && t.comments == s.comments && t.articles == s.articles
    && s.next <= t.next
    && (forall k :: k in t.tags ==> k < t.next)
    && UniqueTagTitles(t.tags)
    && (forall k :: k in s.tags ==> k in t.tags)
  }

  predicate WritesQuestions(s: Store, t: Store) {
    && t.roles == s.roles && t.users == s.users && t.notifications == s.notifications
    && t.tags == s.tags && t.comments == s.comments && t.articles == s.articles
    && s.next <= t.next
    && (forall k :: k in t.questions ==>
          k < t.next && t.questions[k].authorId in s.users && Distinct(t.questions[k].tags))
    && (forall k, i :: k in t.questions && 0 <= i < |t.questions[k].tags| ==> t.questions[k].tags[i] in s.tags)
    && (forall k :: k in s.questions ==> k in t.questions)
  }

  predicate WritesComments(s: Store, t: Store) {
    && t.roles == s.roles && t.users == s.users && t.notifications == s.notifications
    && t.tags == s.tags && t.questions == s.questions && t.articles == s.articles
    && s.next <= t.next
    && (forall k :: k in t.comments ==>
          && k < t.next
          && t.comments[k].authorId in s.users
          && t.comments[k].questionId in s.questions)
  }

  predicate WritesArticles(s: Store, t: Store) {
    && t.roles == s.roles && t.users == s.users && t.notifications == s.notifications
    && t.tags == s.tags && t.questions == s.questions && t.comments == s.comments
    && s.next <= t.next
    && (forall k :: k in t.articles ==>
          k < t.next && Distinct(t.articles[k].likes) && Distinct(t.articles[k].dislikes))
    && (forall k, i :: k in t.articles && 0 <= i < |t.articles[k].likes| ==> t.articles[k].likes[i] in s.users)
    && (forall k, i :: k in t.articles && 0 <= i < |t.articles[k].dislikes| ==> t.articles[k].dislikes[i] in s.users)
  }

  lemma WritesRolesValid(s: Store, t: Store)
    requires Valid(s) && WritesRoles(s, t)
    ensures Valid(t)
  {
  }

  lemma WritesUsersValid(s: Store, t: Store)
    requires Valid(s) && WritesUsers(s, t)
    ensures Valid(t)
  {
    assert IdsBelowNext(t);
    assert Committable(t);
  }

  lemma WritesNotificationsValid(s: Store, t: Store)
    requires Valid(s) && WritesNotifications(s, t)
    ensures Valid(t)
  {
  }

  lemma WritesTagsValid(s: Store, t: Store)
    requires Valid(s) && WritesTags(s, t)
    ensures Valid(t)
  {
  }

  lemma WritesQuestionsValid(s: Store, t: Store)
    requires Valid(s) && WritesQuestions(s, t)
    ensures Valid(t)
  {
    assert IdsBelowNext(t);
    assert Committable(t);
  }

  lemma WritesCommentsValid(s: Store, t: Store)
    requires Valid(s) && WritesComments(s, t)
    ensures Valid(t)
  {
  }

  lemma WritesArticlesValid(s: Store, t: Store)
    requires Valid(s) && WritesArticles(s, t)
    ensures Valid(t)
  {
  }
}

=== FILE: oauth2.dfy ===
/** security/oauth2.py: `authenticate_user`. The bcrypt comparison of
    security/hashing.py is a parameter, `verify(plain, hashed)`. */
module OAuth2 {

  import opened Http
  import opened Models
  import opened Email
  import opened Services

  /** The user the login name and password identify, or `None` (the source's `False`)
      when the name finds nobody or the password does not match that user's hash. */
  function AuthenticateUser(s: Store, verify: (string, string) -> bool, username: string, password: string): (r: Option<nat>)
    requires IdsBelowNext(s)
    ensures r.Some? <==> UserByLogin(s, username).Some? && verify(password, s.users[UserByLogin(s, username).value].password)
    ensures r.Some? ==> r == UserByLogin(s, username)
  {
    match UserByLogin(s, username)
    case None => None
    case Some(k) => if verify(password, s.users[k].password) then Some(k) else None
  }

  /** Only the one user the login name resolves to is tried: under unique columns a
      password matching a user's hash logs that user in exactly when the name is
      their email (for an email-shaped name) or their username (otherwise). */
  lemma OnlyResolvedUserTried(s: Store, verify: (string, string) -> bool, username: string, password: string, other: nat)
    requires IdsBelowNext(s) && UniqueUsernames(s.users) && UniqueEmails(s.users)
    requires other in s.users && verify(password, s.users[other].password)
    ensures AuthenticateUser(s, verify, username, password) == Some(other) <==>
      (if IsEmail(username) then s.users[other].email == username else s.users[other].username == username)
  {
    if (if IsEmail(username) then s.users[other].email == username else s.users[other].username == username) {
      UserByLoginUnique(s, username, other);
    }
  }
}

=== FILE: routers_articles.dfy ===
/** The `/articles` endpoints of routers/news/articles.py. */
module ArticlesRouter {

  import opened Http
  import opened Models
  import opened Schemas
  import opened Lists
  import opened Crud
  import opened Decorators
  import opened ArticleCrud

  const NoArticleEdits: string := "You have no access no edit articles."

  /** `POST /articles/`: admin only. */
  function PostArticle(s: Store, actor: Actor, ac: ArticleCreate, now: int): (r: Result<(Store, nat)>)
    requires IdsBelowNext(s) && AssociationKeys(s) && RatersExist(s)
    ensures !IsAdmin(actor) ==> r == Fail(Raise(Forbidden403, NotAdmin))
    ensures IsAdmin(actor) ==> r == Ok(CreateArticle(s, ac, now))
  {
    Guarded(AdminGate(Some(actor)), Ok(CreateArticle(s, ac, now)))
  }

  /** `Article.date_created` as a sort column. */
  function Published(a: Article): int {
    a.created
  }

  /** `GET /articles/`: the window [skip, skip + limit) of the articles, newest first.
      No current user is asked for. */
  function ListArticles(s: Store, skip: nat, limit: nat): (r: seq<nat>)
    requires IdsBelowNext(s)
    ensures forall i :: 0 <= i < |r| ==> r[i] in s.articles
    ensures forall i, j :: 0 <= i < j < |r| ==> s.articles[r[i]].created >= s.articles[r[j]].created
    ensures |r| == if skip >= |s.articles| then 0 else Min(limit, |s.articles| - skip)
    ensures forall i :: 0 <= i < |r| ==> r[i] == Rows(s.articles, s.next, By(ColumnKey(s.articles, Published), Desc))[skip + i]
  {
    WindowOrdered(s.articles, s.next, Published, Desc, skip, limit);
    GetObjects(s.articles, s.next, By(ColumnKey(s.articles, Published), Desc), skip, limit)
  }

  /** `PATCH /articles/{id}/`: only an admin's patch is applied; anyone else gets 403,
      whether or not the article exists. */
  function EditArticle(s: Store, actor: Actor, id: int, p: ArticleUpdate): (r: Result<(Store, nat)>)
    requires IdsBelowNext(s) && AssociationKeys(s) && RatersExist(s)
    ensures !IsAdmin(actor) ==> r == Fail(Raise(Forbidden403, NoArticleEdits))
    ensures IsAdmin(actor) ==> r == UpdateArticle(s, id, p)
  {
    if IsAdmin(actor) then UpdateArticle(s, id, p)
    else Fail(Raise(Forbidden403, NoArticleEdits))
  }

  /** `PATCH /articles/{id}/{rating_type}/`: any signed-in user rates, always as
      themself. */
  function RateArticle(s: Store, actor: Actor, id: int, t: RatingType): (r: Result<Store>)
    requires IdsBelowNext(s) && AssociationKeys(s) && RatersExist(s)
    ensures r.Ok? <==> Has(s.articles, id) && actor.id in s.users
    ensures r.Ok? ==>
      && r.value.articles.Keys == s.articles.Keys
      && (forall k :: k in s.articles && k != id as nat ==> r.value.articles[k] == s.articles[k])
      && WritesArticles(s, r.value)
  {
    UpdateArticleRating(s, id, actor.id as int, t)
  }

  /** A rating changes only the rater's own place in the two lists of that article. */
  lemma RatingIsPersonal(s: Store, actor: Actor, id: int, t: RatingType, v: nat)
    requires IdsBelowNext(s) && AssociationKeys(s) && RatersExist(s)
    requires RateArticle(s, actor, id, t).Ok? && v != actor.id
    ensures var (a, b) := (s.articles[id as nat], RateArticle(s, actor, id, t).value.articles[id as nat]);
      && (v in b.likes <==> v in a.likes)
      && (v in b.dislikes <==> v in a.dislikes)
      && !(actor.id in b.likes && actor.id in b.dislikes)
  {
    ToggleExclusive(s.articles[id as nat], t, actor.id);
  }

  /** `DELETE /articles/{id}/`: admin only. */
  function RemoveArticle(s: Store, actor: Actor, id: int): (r: Result<Store>)
    requires IdsBelowNext(s) && AssociationKeys(s) && RatersExist(s)
    ensures !IsAdmin(actor) ==> r == Fail(Raise(Forbidden403, NotAdmin))
    ensures IsAdmin(actor) ==> r == DeleteArticle(s, id)
  {
    Guarded(AdminGate(Some(actor)), DeleteArticle(s, id))
  }
}

=== FILE: routers_comments.dfy ===
/** The `/comments` endpoints of routers/forum/comments.py: who may create, list,
    edit and delete comments, and which part of a patch an editor's role lets through. */
module CommentsRouter {

  import opened Http
  import opened Models
  import opened Schemas
  import opened Crud
  import opened Decorators
  import opened CommentCrud

  const NotCommentAuthor: string := "You are not author of comment."

  /** `POST /comments/`: whatever `author_id` the body carries, the comment is the
      current user's. */
  function PostComment(s: Store, actor: Actor, cc: CommentCreate, now: int): (r: Result<(Store, nat)>)
    requires IdsBelowNext(s) && NotificationsLinked(s) && AuthorsExist(s)
    ensures r.Ok? ==> var (t, id) := r.value; id in t.comments && t.comments[id].authorId == actor.id
    ensures r.Fail? <==> !(Has(s.users, actor.id) && Has(s.questions, cc.questionId))
  {
    CreateComment(s, cc.(authorId := Some(actor.id as int)), now)
  }

  /** `GET /comments/`: admin only; then the window over the comment table. */
  function ListComments(s: Store, actor: Actor, skip: nat, limit: nat): (r: Result<seq<nat>>)
    requires IdsBelowNext(s)
    ensures r.Fail? <==> !IsAdmin(actor)
    ensures r.Fail? ==> r.error == Raise(Forbidden403, NotAdmin)
    ensures r.Ok? ==> r.value == GetObjects(s.comments, s.next, Unordered, skip, limit)
  {
    Guarded(AdminGate(Some(actor)), Ok(GetObjects(s.comments, s.next, Unordered, skip, limit)))
  }

  // ---------------------------------------------------------------------------
  // Editing

  /** What `PATCH /comments/{id}/` lets through for a given editor. */
  datatype CommentEdit =
    | WholePatch                          // an admin: the patch as sent
    | ContentOnly(content: string)        // the comment's author: the new text
    | AnswerOnly(isAnswer: bool)          // the question's author: the answer mark
    | NoEdit                              // anyone else: nothing, and no error

  /** The decision table of `update_comment`, checked top to bottom. */
  function EditDecision(actor: Actor, commentAuthor: nat, questionAuthor: nat, p: CommentUpdate): (d: CommentEdit)
    ensures d == WholePatch <==> IsAdmin(actor)
    ensures d.ContentOnly? <==> !IsAdmin(actor) && Truthy(p.content.AsOption()) && actor.id == commentAuthor
    ensures d.ContentOnly? ==> d.content == p.content.value
    ensures d.AnswerOnly? <==>
      !IsAdmin(actor) && !(Truthy(p.content.AsOption()) && actor.id == commentAuthor)
      && p.isAnswer.Set? && actor.id == questionAuthor
    ensures d.AnswerOnly? ==> d.isAnswer == p.isAnswer.value
  {
    if IsAdmin(actor) then WholePatch
    else if Truthy(p.content.AsOption()) && actor.id == commentAuthor then ContentOnly(p.content.value)
    else if p.isAnswer.Set? && actor.id == questionAuthor then AnswerOnly(p.isAnswer.value)
    else NoEdit
  }

  /** The patch a decision forwards to `update_object`. */
  function Forwarded(d: CommentEdit, p: CommentUpdate): (q: Option<CommentUpdate>)
    ensures q.None? <==> d == NoEdit
    ensures q.Some? && d != WholePatch ==> !q.value.WritesNull()
  {
    match d
    case WholePatch => Some(p)
    case ContentOnly(content) => Some(CommentUpdate(Set(content), Unset))
    case AnswerOnly(isAnswer) => Some(CommentUpdate(Unset, Set(isAnswer)))
    case NoEdit => None
  }

  /** `PATCH /comments/{id}/`. An admin's patch goes straight to `update_object`,
      nulls included; anyone else's is first checked against the comment (404 if
      missing) and then cut down by the decision table, which reads a null as absent.
      `Ok(None)` is the endpoint returning nothing: no change and no error. */
  function EditComment(s: Store, actor: Actor, id: int, p: CommentUpdate): (r: Result<Option<(Store, nat)>>)
    requires IdsBelowNext(s) && CommentsLinked(s) && AuthorsExist(s)
    ensures r.Fail? <==> !Has(s.comments, id) || (IsAdmin(actor) && p.WritesNull())
    ensures !Has(s.comments, id) ==> r == Fail(NoSuchId("Comment"))
    ensures Has(s.comments, id) && IsAdmin(actor) && p.WritesNull() ==> r == Fail(NullViolation)
    ensures r.Ok? ==>
      var c := s.comments[id as nat];
      var d := EditDecision(actor, c.authorId, s.questions[c.questionId].authorId, p);
      && (r.value.None? <==> d == NoEdit)
      && (r.value.Some? ==>
            var (t, k) := r.value.value;
            && k == id
            && t.comments == s.comments[k := MergeComment(c, Forwarded(d, p).value).value]
            && WritesComments(s, t))
  {
    if IsAdmin(actor) then
      var (t, k) :- UpdateComment(s, id, p);
      Ok(Some((t, k)))
    else
      var k :- Find(s.comments, id, "Comment");
      var c := s.comments[k];
      var d := EditDecision(actor, c.authorId, s.questions[c.questionId].authorId, p);
      match Forwarded(d, p)
      case None => Ok(None)
      case Some(q) =>
        var (t, k') := UpdateComment(s, k, q).value;
        Ok(Some((t, k')))
  }

  /** The edit an actor's patch makes to the comment's text and answer mark: an admin
      sets both as sent, the comment's author only a non-empty text, and the question's
      author only the answer mark, and only when the text branch did not fire. */
  lemma EditCommentColumns(s: Store, actor: Actor, id: int, p: CommentUpdate)
    requires IdsBelowNext(s) && CommentsLinked(s) && AuthorsExist(s)
    requires EditComment(s, actor, id, p).Ok? && EditComment(s, actor, id, p).value.Some?
    ensures var (t, k) := EditComment(s, actor, id, p).value.value;
      var (c, e) := (s.comments[k], t.comments[k]);
      var questionAuthor := s.questions[c.questionId].authorId;
      && e.authorId == c.authorId && e.questionId == c.questionId && e.created == c.created
      && (e.content != c.content ==>
            && p.content.Set? && e.content == p.content.value
            && (IsAdmin(actor) || actor.id == c.authorId))
      && (e.isAnswer != c.isAnswer ==>
            && p.isAnswer.Set? && e.isAnswer == p.isAnswer.value
            && (IsAdmin(actor) || (actor.id == questionAuthor && !(Truthy(p.content.AsOption()) && actor.id == c.authorId))))
  {
  }

  /** A user who wrote neither the comment nor its question, and is not an admin,
      changes nothing and is not told so. */
  lemma StrangerEditIsSilent(s: Store, actor: Actor, id: int, p: CommentUpdate)
    requires IdsBelowNext(s) && CommentsLinked(s) && AuthorsExist(s)
    requires Has(s.comments, id) && !IsAdmin(actor)
    requires actor.id != s.comments[id as nat].authorId
    requires actor.id != s.questions[s.comments[id as nat].questionId].authorId
    ensures EditComment(s, actor, id, p) == Ok(None)
  {
  }

  /** A comment author who is also the question's author and sends both a text and an
      answer mark gets only the text: the answer mark is dropped. */
  lemma ContentBranchWins(s: Store, actor: Actor, id: int, p: CommentUpdate)
    requires IdsBelowNext(s) && CommentsLinked(s) && AuthorsExist(s)
    requires Has(s.comments, id) && !IsAdmin(actor)
    requires actor.id == s.comments[id as nat].authorId && Truthy(p.content.AsOption()) && p.isAnswer.Set?
    ensures var r := EditComment(s, actor, id, p);
      && r.Ok? && r.value.Some?
      && r.value.value.0.comments[id as nat]
         == s.comments[id as nat].(content := p.content.value)
  {
  }

  // ---------------------------------------------------------------------------
  // Deleting

  /** `DELETE /comments/{id}/`: an admin, or the comment's author, deletes it (204);
      anyone else gets 403. For a non-admin the comment is looked up first, so a
      missing one is a 404; for an admin `delete_object` reports the same 404. */
  function RemoveComment(s: Store, actor: Actor, id: int): (r: Result<Store>)
    requires IdsBelowNext(s) && CommentsLinked(s)
    ensures !Has(s.comments, id) ==> r == Fail(NoSuchId("Comment"))
    ensures r.Ok? <==> Has(s.comments, id) && (IsAdmin(actor) || actor.id == s.comments[id as nat].authorId)
    ensures Has(s.comments, id) && r.Fail? ==> r.error == Raise(Forbidden403, NotCommentAuthor)
    ensures r.Ok? ==> r.value.comments == s.comments - {id as nat} && WritesComments(s, r.value)
  {
    if IsAdmin(actor) then DeleteComment(s, id)
    else
      var k :- Find(s.comments, id, "Comment");
      if actor.id == s.comments[k].authorId then DeleteComment(s, k)
      else Fail(Raise(Forbidden403, NotCommentAuthor))
  }
}

=== FILE: routers_notifications.dfy ===
/** The `/notifications` endpoints of routers/users/notifications.py. */
module NotificationsRouter {

  import opened Http
  import opened Models
  import opened Schemas
  import opened Lists
  import opened Crud
  import opened Decorators
  import opened NotificationCrud

  /** `GET /notifications/`: admin only. */
  function ListNotifications(s: Store, actor: Actor, skip: nat, limit: nat): (r: Result<seq<nat>>)
    requires IdsBelowNext(s)
    ensures r.Fail? <==> !IsAdmin(actor)
    ensures r.Fail? ==> r.error == Raise(Forbidden403, NotAdmin)
    ensures r.Ok? ==> r.value == GetObjects(s.notifications, s.next, Unordered, skip, limit)
  {
    Guarded(AdminGate(Some(actor)), Ok(GetObjects(s.notifications, s.next, Unordered, skip, limit)))
  }

  /** `POST /notifications/`: admin only. */
  function PostNotification(s: Store, actor: Actor, nc: NotificationCreate): (r: Result<(Store, nat)>)
    requires IdsBelowNext(s) && NotificationsLinked(s)
    ensures !IsAdmin(actor) ==> r == Fail(Raise(Forbidden403, NotAdmin))
    ensures IsAdmin(actor) ==> r == CreateNotification(s, nc)
  {
    Guarded(AdminGate(Some(actor)), CreateNotification(s, nc))
  }

  /** `GET /notifications/{user_id}/`: the user themself or an admin; the gate runs
      before the user is looked up, so a non-admin asking about a missing user gets
      403, not 404. */
  function UserNotifications(s: Store, actor: Actor, userId: int, skip: nat, limit: nat): (r: Result<seq<nat>>)
    requires IdsBelowNext(s)
    ensures !IsAdmin(actor) && actor.id as int != userId ==> r == Fail(Raise(Forbidden403, NotThatUser))
    ensures r.Ok? <==> (IsAdmin(actor) || actor.id as int == userId) && Has(s.users, userId)
    ensures r.Ok? ==> forall i :: 0 <= i < |r.value| ==>
      r.value[i] in s.notifications && s.notifications[r.value[i]].userId as int == userId
    ensures r.Ok? ==> r.value == Window(NotificationsOf(s, userId as nat), skip, limit)
  {
    var page := NotificationsByUser(s, userId, skip, limit);
    if Has(s.users, userId) then
      NotificationPageIsTheUsers(s, userId, skip, limit);
      Guarded(AccessGate(Some(actor), Some(userId)), page)
    else Guarded(AccessGate(Some(actor), Some(userId)), page)
  }

  /** `DELETE /notifications/{id}/`: the notification is looked up first (404), then
      only its addressee or an admin may delete it (403 otherwise). */
  function RemoveNotification(s: Store, actor: Actor, id: int): (r: Result<Store>)
    requires IdsBelowNext(s) && NotificationsLinked(s)
    ensures !Has(s.notifications, id) ==> r == Fail(NoSuchId("Notification"))
    ensures r.Ok? <==> Has(s.notifications, id) && (IsAdmin(actor) || s.notifications[id as nat].userId == actor.id)
    ensures Has(s.notifications, id) && r.Fail? ==> r.error == Raise(Forbidden403, NotThatUser)
    ensures r.Ok? ==> r.value.notifications == s.notifications - {id as nat} && WritesNotifications(s, r.value)
  {
    var k :- Find(s.notifications, id, "Notification");
    if s.notifications[k].userId != actor.id && !IsAdmin(actor) then Fail(Raise(Forbidden403, NotThatUser))
    else DeleteNotification(s, k)
  }

  /** `PATCH /notifications/{id}/`: admin only. */
  function EditNotification(s: Store, actor: Actor, id: int, p: NotificationUpdate): (r: Result<(Store, nat)>)
    requires IdsBelowNext(s) && NotificationsLinked(s)
    ensures !IsAdmin(actor) ==> r == Fail(Raise(Forbidden403, NotAdmin))
    ensures IsAdmin(actor) ==> r == UpdateNotification(s, id, p)
  {
    Guarded(AdminGate(Some(actor)), UpdateNotification(s, id, p))
  }
}

=== FILE: routers_questions.dfy ===
/** The `/questions` endpoints of routers/forum/questions.py: author defaulting on
    create, the listing modes, and who may edit and delete a question. */
module QuestionsRouter {

  import opened Http
  import opened Ascii
  import opened Models
  import opened Schemas
  import opened Lists
  import opened Crud
  import opened Decorators
  import opened QuestionCrud

  const NotViewsGiven: string := "You did not give the views parameter."
  const NotQuestionOwner: string := "You are not the owner of the question."

  /** `POST /questions/`: a missing `author_id` becomes the current user; a given one
      is kept, whoever the current user is. */
  function PostQuestion(s: Store, actor: Actor, qc: QuestionCreate, now: int): (r: Result<(Store, nat)>)
    requires IdsBelowNext(s)
    ensures r.Ok? ==>
      var (t, id) := r.value;
      && id in t.questions
      && t.questions[id].authorId as int == (if qc.authorId.None? then actor.id as int else qc.authorId.value)
  {
    var author := if qc.authorId.None? then Some(actor.id as int) else qc.authorId;
    CreateQuestion(s, qc.(authorId := author), now)
  }

  // ---------------------------------------------------------------------------
  // Listing

  datatype QuestionOrder = NewestFirst | OldestFirst | MostViewed | NoOrder

  /** Which query `GET /questions/` runs. */
  datatype Listing = ByTitle(title: string) | Paged(order: QuestionOrder)

  /** The dispatch of `get_questions`: a truthy `by_title` wins; a truthy
      `order_by_date` is matched against "desc" and "asc" after lower-casing, and any
      other value falls through to the plain window without looking at
      `order_by_views`; only without a truthy `order_by_date` does `order_by_views`
      count. */
  function ListingOf(byTitle: Option<string>, orderByDate: Option<string>, orderByViews: Option<bool>): (m: Listing)
    ensures Truthy(byTitle) <==> m.ByTitle?
    ensures m.ByTitle? ==> m.title == byTitle.value
    ensures m == Paged(MostViewed) <==> !Truthy(byTitle) && !Truthy(orderByDate) && orderByViews == Some(true)
    ensures m == Paged(NewestFirst) <==> !Truthy(byTitle) && Truthy(orderByDate) && Lower(orderByDate.value) == "desc"
    ensures m == Paged(OldestFirst) <==> !Truthy(byTitle) && Truthy(orderByDate) && Lower(orderByDate.value) == "asc"
  {
    if Truthy(byTitle) then ByTitle(byTitle.value)
    else if Truthy(orderByDate) then
      if Lower(orderByDate.value) == "desc" then Paged(NewestFirst)
      else if Lower(orderByDate.value) == "asc" then Paged(OldestFirst)
      else Paged(NoOrder)
    else if orderByViews == Some(true) then Paged(MostViewed)
    else Paged(NoOrder)
  }

  /** Any spelling of "desc" or "asc" in any letter case selects the date order, and
      an unrecognised truthy date order ignores `order_by_views`. */
  lemma DateOrderCaseInsensitive(byTitle: Option<string>, views: Option<bool>)
    requires !Truthy(byTitle)
    ensures ListingOf(byTitle, Some("DESC"), views) == Paged(NewestFirst)
    ensures ListingOf(byTitle, Some("Asc"), views) == Paged(OldestFirst)
    ensures ListingOf(byTitle, Some("newest"), Some(true)) == Paged(NoOrder)
  {
    assert Lower("DESC") == "desc";
    assert Lower("Asc") == "asc";
    assert Lower("newest") == "newest";
  }

  /** `Question.date_created` and `Question.views` as sort columns. */
  function Created(q: Question): int {
    q.created
  }

  function Views(q: Question): int {
    q.views
  }

  /** The column and direction of each ordered mode. */
  function ColumnOf(order: QuestionOrder): Question -> int {
    if order == MostViewed then Views else Created
  }

  function DirectionOf(order: QuestionOrder): Direction {
    if order == OldestFirst then Asc else Desc
  }

  /** The `order_by` argument each paged mode passes to `get_objects`. */
  function OrderFor(s: Store, order: QuestionOrder): (o: Order)
    ensures order == NoOrder <==> o.Unordered?
  {
    if order == NoOrder then Unordered
    else By(ColumnKey(s.questions, ColumnOf(order)), DirectionOf(order))
  }

  /** `GET /questions/` in a paged mode: the window [skip, skip + limit) of the
      questions in that mode's order. The title search is not modelled. */
  function ListQuestions(s: Store, order: QuestionOrder, skip: nat, limit: nat): (r: seq<nat>)
    requires IdsBelowNext(s)
    ensures forall i :: 0 <= i < |r| ==> r[i] in s.questions
    ensures |r| == if skip >= |s.questions| then 0 else Min(limit, |s.questions| - skip)
  {
    GetObjects(s.questions, s.next, OrderFor(s, order), skip, limit)
  }

  /** Each ordered mode's page is sorted on its column: newest first, oldest first,
      or most viewed first. */
  lemma ListQuestionsOrdered(s: Store, order: QuestionOrder, skip: nat, limit: nat)
    requires IdsBelowNext(s) && order != NoOrder
    ensures var page := ListQuestions(s, order, skip, limit);
      forall i, j :: 0 <= i < j < |page| ==>
        InOrder(ColumnOf(order)(s.questions[page[i]]), ColumnOf(order)(s.questions[page[j]]), DirectionOf(order))
  {
    WindowOrdered(s.questions, s.next, ColumnOf(order), DirectionOf(order), skip, limit);
  }

  /** The three ordered modes spelled out. */
  lemma OrderedModes()
    ensures ColumnOf(NewestFirst) == Created && DirectionOf(NewestFirst) == Desc
    ensures ColumnOf(OldestFirst) == Created && DirectionOf(OldestFirst) == Asc
    ensures ColumnOf(MostViewed) == Views && DirectionOf(MostViewed) == Desc
  {
  }

  // ---------------------------------------------------------------------------
  // Editing and deleting

  /** True iff the actor may edit or delete the question: an admin or its author. */
  predicate OwnsQuestion(s: Store, actor: Actor, k: nat)
    requires k in s.questions
  {
    IsAdmin(actor) || actor.id == s.questions[k].authorId
  }

  /** `PATCH /questions/{id}/`: a non-admin who did not write the question is refused
      with 400 and the views-parameter text, after the question is looked up; an
      admin's request goes straight to `update_question`. */
  function EditQuestion(s: Store, actor: Actor, id: int, p: QuestionUpdate): (r: Result<(Store, nat)>)
    requires IdsBelowNext(s)
    ensures !Has(s.questions, id) ==> r == Fail(NoSuchId("Question"))
    ensures Has(s.questions, id) && !OwnsQuestion(s, actor, id as nat) ==> r == Fail(Raise(BadRequest400, NotViewsGiven))
    ensures Has(s.questions, id) && OwnsQuestion(s, actor, id as nat) ==> r == UpdateQuestion(s, id, p)
  {
    if !IsAdmin(actor) then
      var k :- Find(s.questions, id, "Question");
      if actor.id != s.questions[k].authorId then Fail(Raise(BadRequest400, NotViewsGiven))
      else UpdateQuestion(s, id, p)
    else UpdateQuestion(s, id, p)
  }

  /** `PATCH /questions/{id}/views/`: no current user is asked for; only the view
      count is set. */
  function SetViews(s: Store, id: int, views: int): (r: Result<(Store, nat)>)
    requires IdsBelowNext(s) && Committable(s)
    ensures r.Fail? <==> !Has(s.questions, id)
    ensures r.Ok? ==>
      var (t, k) := r.value;
      && k == id && k in s.questions
      && t == s.(questions := s.questions[k := s.questions[k].(views := views)])
  {
    var p := QuestionUpdate(Unset, Unset, Unset, Set(views));
    if Has(s.questions, id) then
      var q := s.questions[id as nat];
      assert MergeQuestion(q, p) == Some(q.(views := views));
      UpdateQuestionUntagged(s, id, p);
      UpdateQuestion(s, id, p)
    else UpdateQuestion(s, id, p)
  }

  /** `DELETE /questions/{id}/`: the owner or an admin deletes it with its comments
      and notifications; anyone else gets 403. */
  function RemoveQuestion(s: Store, actor: Actor, id: int): (r: Result<Store>)
    ensures !Has(s.questions, id) ==> r == Fail(NoSuchId("Question"))
    ensures r.Ok? <==> Has(s.questions, id) && OwnsQuestion(s, actor, id as nat)
    ensures Has(s.questions, id) && r.Fail? ==> r.error == Raise(Forbidden403, NotQuestionOwner)
    ensures r.Ok? ==> r.value == DeleteQuestions(s, {id as nat})
  {
    if !IsAdmin(actor) then
      var k :- Find(s.questions, id, "Question");
      if actor.id != s.questions[k].authorId then Fail(Raise(Forbidden403, NotQuestionOwner))
      else DeleteQuestion(s, id)
    else DeleteQuestion(s, id)
  }
}

=== FILE: routers_roles.dfy ===
/** The `/roles` endpoints of routers/users/roles.py: every one is admin only, and a
    role is named either by id or by an alphabetic title. */
module RolesRouter {

  import opened Http
  import opened Ascii
  import opened Models
  import opened Schemas
  import opened Lists
  import opened Crud
  import opened Decorators
  import opened RoleCrud

  const UnresolvedRoleKeyType: string := "Unresolved type of role_key."
  const UnresolvedRoleKey: string := "Unresolved role_key."

  /** An integer is an id, a purely alphabetic string a title, anything else (digits
      mixed in, punctuation, the empty string) unresolved. */
  function ClassifyRoleKey(key: PathKey): (l: Lookup)
    ensures !l.ByEmail?
    ensures key.IntKey? <==> l.ById?
    ensures l.ById? ==> l.id == key.id
    ensures l.ByName? <==> key.StrKey? && IsAlpha(key.text)
    ensures l.ByName? ==> l.name == key.text
  {
    match key
    case IntKey(id) => ById(id)
    case StrKey(text) => if IsAlpha(text) then ByName(text) else Unresolved
  }

  /** `GET /roles/{key}/` */
  function GetRole(s: Store, actor: Actor, key: PathKey): (r: Result<nat>)
    requires IdsBelowNext(s)
    ensures !IsAdmin(actor) ==> r == Fail(Raise(Forbidden403, NotAdmin))
    ensures IsAdmin(actor) && ClassifyRoleKey(key).Unresolved? ==> r == Fail(Raise(BadRequest400, UnresolvedRoleKeyType))
    ensures IsAdmin(actor) && key.IntKey? ==> r == Find(s.roles, key.id, "Role")
    ensures IsAdmin(actor) && ClassifyRoleKey(key).ByName? ==>
      (r.Fail? <==> forall k :: k in s.roles ==> s.roles[k].title != key.text)
      && (r.Fail? ==> r.error == NoSuchField("Role"))
      && (r.Ok? ==> r.value in s.roles && s.roles[r.value].title == key.text)
  {
    Guarded(AdminGate(Some(actor)),
      var l := ClassifyRoleKey(key);
      if l.ById? then Find(s.roles, l.id, "Role")
      else if l.ByName? then FindWhere(s.roles, s.next, (x: Role) => x.title == l.name, "Role")
      else Fail(Raise(BadRequest400, UnresolvedRoleKeyType)))
  }

  /** `PATCH /roles/{key}/` */
  function PatchRole(s: Store, actor: Actor, key: PathKey, p: RoleUpdate): (r: Result<(Store, nat)>)
    requires IdsBelowNext(s) && UniqueRoleTitles(s.roles)
    ensures !IsAdmin(actor) ==> r == Fail(Raise(Forbidden403, NotAdmin))
    ensures IsAdmin(actor) && ClassifyRoleKey(key).Unresolved? ==> r == Fail(Raise(BadRequest400, UnresolvedRoleKey))
    ensures IsAdmin(actor) && key.IntKey? ==> r == UpdateRole(s, key.id, p)
    ensures IsAdmin(actor) && ClassifyRoleKey(key).ByName? ==> r == UpdateRoleByTitle(s, key.text, p)
  {
    Guarded(AdminGate(Some(actor)),
      var l := ClassifyRoleKey(key);
      if l.ById? then UpdateRole(s, l.id, p)
      else if l.ByName? then UpdateRoleByTitle(s, l.name, p)
      else Fail(Raise(BadRequest400, UnresolvedRoleKey)))
  }

  /** `DELETE /roles/{key}/`: on success the response is 204 with no body, and the
      role's users are deleted with it. */
  function RemoveRole(s: Store, actor: Actor, key: PathKey): (r: Result<Store>)
    requires IdsBelowNext(s) && UniqueRoleTitles(s.roles)
    ensures !IsAdmin(actor) ==> r == Fail(Raise(Forbidden403, NotAdmin))
    ensures IsAdmin(actor) && ClassifyRoleKey(key).Unresolved? ==> r == Fail(Raise(BadRequest400, UnresolvedRoleKey))
    ensures IsAdmin(actor) && key.IntKey? ==> r == DeleteRole(s, key.id)
    ensures IsAdmin(actor) && ClassifyRoleKey(key).ByName? ==> r == DeleteRoleByTitle(s, key.text)
  {
    Guarded(AdminGate(Some(actor)),
      var l := ClassifyRoleKey(key);
      if l.ById? then DeleteRole(s, l.id)
      else if l.ByName? then DeleteRoleByTitle(s, l.name)
      else Fail(Raise(BadRequest400, UnresolvedRoleKey)))
  }

  /** Deleting by title and deleting by the id that title names do the same thing. */
  lemma RemoveRoleKeysAgree(s: Store, actor: Actor, k: nat)
    requires IdsBelowNext(s) && UniqueRoleTitles(s.roles) && IsAdmin(actor)
    requires k in s.roles && IsAlpha(s.roles[k].title)
    ensures RemoveRole(s, actor, StrKey(s.roles[k].title)) == RemoveRole(s, actor, IntKey(k))
  {
  }

  /** `POST /roles/` */
  function PostRole(s: Store, actor: Actor, rc: RoleCreate): (r: Result<(Store, nat)>)
    requires IdsBelowNext(s) && UniqueRoleTitles(s.roles)
    ensures !IsAdmin(actor) ==> r == Fail(Raise(Forbidden403, NotAdmin))
    ensures IsAdmin(actor) ==> r == CreateRole(s, rc)
  {
    Guarded(AdminGate(Some(actor)), CreateRole(s, rc))
  }

  /** `GET /roles/`: admin only; then the window over the role table. */
  function ListRoles(s: Store, actor: Actor, skip: nat, limit: nat): (r: Result<seq<nat>>)
    requires IdsBelowNext(s)
    ensures r.Fail? <==> !IsAdmin(actor)
    ensures r.Fail? ==> r.error == Raise(Forbidden403, NotAdmin)
    ensures r.Ok? ==> forall i :: 0 <= i < |r.value| ==> r.value[i] in s.roles
  {
    Guarded(AdminGate(Some(actor)), Ok(GetObjects(s.roles, s.next, Unordered, skip, limit)))
  }
}

=== FILE: routers_tags.dfy ===
/** The `/tags` endpoints of routers/forum/tags.py: reading is open, writing is
    admin only, and any text key is a title. */
module TagsRouter {

  import opened Http
  import opened Models
  import opened Schemas
  import opened Crud
  import opened Lists
  import opened Decorators
  import opened TagCrud

  /** An integer is an id; every string, whatever its characters, is a title. */
  function ClassifyTagKey(key: PathKey): (l: Lookup)
    ensures !l.ByEmail? && !l.Unresolved?
    ensures key.IntKey? <==> l.ById?
    ensures l.ById? ==> l.id == key.id
    ensures l.ByName? ==> l.name == key.text
  {
    match key
    case IntKey(id) => ById(id)
    case StrKey(text) => ByName(text)
  }

  /** `GET /tags/{key}/`: no current user is asked for. */
  function GetTag(s: Store, key: PathKey): (r: Result<nat>)
    requires IdsBelowNext(s)
    ensures key.IntKey? ==> r == Find(s.tags, key.id, "Tag")
    ensures key.StrKey? ==>
      (r.Fail? <==> forall k :: k in s.tags ==> s.tags[k].title != key.text)
      && (r.Fail? ==> r.error == NoSuchField("Tag"))
      && (r.Ok? ==> r.value in s.tags && s.tags[r.value].title == key.text)
  {
    var l := ClassifyTagKey(key);
    if l.ById? then Find(s.tags, l.id, "Tag")
    else FindWhere(s.tags, s.next, (x: Tag) => x.title == l.name, "Tag")
  }

  /** `POST /tags/` */
  function PostTag(s: Store, actor: Actor, tc: TagCreate): (r: Result<(Store, nat)>)
    requires IdsBelowNext(s) && UniqueTagTitles(s.tags)
    ensures !IsAdmin(actor) ==> r == Fail(Raise(Forbidden403, NotAdmin))
    ensures IsAdmin(actor) ==> r == CreateTag(s, tc)
  {
    Guarded(AdminGate(Some(actor)), CreateTag(s, tc))
  }

  /** `PATCH /tags/{id}/` */
  function PatchTag(s: Store, actor: Actor, id: int, p: TagUpdate): (r: Result<(Store, nat)>)
    requires IdsBelowNext(s) && UniqueTagTitles(s.tags)
    ensures !IsAdmin(actor) ==> r == Fail(Raise(Forbidden403, NotAdmin))
    ensures IsAdmin(actor) ==> r == UpdateTag(s, id, p)
  {
    Guarded(AdminGate(Some(actor)), UpdateTag(s, id, p))
  }

  /** `DELETE /tags/{id}/`: the tag leaves every question's tag list. */
  function RemoveTag(s: Store, actor: Actor, id: int): (r: Result<Store>)
    ensures !IsAdmin(actor) ==> r == Fail(Raise(Forbidden403, NotAdmin))
    ensures IsAdmin(actor) ==> r == DeleteTag(s, id)
  {
    Guarded(AdminGate(Some(actor)), DeleteTag(s, id))
  }

  /** `GET /tags/`: the window [skip, skip + limit) of the tag table, for anyone. */
  function ListTags(s: Store, skip: nat, limit: nat): (r: seq<nat>)
    requires IdsBelowNext(s)
    ensures forall i :: 0 <= i < |r| ==> r[i] in s.tags
    ensures |r| == if skip >= |s.tags| then 0 else Min(limit, |s.tags| - skip)
  {
    GetObjects(s.tags, s.next, Unordered, skip, limit)
  }
}

=== FILE: routers_users.dfy ===
/** The `/users` endpoints of routers/users/users.py. */
module UsersRouter {

  import opened Http
  import opened Ascii
  import opened Models
  import opened Schemas
  import opened Lists
  import opened Crud
  import opened Email
  import opened Decorators
  import opened UserCrud

  const UnresolvedUserKey: string := "Unresolved user_key."

  /** `get_user`'s reading of its path key: an integer is an id; then an email-shaped
      string is an email; then a string that is alphanumeric once '_' is deleted is a
      username; anything else is unresolved. */
  function ClassifyUserKey(key: PathKey): (l: Lookup)
    ensures key.IntKey? <==> l.ById?
    ensures l.ById? ==> l.id == key.id
    ensures l.ByEmail? <==> key.StrKey? && IsEmail(key.text)
    ensures l.ByName? <==> key.StrKey? && !IsEmail(key.text) && IsAlnum(Delete(key.text, '_'))
    ensures l.ByEmail? ==> l.email == key.text
    ensures l.ByName? ==> l.name == key.text
  {
    match key
    case IntKey(id) => ById(id)
    case StrKey(text) =>
      if IsEmail(text) then ByEmail(text)
      else if IsAlnum(Delete(text, '_')) then ByName(text)
      else Unresolved
  }

  /** `GET /users/{key}/`. An id or username that matches nobody is a 404; an email
      that matches nobody is `Ok(None)`, the endpoint's `null` body. */
  function GetUser(s: Store, key: PathKey): (r: Result<Option<nat>>)
    requires IdsBelowNext(s)
    ensures r.Ok? && r.value.Some? ==> r.value.value in s.users
    ensures ClassifyUserKey(key).ById? ==> (r.Ok? <==> Has(s.users, key.id)) && (r.Fail? ==> r.error == NoSuchId("User"))
    ensures ClassifyUserKey(key).ByEmail? ==> r.Ok? && (r.value.None? <==> forall k :: k in s.users ==> s.users[k].email != key.text)
    ensures ClassifyUserKey(key).ByName? ==>
      (r.Fail? <==> forall k :: k in s.users ==> s.users[k].username != key.text)
      && (r.Fail? ==> r.error == NoSuchField("User"))
      && (r.Ok? ==> r.value.Some? && s.users[r.value.value].username == key.text)
    ensures ClassifyUserKey(key).Unresolved? ==> r == Fail(Raise(BadRequest400, UnresolvedUserKey))
  {
    match ClassifyUserKey(key)
    case ById(id) =>
      var k :- Find(s.users, id, "User");
      Ok(Some(k))
    case ByEmail(email) => Ok(UserWithEmail(s, email))
    case ByName(name) =>
      var k :- FindWhere(s.users, s.next, (u: User) => u.username == name, "User");
      Ok(Some(k))
    case Unresolved => Fail(Raise(BadRequest400, UnresolvedUserKey))
  }

  /** An email-shaped key is never read as a username, even when no user has it as
      email and some user has it as username. */
  lemma EmailKeyNeverUsername(s: Store, text: string)
    requires IdsBelowNext(s) && IsEmail(text)
    requires forall k :: k in s.users ==> s.users[k].email != text
    ensures GetUser(s, StrKey(text)) == Ok(None)
  {
  }

  /** A key with a character other than a letter, digit or '_' that is not an email
      is refused with 400. */
  lemma PunctuatedKeyUnresolved(s: Store)
    requires IdsBelowNext(s)
    ensures GetUser(s, StrKey("a-b")) == Fail(Raise(BadRequest400, UnresolvedUserKey))
    ensures GetUser(s, StrKey("")) == Fail(Raise(BadRequest400, UnresolvedUserKey))
  {
    HyphenatedKeyIsNoName();
    assert !IsEmail("");
  }

  /** "a-b" is neither an address nor, with '_' removed, alphanumeric. */
  lemma HyphenatedKeyIsNoName()
    ensures !IsEmail("a-b") && !IsAlnum(Delete("a-b", '_'))
  {
    HyphenatedKeyIsNoEmail();
    HyphenatedKeyKeepsHyphen();
  }

  lemma HyphenatedKeyIsNoEmail()
    ensures !IsEmail("a-b")
  {
    assert FindLast("a-b", '@').None?;
  }

  lemma HyphenatedKeyKeepsHyphen()
    ensures !IsAlnum(Delete("a-b", '_'))
  {
    assert "a-b" == ['a', '-', 'b'];
    assert '_' !in "a-b";
    assert !IsAlnumChar("a-b"[1]);
  }

  /** `PATCH /users/{user_id}/`: the user themself or an admin. */
  function EditUser(s: Store, actor: Actor, hash: string -> string, userId: int, p: UserUpdate): (r: Result<(Store, nat)>)
    requires IdsBelowNext(s) && Committable(s) && RolesHeld(s)
    ensures !IsAdmin(actor) && actor.id as int != userId ==> r == Fail(Raise(Forbidden403, NotThatUser))
    ensures IsAdmin(actor) || actor.id as int == userId ==> r == UpdateUser(s, hash, userId, p)
  {
    Guarded(AccessGate(Some(actor), Some(userId)), UpdateUser(s, hash, userId, p))
  }

  /** `DELETE /users/{user_id}/`: the user themself or an admin; the user's
      notifications, questions, comments and ratings go too. */
  function RemoveUser(s: Store, actor: Actor, userId: int): (r: Result<Store>)
    ensures !IsAdmin(actor) && actor.id as int != userId ==> r == Fail(Raise(Forbidden403, NotThatUser))
    ensures r.Ok? <==> (IsAdmin(actor) || actor.id as int == userId) && Has(s.users, userId)
    ensures r.Ok? ==> r.value == DeleteUsers(s, {userId as nat})
  {
    Guarded(AccessGate(Some(actor), Some(userId)), DeleteUser(s, userId))
  }

  /** `POST /users/`: registration asks for no current user. */
  function PostUser(s: Store, hash: string -> string, uc: UserCreate, now: int): (r: Result<(Store, nat)>)
    requires IdsBelowNext(s) && UniqueUsernames(s.users) && UniqueEmails(s.users) && RolesHeld(s)
    ensures r.Ok? <==> !Clashes(s, uc.username, uc.email) && Has(s.roles, uc.roleId)
    ensures r.Ok? ==> var (t, id) := r.value; id in t.users && t.users[id].username == uc.username
  {
    CreateUser(s, hash, uc, now)
  }

  /** `GET /users/`: the window [skip, skip + limit) of the user table, for anyone. */
  function ListUsers(s: Store, skip: nat, limit: nat): (r: seq<nat>)
    requires IdsBelowNext(s)
    ensures forall i :: 0 <= i < |r| ==> r[i] in s.users
    ensures |r| == if skip >= |s.users| then 0 else Min(limit, |s.users| - skip)
  {
    GetObjects(s.users, s.next, Unordered, skip, limit)
  }
}

=== FILE: schemas.dfy ===
/** The request bodies of database/schemas.py: the `*Create` records, the partial
    `*Update` patches (every field optional: left out means "leave unchanged", an
    explicit null means "write NULL"), the merge `update_object` performs with
    `exclude_unset=True`, and the two-member `ArticleRatingType` enum. */
module Schemas {

  import opened Http
  import opened Models

  datatype RoleCreate = RoleCreate(title: string)
  datatype UserCreate = UserCreate(username: string, email: string, password: string, roleId: int)
  datatype NotificationCreate = NotificationCreate(title: string, userId: int, questionId: int)
  datatype TagCreate = TagCreate(title: string)
  /** `tags` and `author_id` may be omitted. */
  datatype QuestionCreate = QuestionCreate(
    title: string,
    content: string,
    tags: Option<seq<string>>,
    authorId: Option<int>)
  /** `author_id` may be omitted. */
  datatype CommentCreate = CommentCreate(content: string, questionId: int, authorId: Option<int>)
  datatype ArticleCreate = ArticleCreate(title: string, content: string)

  /** A field of an update body: left out, sent as JSON `null`, or sent with a value.
      `dict(exclude_unset=True)` keeps a field sent as null, so the merge writes
      `None` into its column. */
  datatype Patch<T> = Unset | Null | Set(value: T) {
    /** The value the merge writes when the field is not null: the sent one, or
        `current` when the field was left out. */
    function Or(current: T): T {
      if Set? then value else current
    }

    /** The field as a handler reads it: left out and null both read as `None`. */
    function AsOption(): (o: Option<T>)
      ensures o.Some? <==> Set?
      ensures o.Some? ==> o.value == value
    {
      if Set? then Some(value) else None
    }
  }

  datatype RoleUpdate = RoleUpdate(title: Patch<string>) {
    /** The merge would write NULL into a column. */
    predicate WritesNull() {
      title.Null?
    }
  }

  datatype UserUpdate = UserUpdate(email: Patch<string>, password: Patch<string>, profileImage: Patch<string>) {
    predicate WritesNull() {
      email.Null? || password.Null? || profileImage.Null?
    }
  }

  datatype NotificationUpdate = NotificationUpdate(title: Patch<string>) {
    predicate WritesNull() {
      title.Null?
    }
  }

  datatype TagUpdate = TagUpdate(title: Patch<string>) {
    predicate WritesNull() {
      title.Null?
    }
  }

  /** `tags` never reaches the merge, so a null there writes nothing. */
  datatype QuestionUpdate = QuestionUpdate(
    title: Patch<string>,
    content: Patch<string>,
    tags: Patch<seq<string>>,
    views: Patch<int>)
  {
    predicate WritesNull() {
      title.Null? || content.Null? || views.Null?
    }
  }

  datatype CommentUpdate = CommentUpdate(content: Patch<string>, isAnswer: Patch<bool>) {
    predicate WritesNull() {
      content.Null? || isAnswer.Null?
    }
  }

  datatype ArticleUpdate = ArticleUpdate(title: Patch<string>, content: Patch<string>) {
    predicate WritesNull() {
      title.Null? || content.Null?
    }
  }

  // ---------------------------------------------------------------------------
  // Which columns a patch sends and which columns two rows differ in

  datatype Field = Title | Content | Views | Email | Password | ProfileImage | IsAnswer

  /** A field counts as set, in the sense of `exclude_unset`, whenever it was sent. */
  function IfSet<T>(o: Patch<T>, f: Field): set<Field> {
    if o.Unset? then {} else {f}
  }

  function IfDiffers<T(==)>(a: T, b: T, f: Field): set<Field> {
    if a != b then {f} else {}
  }

  function RolePatchFields(p: RoleUpdate): set<Field> {
    IfSet(p.title, Title)
  }

  function UserPatchFields(p: UserUpdate): set<Field> {
    IfSet(p.email, Email) + IfSet(p.password, Password) + IfSet(p.profileImage, ProfileImage)
  }

  function QuestionPatchFields(p: QuestionUpdate): set<Field> {
    IfSet(p.title, Title) + IfSet(p.content, Content) + IfSet(p.views, Views)
  }

  function CommentPatchFields(p: CommentUpdate): set<Field> {
    IfSet(p.content, Content) + IfSet(p.isAnswer, IsAnswer)
  }

  function ArticlePatchFields(p: ArticleUpdate): set<Field> {
    IfSet(p.title, Title) + IfSet(p.content, Content)
  }

  /** The patchable columns two rows differ in. */
  function UserDiff(a: User, b: User): set<Field> {
    IfDiffers(a.email, b.email, Email) + IfDiffers(a.password, b.password, Password)
      + IfDiffers(a.profileImage, b.profileImage, ProfileImage)
  }

  function QuestionDiff(a: Question, b: Question): set<Field> {
    IfDiffers(a.title, b.title, Title) + IfDiffers(a.content, b.content, Content)
      + IfDiffers(a.views, b.views, Views)
  }

  function CommentDiff(a: Comment, b: Comment): set<Field> {
    IfDiffers(a.content, b.content, Content) + IfDiffers(a.isAnswer, b.isAnswer, IsAnswer)
  }

  function ArticleDiff(a: Article, b: Article): set<Field> {
    IfDiffers(a.title, b.title, Title) + IfDiffers(a.content, b.content, Content)
  }

  // ---------------------------------------------------------------------------
  // The merges: a sent field overwrites its column, a field left out keeps it, and
  // a null makes the row one the NOT NULL columns of models.py refuse (`None`)

  function MergeRole(r: Role, p: RoleUpdate): (m: Option<Role>)
    ensures m.None? <==> p.WritesNull()
    ensures p.title.Unset? ==> m == Some(r)
    ensures p.title.Set? ==> m.Some? && m.value.title == p.title.value
  {
    if p.WritesNull() then None else Some(Role(p.title.Or(r.title)))
  }

  function MergeNotification(n: Notification, p: NotificationUpdate): (m: Option<Notification>)
    ensures m.None? <==> p.WritesNull()
    ensures m.Some? ==> m.value.userId == n.userId && m.value.questionId == n.questionId
    ensures p.title.Unset? ==> m == Some(n)
    ensures p.title.Set? ==> m.Some? && m.value.title == p.title.value
  {
    if p.WritesNull() then None else Some(n.(title := p.title.Or(n.title)))
  }

  function MergeTag(t: Tag, p: TagUpdate): (m: Option<Tag>)
    ensures m.None? <==> p.WritesNull()
    ensures p.title.Unset? ==> m == Some(t)
    ensures p.title.Set? ==> m.Some? && m.value.title == p.title.value
  {
    if p.WritesNull() then None else Some(Tag(p.title.Or(t.title)))
  }

  /** `password` here is the value to store, already hashed by the caller. */
  function MergeUser(u: User, p: UserUpdate): (m: Option<User>)
    ensures m.None? <==> p.WritesNull()
    ensures m.Some? ==> UserDiff(u, m.value) <= UserPatchFields(p)
    ensures m.Some? ==> m.value.username == u.username && m.value.roleId == u.roleId && m.value.created == u.created
    ensures m.Some? && p.email.Set? ==> m.value.email == p.email.value
    ensures m.Some? && p.password.Set? ==> m.value.password == p.password.value
    ensures m.Some? && p.profileImage.Set? ==> m.value.profileImage == p.profileImage.value
  {
    if p.WritesNull() then None
    else
      Some(u.(email := p.email.Or(u.email),
              password := p.password.Or(u.password),
              profileImage := p.profileImage.Or(u.profileImage)))
  }

  /** The `tags` field is excluded from the merge; it is applied separately. */
  function MergeQuestion(q: Question, p: QuestionUpdate): (m: Option<Question>)
    ensures m.None? <==> p.WritesNull()
    ensures m.Some? ==> QuestionDiff(q, m.value) <= QuestionPatchFields(p)
    ensures m.Some? ==> m.value.authorId == q.authorId && m.value.created == q.created && m.value.tags == q.tags
    ensures m.Some? && p.title.Set? ==> m.value.title == p.title.value
    ensures m.Some? && p.content.Set? ==> m.value.content == p.content.value
    ensures m.Some? && p.views.Set? ==> m.value.views == p.views.value
  {
    if p.WritesNull() then None
    else
      Some(q.(title := p.title.Or(q.title),
              content := p.content.Or(q.content),
              views := p.views.Or(q.views)))
  }

  function MergeComment(c: Comment, p: CommentUpdate): (m: Option<Comment>)
    ensures m.None? <==> p.WritesNull()
    ensures m.Some? ==> CommentDiff(c, m.value) <= CommentPatchFields(p)
    ensures m.Some? ==> m.value.authorId == c.authorId && m.value.questionId == c.questionId && m.value.created == c.created
    ensures m.Some? && p.content.Set? ==> m.value.content == p.content.value
    ensures m.Some? && p.isAnswer.Set? ==> m.value.isAnswer == p.isAnswer.value
  {
    if p.WritesNull() then None
    else Some(c.(content := p.content.Or(c.content), isAnswer := p.isAnswer.Or(c.isAnswer)))
  }

  function MergeArticle(a: Article, p: ArticleUpdate): (m: Option<Article>)
    ensures m.None? <==> p.WritesNull()
    ensures m.Some? ==> ArticleDiff(a, m.value) <= ArticlePatchFields(p)
    ensures m.Some? ==> m.value.created == a.created && m.value.likes == a.likes && m.value.dislikes == a.dislikes
    ensures m.Some? && p.title.Set? ==> m.value.title == p.title.value
    ensures m.Some? && p.content.Set? ==> m.value.content == p.content.value
  {
    if p.WritesNull() then None
    else Some(a.(title := p.title.Or(a.title), content := p.content.Or(a.content)))
  }

  lemma UserMergeIdempotent(u: User, p: UserUpdate)
    ensures MergeUser(u, p).Some? ==> MergeUser(MergeUser(u, p).value, p) == MergeUser(u, p)
    ensures UserPatchFields(p) == {} ==> MergeUser(u, p) == Some(u)
  {
    if UserPatchFields(p) == {} {
      assert p.email.Unset? && p.password.Unset? && p.profileImage.Unset?;
    }
  }

  lemma QuestionMergeIdempotent(q: Question, p: QuestionUpdate)
    ensures MergeQuestion(q, p).Some? ==> MergeQuestion(MergeQuestion(q, p).value, p) == MergeQuestion(q, p)
    ensures QuestionPatchFields(p) == {} ==> MergeQuestion(q, p) == Some(q)
  {
    if QuestionPatchFields(p) == {} {
      assert p.title.Unset? && p.content.Unset? && p.views.Unset?;
    }
  }

  lemma CommentMergeIdempotent(c: Comment, p: CommentUpdate)
    ensures MergeComment(c, p).Some? ==> MergeComment(MergeComment(c, p).value, p) == MergeComment(c, p)
    ensures CommentPatchFields(p) == {} ==> MergeComment(c, p) == Some(c)
  {
    if CommentPatchFields(p) == {} {
      assert p.content.Unset? && p.isAnswer.Unset?;
    }
  }

  lemma ArticleMergeIdempotent(a: Article, p: ArticleUpdate)
    ensures MergeArticle(a, p).Some? ==> MergeArticle(MergeArticle(a, p).value, p) == MergeArticle(a, p)
    ensures ArticlePatchFields(p) == {} ==> MergeArticle(a, p) == Some(a)
  {
    if ArticlePatchFields(p) == {} {
      assert p.title.Unset? && p.content.Unset?;
    }
  }

  /** Applying the same patch twice is applying it once, and a patch that sends no
      field changes nothing. */
  lemma MergesIdempotent(u: User, pu: UserUpdate, q: Question, pq: QuestionUpdate,
                         c: Comment, pc: CommentUpdate, a: Article, pa: ArticleUpdate)
    ensures MergeUser(u, pu).Some? ==> MergeUser(MergeUser(u, pu).value, pu) == MergeUser(u, pu)
    ensures MergeQuestion(q, pq).Some? ==> MergeQuestion(MergeQuestion(q, pq).value, pq) == MergeQuestion(q, pq)
    ensures MergeComment(c, pc).Some? ==> MergeComment(MergeComment(c, pc).value, pc) == MergeComment(c, pc)
    ensures MergeArticle(a, pa).Some? ==> MergeArticle(MergeArticle(a, pa).value, pa) == MergeArticle(a, pa)
    ensures UserPatchFields(pu) == {} ==> MergeUser(u, pu) == Some(u)
    ensures QuestionPatchFields(pq) == {} ==> MergeQuestion(q, pq) == Some(q)
    ensures CommentPatchFields(pc) == {} ==> MergeComment(c, pc) == Some(c)
    ensures ArticlePatchFields(pa) == {} ==> MergeArticle(a, pa) == Some(a)
  {
    UserMergeIdempotent(u, pu);
    QuestionMergeIdempotent(q, pq);
    CommentMergeIdempotent(c, pc);
    ArticleMergeIdempotent(a, pa);
  }

  /** The patch that sends every column with another row's values turns any row with
      the same fixed columns into that row: the merge reaches every patchable
      column. */
  lemma MergeReachesEveryPatchableColumn(u: User, v: User)
    requires u.username == v.username && u.roleId == v.roleId && u.created == v.created
    ensures MergeUser(u, UserUpdate(Set(v.email), Set(v.password), Set(v.profileImage))) == Some(v)
  {
  }

  // ---------------------------------------------------------------------------
  // ArticleRatingType

  datatype RatingType = Likes | Dislikes

  /** `ArticleRatingType._member_names_`, in declaration order. */
  const RatingMembers: seq<RatingType> := [Likes, Dislikes]

  /** `names.index(t)` */
  function MemberIndex(t: RatingType): (i: nat)
    ensures i < |RatingMembers| && RatingMembers[i] == t
  {
    match t
    case Likes => 0
    case Dislikes => 1
  }

  /** Python indexing, where a negative index counts from the end. */
  function PyIndex<T>(xs: seq<T>, i: int): (r: T)
    requires -|xs| <= i < |xs|
    ensures i >= 0 ==> r == xs[i]
    ensures i < 0 ==> r == xs[|xs| + i]
  {
    if i < 0 then xs[|xs| + i] else xs[i]
  }

  /** `names[names.index(t) - 1]`: the list the toggle clears. */
  function Opposite(t: RatingType): (o: RatingType)
    ensures o != t
  {
    PyIndex(RatingMembers, MemberIndex(t) - 1)
  }

  lemma OppositeSwaps(t: RatingType)
    ensures Opposite(Likes) == Dislikes && Opposite(Dislikes) == Likes
    ensures Opposite(Opposite(t)) == t
  {
  }

  /** The association list an article keeps for `t`. */
  function Raters(a: Article, t: RatingType): seq<nat> {
    match t
    case Likes => a.likes
    case Dislikes => a.dislikes
  }

  function WithRaters(a: Article, t: RatingType, xs: seq<nat>): (r: Article)
    ensures Raters(r, t) == xs
    ensures Raters(r, Opposite(t)) == Raters(a, Opposite(t))
    ensures r.title == a.title && r.content == a.content && r.created == a.created
  {
    match t
    case Likes => a.(likes := xs)
    case Dislikes => a.(dislikes := xs)
  }
}

=== FILE: security_router.dfy ===
/** security/router.py: `POST /api/token/`, the password login that issues a bearer
    token whose subject is the user's username. */
module SecurityRouter {

  import opened Http
  import opened Models
  import opened Email
  import opened Services
  import opened SecurityToken
  import opened OAuth2
  import opened Dependencies

  const IncorrectLogin: string := "Incorrect username or password"
  const TokenType: string := "bearer"

  /** The `Token` response body. */
  datatype TokenResponse = TokenResponse(accessToken: string, tokenType: string)

  /** The claims a login signs for the user named `name`: the subject and an expiry
      one access-token lifetime after `now`. */
  function LoginClaims(name: string, now: int): (c: Claims)
    ensures c.Keys == {"sub", "exp"}
    ensures c["sub"] == Text(name) && c["exp"] == Instant(now + AccessTokenExpireMinutes * 60)
  {
    TokenClaims(map["sub" := Text(name)], now, Some(AccessTokenExpireMinutes * 60))
  }

  /** `login_for_access_token`: 401 with a bearer challenge when authentication fails;
      otherwise a token for `{"sub": username}` that lives for the access-token
      lifetime. The subject is the stored username even when the login name was an
      email address. */
  function Login(s: Store, verify: (string, string) -> bool, encode: Claims -> string, now: int, username: string, password: string): (r: Result<TokenResponse>)
    requires IdsBelowNext(s)
    ensures r.Fail? <==> AuthenticateUser(s, verify, username, password).None?
    ensures r.Fail? ==> r.error == Error(Unauthorized401, IncorrectLogin, true)
    ensures r.Ok? ==>
      var k := AuthenticateUser(s, verify, username, password).value;
      && r.value.tokenType == "bearer"
      && r.value.accessToken == encode(LoginClaims(s.users[k].username, now))
  {
    match AuthenticateUser(s, verify, username, password)
    case None => Fail(Error(Unauthorized401, IncorrectLogin, true))
    case Some(k) =>
      var token := CreateAccessToken(encode, map["sub" := Text(s.users[k].username)], now, Some(AccessTokenExpireMinutes * 60));
      Ok(TokenResponse(token, TokenType))
  }

  /** A login token decodes, under a sound codec, to a subject naming the user. */
  lemma LoginTokenSubject(encode: Claims -> string, decode: string -> Option<Claims>, name: string, now: int)
    requires SoundCodec(encode, decode)
    ensures decode(encode(LoginClaims(name, now))).Some?
    ensures Subject(decode(encode(LoginClaims(name, now))).value) == Some(name)
  {
    assert decode(encode(LoginClaims(name, now))) == Some(LoginClaims(name, now));
  }

  /** A token from a successful login resolves back to the user who logged in, by
      whichever name they logged in with, at any time up to an hour after the login,
      as long as the codec round-trips, usernames are unique, and the username is not
      shaped like an email address. */
  lemma {:induction false} LoginRoundTrip(s: Store, verify: (string, string) -> bool, encode: Claims -> string, decode: string -> Option<Claims>, now: int, later: int, username: string, password: string)
    requires IdsBelowNext(s) && UniqueUsernames(s.users) && SoundCodec(encode, decode)
    requires Login(s, verify, encode, now, username, password).Ok?
    requires !IsEmail(s.users[AuthenticateUser(s, verify, username, password).value].username)
    requires later <= now + AccessTokenExpireMinutes * 60
    ensures GetUser(s, decode, later, Login(s, verify, encode, now, username, password).value.accessToken)
      == Ok(AuthenticateUser(s, verify, username, password).value)
  {
    var k := AuthenticateUser(s, verify, username, password).value;
    var name := s.users[k].username;
    LoginTokenSubject(encode, decode, name, now);
    var found := UserByLogin(s, name);
    assert found.Some? && s.users[found.value].username == name;
  }

  /** A login token is refused from the second after its hour is up. */
  lemma LoginTokenExpires(s: Store, verify: (string, string) -> bool, encode: Claims -> string, decode: string -> Option<Claims>, now: int, later: int, username: string, password: string)
    requires IdsBelowNext(s) && SoundCodec(encode, decode)
    requires Login(s, verify, encode, now, username, password).Ok?
    requires later > now + AccessTokenExpireMinutes * 60
    ensures GetUser(s, decode, later, Login(s, verify, encode, now, username, password).value.accessToken) == Fail(CredentialsError)
  {
    var name := s.users[AuthenticateUser(s, verify, username, password).value].username;
    LoginTokenSubject(encode, decode, name, now);
  }

  /** The converse case: a user whose username is email-shaped, and which is nobody's
      email, can log in but is refused with the very token the login issued. */
  lemma EmailShapedUsernameLocksOut(s: Store, verify: (string, string) -> bool, encode: Claims -> string, decode: string -> Option<Claims>, now: int, later: int, username: string, password: string)
    requires IdsBelowNext(s) && SoundCodec(encode, decode)
    requires Login(s, verify, encode, now, username, password).Ok?
    requires var name := s.users[AuthenticateUser(s, verify, username, password).value].username;
      IsEmail(name) && forall j :: j in s.users ==> s.users[j].email != name
    ensures GetUser(s, decode, later, Login(s, verify, encode, now, username, password).value.accessToken) == Fail(CredentialsError)
  {
    var k := AuthenticateUser(s, verify, username, password).value;
    var name := s.users[k].username;
    LoginTokenSubject(encode, decode, name, now);
    EmailShapedUsernameHidden(s, name);
  }
}

=== FILE: security_token.dfy ===
/** security/security_token.py: the claims `create_access_token` signs. The claims
    are the registered `sub` (section 4.1.2 of RFC 7519) and `exp` (section 4.1.4 of
    RFC 7519); the signing itself, HMAC with SHA-256 as section 3.2 of RFC 7518
    defines `HS256`, is a parameter. Times are integer seconds. */
module SecurityToken {

  import opened Http

  const Algorithm: string := "HS256"
  const AccessTokenExpireMinutes: nat := 60
  /** The lifetime `create_access_token` falls back to. */
  const DefaultExpireMinutes: nat := 15

  /** A claim value: text, or an instant in seconds. */
  datatype Claim = Text(text: string) | Instant(seconds: int)

  type Claims = map<string, Claim>

  /** `timedelta` truthiness: a delta is falsy exactly when it is absent or zero. */
  predicate DeltaGiven(expiresDelta: Option<int>) {
    expiresDelta.Some? && expiresDelta.value != 0
  }

  /** The `exp` instant: `now` plus the given delta, or plus 15 minutes without one. */
  function ExpiryOf(now: int, expiresDelta: Option<int>): (exp: int)
    ensures DeltaGiven(expiresDelta) ==> exp == now + expiresDelta.value
    ensures !DeltaGiven(expiresDelta) ==> exp == now + DefaultExpireMinutes * 60
  {
    if DeltaGiven(expiresDelta) then now + expiresDelta.value else now + DefaultExpireMinutes * 60
  }

  /** `to_encode`: a copy of the caller's claims with `exp` set, overriding any `exp`
      the caller passed. The caller's own map is a value and stays as it was. */
  function TokenClaims(data: Claims, now: int, expiresDelta: Option<int>): (c: Claims)
    ensures c.Keys == data.Keys + {"exp"}
    ensures c["exp"] == Instant(ExpiryOf(now, expiresDelta))
    ensures forall k :: k in data && k != "exp" ==> c[k] == data[k]
  {
    data["exp" := Instant(ExpiryOf(now, expiresDelta))]
  }

  /** `create_access_token`: the signed claims. */
  function CreateAccessToken(encode: Claims -> string, data: Claims, now: int, expiresDelta: Option<int>): (token: string)
  {
    encode(TokenClaims(data, now, expiresDelta))
  }

  /** The expiry check `jwt.decode` makes after the signature check, as section 4.1.4
      of RFC 7519 describes it and with no leeway: a token without `exp` passes, one
      whose `exp` is not a number is refused, and so is one whose `exp` lies before
      `now`. */
  predicate Expired(claims: Claims, now: int) {
    "exp" in claims && (claims["exp"].Text? || claims["exp"].seconds < now)
  }

  /** What the signing library promises: a token it signed decodes to its claims. */
  ghost predicate SoundCodec(encode: Claims -> string, decode: string -> Option<Claims>) {
    forall c :: decode(encode(c)) == Some(c)
  }

  /** Under a sound codec, the token's claims come back with the subject unchanged
      and the expiry `now` plus the delta, or plus 15 minutes when the delta is
      falsy. */
  lemma TokenDecodes(encode: Claims -> string, decode: string -> Option<Claims>, data: Claims, now: int, expiresDelta: Option<int>)
    requires SoundCodec(encode, decode)
    ensures var d := decode(CreateAccessToken(encode, data, now, expiresDelta));
      && d.Some?
      && d.value.Keys == data.Keys + {"exp"}
      && ("sub" in data ==> d.value["sub"] == data["sub"])
      && d.value["exp"] == Instant(if DeltaGiven(expiresDelta) then now + expiresDelta.value else now + 900)
  {
  }

  /** A signed token passes the expiry check exactly up to and including its `exp`
      second, and fails from the second after. */
  lemma TokenLifetime(encode: Claims -> string, decode: string -> Option<Claims>, data: Claims, issued: int, expiresDelta: Option<int>, at: int)
    requires SoundCodec(encode, decode)
    ensures decode(CreateAccessToken(encode, data, issued, expiresDelta)).Some?
    ensures !Expired(decode(CreateAccessToken(encode, data, issued, expiresDelta)).value, at)
      <==> at <= ExpiryOf(issued, expiresDelta)
  {
    var c := TokenClaims(data, issued, expiresDelta);
    assert decode(encode(c)) == Some(c);
  }
}

=== FILE: services.dfy ===
/** services.py: `get_user_by_username_or_email`, the lookup behind login and token
    resolution. The `isemail` recognizer it dispatches on is `Email.IsEmail`. */
module Services {

  import opened Http
  import opened Models
  import opened Email
  import opened UserCrud

  /** Looks `name` up by email when it is email-shaped and by username otherwise,
      never both; `None` when that one lookup finds nobody. */
  function UserByLogin(s: Store, name: string): (r: Option<nat>)
    requires IdsBelowNext(s)
    ensures r.Some? ==> r.value in s.users
    ensures IsEmail(name) ==>
      (r.Some? <==> exists k :: k in s.users && s.users[k].email == name)
      && (r.Some? ==> s.users[r.value].email == name)
    ensures !IsEmail(name) ==>
      (r.Some? <==> exists k :: k in s.users && s.users[k].username == name)
      && (r.Some? ==> s.users[r.value].username == name)
  {
    if IsEmail(name) then UserWithEmail(s, name) else UserWithUsername(s, name)
  }

  /** A user whose username is email-shaped cannot be found by it unless some user
      has that string as email. */
  lemma EmailShapedUsernameHidden(s: Store, name: string)
    requires IdsBelowNext(s) && IsEmail(name)
    requires forall k :: k in s.users ==> s.users[k].email != name
    ensures UserByLogin(s, name).None?
  {
  }

  /** Under unique columns the lookup names the one user it matches. */
  lemma UserByLoginUnique(s: Store, name: string, k: nat)
    requires IdsBelowNext(s) && UniqueUsernames(s.users) && UniqueEmails(s.users)
    requires k in s.users && (if IsEmail(name) then s.users[k].email == name else s.users[k].username == name)
    ensures UserByLogin(s, name) == Some(k)
  {
  }
}
